=== FILE: README.md ===
# Chatrix in Dafny

Chatrix is a language-exchange chat. Users register with the languages they
speak natively and the ones they are learning. The server offers each user
partners whose languages complement theirs. A user sends a connection request
for one language pair, and the partner accepts, declines or the sender
cancels it. Accepted pairs chat in real time over a socket. Every text
message is machine-translated into the target language the client names:
the language the sender is learning in that conversation, else the
partner's first native language, else `es`. Each conversation keeps a day
streak.

This project models the core of that system as pure Dafny functions over
immutable data, and proves properties about it.

- **Schemas.** `models.dfy` models the three document schemas with their
  `required`, `enum` and default rules.
- **Collections.** `store.dfy` models the collections as sequences in
  insertion order.
- **REST controllers.** `auth_controller.dfy` and `chat_controller.dfy` model
  the controllers. Registration, login, the profile and profile update, the
  match query, connection requests and their status changes, the
  conversation lists, the message list and the leaderboard are each a
  function from a database value to a new database value and a reply.
- **Socket handler.** `relay.dfy`, `translate.dfy`, `streak.dfy`,
  `presence.dfy` and `events.dfy` model it. This covers the `send_message`
  pipeline with its translation fallback and calendar-day streak, typing
  notices, and the user-to-socket presence registry with its broadcasts.
- **Client logic.** Separate modules model the pure logic of the client:
  - `views.dfy`: the shapes of populated documents the client receives;
  - `sidebar.dfy`: the conversation list reducer and its row labels;
  - `chat_window.dfy`: message filtering, language choice for outgoing
    messages, call invitations, the translation line;
  - `discovery.dfy`: search, language pills, sections, request cards;
  - `requests.dfy`: request cards and their actions;
  - `register_form.dfy`, `edit_profile.dfy` and `toggles.dfy`: the
    language pickers and submit handlers;
  - `avatar.dfy`: the avatar colour hash.

The client and the server are tied together by lemmas that run a client
action against the server model. Examples:
- the match list the client prunes after a request equals the one the server
  would send back;
- saving an unchanged profile writes back the same record;
- a form the pickers built registers a user with exactly those languages.

Generic sequence and string helpers live in `base.dfy`, `seqs.dfy`, `text.dfy`
and `sorting.dfy`.

Modelling conventions:
- Absent JSON fields are `Option`.
- JavaScript's `||` on strings follows the language's truthiness: `""` is
  falsy. This is `Truthy`, `Or` and `OrElse`.
- Times are integer milliseconds.
- Effects outside the program become parameters:
  - the clock (`now`);
  - new document ids (`newId`, `msgId`);
  - the password hash and its comparison (`hash`, `matches`);
  - the translation service's answer (`Service`);
  - a failing storage call (`Fault`).

## Model

| member | source | states |
|---|---|---|
| Models.ParseLevel | backend/models/User.js:13 | a level string is accepted exactly when it is one of the four enum names, and it maps back to its name |
| Models.LevelNameRoundTrip | backend/models/User.js:13 | every level survives being written as its enum name and parsed back |
| Models.BuildEntry | backend/models/User.js:11-14 | a valid learning entry keeps its language, and a missing level becomes `beginner` |
| Models.BuildEntries | backend/models/User.js:11-14 | entry by entry, in order, the stored list keeps each language and level (default `beginner`) |
| Models.NewUser | backend/models/User.js:3-22 | creation succeeds exactly when username, email and password are non-empty, every native entry is non-empty and every learning entry is valid. The user then carries those fields and the defaults: empty avatar, `UTC`, offline, `lastActive` and `createdAt` now |
| Models.LearningCodes | backend/controllers/chatController.js:28 | the codes are the entries' languages, position by position |
| Models.ParseStatus | backend/models/Conversation.js:7 | a status string is accepted exactly when it is `pending`, `accepted` or `rejected` |
| Models.StatusNameRoundTrip | backend/models/Conversation.js:7 | every status survives printing and parsing |
| Models.NewConversation | backend/models/Conversation.js:3-26 | creation succeeds exactly when requester and recipient are present and the status is in the enum. The document has no last message, streak 0 and `updatedAt` now |
| Models.ParseType | backend/models/Message.js:10 | a type string is accepted exactly when it is one of the four enum names |
| Models.TypeNameRoundTrip | backend/models/Message.js:10 | every message type survives printing and parsing |
| Models.NewMessage | backend/models/Message.js:3-13 | creation succeeds exactly when the required fields are present. A missing type becomes `text` and `createdAt` is now |
| Store.UserByEmail | backend/controllers/authController.js:10 | the lookup finds a user holding that email, and finds none only when no user has it |
| Store.UserById | backend/controllers/authController.js:82 | the lookup finds a user with that id, and finds none only when no user has it |
| AuthController.FinalNative | backend/controllers/authController.js:17 | a sent native list is used as is, even empty; otherwise a non-empty legacy value becomes a one-element list; otherwise the list is empty |
| AuthController.FinalLearning | backend/controllers/authController.js:18 | the same rule for learning entries; a legacy value becomes one entry at `beginner` |
| AuthController.ByEmail | backend/controllers/authController.js:10 | with an email, a user holding it, and none only when no user has it. Without an email the condition is dropped and the first stored user is found, none only in an empty store |
| AuthController.Register | backend/controllers/authController.js:6-45 | a taken email is 400 `User already exists` with nothing written, and so is a body without an email when any user is stored. Success happens exactly when the draft validates, no unique index clashes and the counter can be created. The new user is appended with the hashed password and the chosen languages, entry by entry; their counter starts at 0 and the reply is the profile. Every other failure is 500 `Server error`; when only the counter cannot be created, the user stays stored |
| AuthController.LegacyMatchesLists | backend/controllers/authController.js:16-18 | a legacy single-language body registers the same user as the equivalent list body |
| AuthController.Login | backend/controllers/authController.js:47-68 | a known email with a matching password gives that user's profile. An unknown email and a wrong password get the same 401. A known email without a password is 500, so success always means a password that matches the found user's hash |
| AuthController.LoginWithoutEmail | backend/controllers/authController.js:49-59 | a login without an email checks the password against the first stored user and, on a match, logs in as that user |
| AuthController.RegisterThenLogin | backend/controllers/authController.js:6-68 | whoever registers can log in with the same email and password |
| AuthController.GetProfile | backend/controllers/authController.js:70-78 | 404 exactly when no user has the id; otherwise that user without the password |
| AuthController.UpdateProfile | backend/controllers/authController.js:80-107 | 404 for an unknown user. Otherwise success happens exactly when the merged record validates and the username is free. Only the username (when a non-empty one is sent) and each sent language list change, entry by entry. Email, password and everything else are untouched, and a failure writes nothing |
| AuthController.EntriesRoundTrip | backend/controllers/authController.js:88 | sending a user's stored entries back as an update body rebuilds exactly those entries |
| AuthController.UpdateIdempotent | backend/controllers/authController.js:80-107 | applying the same accepted update twice gives the same record as applying it once |
| ChatController.Excluded | backend/controllers/chatController.js:31-39 | the excluded ids are exactly the caller and everyone sharing a conversation with the caller |
| ChatController.MatchOf | backend/controllers/chatController.js:51-66 | `canTeachMe` is the candidate's natives that the caller learns, in the candidate's order and with every repeat kept. `wantsToLearn` is the candidate's learning codes that the caller speaks, likewise. Both are non-empty exactly when the two are compatible; the password is dropped |
| ChatController.FindMatch | backend/controllers/chatController.js:19-74 | 404 exactly for an unknown caller. Otherwise every returned match is an eligible user (compatible, not the caller, no shared conversation) and every eligible user is returned |
| ChatController.MatchesAreEligible | backend/controllers/chatController.js:44-67 | mapping the filtered users gives exactly the eligible users' matches |
| ChatController.ConnectedNeverMatched | backend/controllers/chatController.js:31-45 | two users who share any conversation are never offered to each other |
| ChatController.SamePairIsUnordered | backend/controllers/chatController.js:88-92 | for two distinct languages the duplicate query matches the same two users with the same two languages in either order |
| ChatController.SendConnectionRequest | backend/controllers/chatController.js:77-129 | a missing language is 400, and a pair the users already have is 400. Otherwise a pending conversation is appended with both participants, the languages `[teach, learn]` and the learning map (receiver learns teach, sender learns learn), with streak 0. Every failure writes nothing |
| ChatController.RepeatRequestRefused | backend/controllers/chatController.js:88-96 | after a request, repeating it, or the receiver asking back with the languages swapped, is refused as a duplicate |
| ChatController.RequestEndsMatching | backend/controllers/chatController.js:31-45 | once a request exists, neither user is offered the other as a match |
| ChatController.UpdateConnectionStatus | backend/controllers/chatController.js:132-160 | unknown id is 404. Cancelling is allowed only to the requester and deletes the conversation. Another status is allowed only to the recipient and changes just the status, or is 500 when outside the enum. Failures write nothing |
| ChatController.GetConversations | backend/controllers/chatController.js:163-188 | the list holds each conversation of the chosen kind as often as stored (`pending` received, `sent`, otherwise accepted chats), newest update first |
| ChatController.ListedIff | backend/controllers/chatController.js:167-177 | a stored conversation is listed exactly when it belongs to the chosen kind |
| ChatController.RequestIsPending | backend/controllers/chatController.js:169-173 | a new request shows in the recipient's pending list and the sender's sent list |
| ChatController.RequestNotActive | backend/controllers/chatController.js:174-177 | a new request is in neither user's chats |
| ChatController.AcceptedIsActive | backend/controllers/chatController.js:149-156 | after the recipient accepts, the conversation is in both participants' chats and in no pending or sent list |
| ChatController.RequestLifecycle | backend/controllers/chatController.js:77-188 | after a request, the recipient's acceptance succeeds and the conversation is in both users' chats |
| ChatController.GetMessages | backend/controllers/chatController.js:190-198 | exactly the conversation's messages, each as often as stored, in stored order |
| ChatController.Leaderboard | backend/controllers/chatController.js:200-210 | at most ten stored conversations with a positive streak, each at most once (a sub-multiset of the store), longest first. Anything left out ranks no higher than anything shown, and nothing is left out while there is room |
| ChatController.LeaderboardSizeIsCount | backend/controllers/chatController.js:202-204 | the board holds min(10, number of conversations with a positive streak) entries |
| Sorting.SortDesc | backend/controllers/chatController.js:182 | the sort is a permutation in descending key order |
| Sorting.Take | backend/controllers/chatController.js:204 | `limit` keeps at most `n` elements, as a prefix |
| Translate.TranslateText | backend/sockets/chatSocket.js:7-18 | the service's text, or `[target] text` when the service fails |
| Translate.FallbackRoundTrip | backend/sockets/chatSocket.js:16 | the fallback string splits back into the tag and the original text |
| Translate.ResolveTranslation | backend/sockets/chatSocket.js:46-52 | only `text` messages are translated; every other kind keeps its content |
| Streak.RecordInteraction | backend/sockets/chatSocket.js:70-89 | the streak: same calendar day keeps it (0 becomes 1); the next day adds one; a larger gap restarts at 1. The last interaction becomes now and nothing else changes |
| Streak.StreakCountsConsecutiveDays | backend/sockets/chatSocket.js:70-89 | after messages in time order starting from a fresh conversation, the streak is the length of the run of consecutive active days ending today |
| Streak.StreakTrace | backend/sockets/chatSocket.js:81-87 | two messages on one day, then the next day, then after a gap, give streaks 1, 1, 2 and 1 |
| Streak.ActiveDaysBounded | backend/sockets/chatSocket.js:71-79 | in time order, no message falls on a day after the latest one |
| Relay.Touch | backend/sockets/chatSocket.js:66-89 | the conversation gets the new last message, `updatedAt` now and the streak update, and nothing else |
| Relay.Bump | backend/sockets/chatSocket.js:93 | the sender's counter goes up by one; without a counter document nothing is created |
| Relay.SendMessage | backend/sockets/chatSocket.js:42-102 | the steps run in order (store message, load and save conversation, count, fetch and emit). A failing step stops the rest but keeps what earlier steps wrote. The message reaches the room exactly when every step succeeds |
| Relay.AfterStore | backend/sockets/chatSocket.js:65-97 | once the message is stored: a missing conversation stops the run, and each later write happens only if the one before succeeded. The room event carries the stored message |
| Relay.Typing | backend/sockets/chatSocket.js:104-106 | exactly one `user_typing` event to the conversation's room, excluding the sender |
| Relay.TranslationFailureStillDelivers | backend/sockets/chatSocket.js:7-18 | a text message whose translation fails is still stored and delivered, carrying the tagged fallback |
| Relay.NonTextIsNotTranslated | backend/sockets/chatSocket.js:46-52 | an image, system notice or call invitation is stored with its content as its translation |
| Presence.LastSnapshot | backend/sockets/chatSocket.js:30 | the set of an online-users broadcast that was sent and that no later broadcast follows; none exactly when no broadcast was ever sent |
| Presence.Connect | backend/sockets/chatSocket.js:24-32 | an accepted id (present, non-empty, not `undefined`) is mapped to this socket and the new online set is broadcast. Otherwise nothing changes. Clients' last broadcast stays equal to the registry |
| Presence.Disconnect | backend/sockets/chatSocket.js:108-116 | a user goes offline only when the closing socket is their current one, with a broadcast. The registry stays consistent |
| Presence.OtherEventsKeepConsistent | backend/sockets/chatSocket.js:97 | message and typing events leave what clients know about presence unchanged |
| Presence.SecondTabWins | backend/sockets/chatSocket.js:108-114 | with two tabs, closing the older one leaves the user online |
| Presence.DisconnectOfflineIff | backend/sockets/chatSocket.js:111 | after connecting on socket `s`, closing socket `t` takes the user offline exactly when `t == s` |
| Views.OtherUser | frontend/src/components/Sidebar.jsx:106 | the first participant whose id is not the viewer's; none exactly when every participant is the viewer |
| Sidebar.OnMessage | frontend/src/components/Sidebar.jsx:30-41 | a text, image or call message for a listed conversation moves the first such row to the top, updated. The other rows keep their order and the ids stay a permutation. Anything else changes nothing |
| Sidebar.OnMessageIdempotent | frontend/src/components/Sidebar.jsx:30-41 | delivering the same message twice leaves the list as delivering it once |
| Sidebar.Bumped | frontend/src/components/Sidebar.jsx:35 | the row takes the message and its time, and nothing else changes |
| Sidebar.Preview | frontend/src/components/Sidebar.jsx:110-117 | for a populated message: `📷 Photo` for an image, `📞 Call` for a call invitation, else its text, or `Message` when the text is empty. `No messages yet` without a populated message; never empty |
| Sidebar.PreviewAfterMessage | frontend/src/components/Sidebar.jsx:30-41 | after a message arrives, the top row previews that message: photo, call, its text, or `Message` for empty text |
| Sidebar.LearnLabel | frontend/src/components/Sidebar.jsx:145 | the first of the viewer's learning codes that is among the conversation's languages, else the first language; always one of them |
| Sidebar.SpeakLabel | frontend/src/components/Sidebar.jsx:151 | the first native language among the conversation's languages, else the second language |
| Sidebar.RowOf | frontend/src/components/Sidebar.jsx:104-152 | the partner and their online dot. The streak badge shows exactly when the streak is positive, with the streak. The labels are LearnLabel's and SpeakLabel's, and the preview line is Preview's for the last message |
| Sidebar.LabelsOfPair | frontend/src/components/Sidebar.jsx:145-151 | for a pair created as `[teach, learn]`, a viewer learning `learn` and speaking `teach` sees exactly those labels |
| ChatWindow.OnIncoming | frontend/src/components/ChatWindow.jsx:113-116 | a message is appended exactly when it belongs to the open conversation, so the window never holds another conversation's message |
| ChatWindow.OriginalLanguage | frontend/src/components/ChatWindow.jsx:232 | the language the map gives the partner when truthy, else the viewer's first native when truthy, else `en`; never empty |
| ChatWindow.TargetLanguage | frontend/src/components/ChatWindow.jsx:233 | the language the map gives the viewer when truthy, else the partner's first native when truthy, else `es`; never empty |
| ChatWindow.Outgoing | frontend/src/components/ChatWindow.jsx:228-235 | the payload carries sender, conversation, content, kind and the two languages |
| ChatWindow.HandleSend | frontend/src/components/ChatWindow.jsx:225-239 | blank input sends nothing and keeps the input. Anything else sends the untrimmed text and clears the input |
| ChatWindow.SentTextIsStorable | frontend/src/components/ChatWindow.jsx:225-239 | anything sent passes message validation, and its stored translation is the service's, aimed at the target language |
| ChatWindow.CallRoundTrip | frontend/src/components/ChatWindow.jsx:164 | a call invitation's text is drawn as a video call exactly when it was one |
| ChatWindow.CallMessage | frontend/src/components/ChatWindow.jsx:161-168 | a `call_invite` from the viewer in this conversation, whose text reads back as the kind of call placed |
| ChatWindow.ImageMessage | frontend/src/components/ChatWindow.jsx:203-210 | an `image` message from the viewer in this conversation, carrying the data URL |
| ChatWindow.SendersShareLanguages | frontend/src/components/ChatWindow.jsx:165-233 | text, image and call messages from one conversation carry the same two languages, those of the two fallback chains |
| ChatWindow.TranslationLine | frontend/src/components/ChatWindow.jsx:358-361 | the line shows exactly under others' non-image, non-call messages while translation is on: the translation when truthy, else `Translating...` |
| ChatWindow.FailedTranslationIsShownTagged | frontend/src/components/ChatWindow.jsx:358-361 | when translation fails, the partner still receives the message and sees the tagged fallback under it |
| ChatWindow.OnlineFollowsPresence | frontend/src/components/ChatWindow.jsx:285-286 | the header shows the partner online right after they connect, and offline after that socket closes |
| Discovery.FilterMatches | frontend/src/pages/DiscoveryPage.jsx:22-41 | the shown list is the matches that pass the search and the language selection, in server order |
| Discovery.PipelineIsOneFilter | frontend/src/pages/DiscoveryPage.jsx:25-38 | the two filters in sequence equal one filter on their conjunction |
| Discovery.FiltersCommute | frontend/src/pages/DiscoveryPage.jsx:25-38 | selecting the language before searching shows the same list |
| Discovery.AvailableLanguages | frontend/src/pages/DiscoveryPage.jsx:74 | `All`, then every teachable language once, in first-seen order |
| Discovery.PillsShownIff | frontend/src/pages/DiscoveryPage.jsx:105 | the pills appear exactly when the matches teach at least two different languages |
| Discovery.AfterRequest | frontend/src/pages/DiscoveryPage.jsx:56-71 | on success the receiver leaves the list and the rest keep their order. On failure nothing changes |
| Discovery.EligibleAfterAppend | frontend/src/pages/DiscoveryPage.jsx:65 | a new conversation with `rid` removes exactly `rid` from the eligible users |
| Discovery.RefetchAfterAppend | frontend/src/pages/DiscoveryPage.jsx:65 | after that conversation the server's matches are the old ones minus `rid` |
| Discovery.AfterRequestMatchesRefetch | frontend/src/pages/DiscoveryPage.jsx:65 | the client's pruned list holds exactly the matches a refetch would return |
| Discovery.SectionsFrom | frontend/src/pages/DiscoveryPage.jsx:138-144 | each section is a selected language with the non-empty list of shown matches teaching it |
| Discovery.SectionsCover | frontend/src/pages/DiscoveryPage.jsx:138-144 | every selected language a shown match teaches gets a section |
| Discovery.SectionsInOrder | frontend/src/pages/DiscoveryPage.jsx:138 | sections follow the order of their languages |
| Discovery.Sections | frontend/src/pages/DiscoveryPage.jsx:138-144 | sections are sound, cover every shown teaching, and never repeat a language |
| Discovery.CardRequest | frontend/src/pages/DiscoveryPage.jsx:164-207 | the request names the card's user and teaches their first wanted language. It learns the section's language |
| Discovery.CardLevel | frontend/src/pages/DiscoveryPage.jsx:164-167 | the level the page computes (it is not displayed): the user's own level for the language they want, else `Beginner` |
| Discovery.CardRequestFromMatch | frontend/src/pages/DiscoveryPage.jsx:164-207 | a card's request for a server match names a language the caller speaks and one the partner speaks, and the level the page computes for it (not displayed) is the partner's own |
| Discovery.CardOfEligible | frontend/src/pages/DiscoveryPage.jsx:164-207 | the same for the match built from an eligible user |
| Discovery.TeachIsLearned | frontend/src/pages/DiscoveryPage.jsx:166 | the first language a match wants to learn is one of their entries |
| Discovery.LevelNotFallback | frontend/src/pages/DiscoveryPage.jsx:167 | with such an entry the computed level (not displayed) is never the fallback `Beginner` |
| Requests.RequestCard | frontend/src/pages/RequestsPage.jsx:54-66 | the card shows the requester (received) or recipient (sent), and none when that participant is missing. The two languages are read from the learning map, and the buttons are accept/decline or cancel |
| Requests.CardsAgreeWithRequest | frontend/src/pages/RequestsPage.jsx:54-66 | both cards of a new request read the pair from opposite sides |
| Requests.HandleAction | frontend/src/pages/RequestsPage.jsx:37-52 | on success the request leaves its own tab's list and the other list stays. On failure nothing changes |
| Requests.GoneAfterReplace | frontend/src/pages/RequestsPage.jsx:41-42 | a request whose new status is not listed leaves no listed conversation with its id |
| Requests.GoneAfterRemove | frontend/src/pages/RequestsPage.jsx:44-45 | a deleted request leaves no listed conversation with its id |
| Requests.ReceivedActionAgreesWithServer | frontend/src/pages/RequestsPage.jsx:101-112 | accepting or declining a received card is allowed by the server, and the server's pending list drops it as the client does |
| Requests.SentActionAgreesWithServer | frontend/src/pages/RequestsPage.jsx:115-117 | cancelling a sent card is allowed by the server, and the server's sent list drops it as the client does |
| Toggles.ToggleMember | frontend/src/pages/Register.jsx:30-36 | the clicked language flips membership and nothing else does. A new one is appended, a removal keeps the order, and no duplicate appears |
| Toggles.ToggleTwiceRestores | frontend/src/components/EditProfileModal.jsx:53-59 | selecting then deselecting a language gives back the list |
| Toggles.ToggleLearning | frontend/src/pages/Register.jsx:38-47 | the clicked code flips presence and other entries are untouched. A new entry starts at `beginner`, and no code is duplicated |
| Toggles.ToggleLearningTwiceRestores | frontend/src/pages/Register.jsx:38-47 | selecting then deselecting a learning language gives back the entries |
| RegisterForm.OnClick | frontend/src/pages/Register.jsx:30-47 | a click flips its language in its own picker and leaves the other fields alone |
| RegisterForm.ClicksKeepWellFormed | frontend/src/pages/Register.jsx:6-47 | any clicks on offered languages keep both pickers free of duplicates, holding offered languages only, with every learning entry at `beginner` |
| RegisterForm.HandleSubmit | frontend/src/pages/Register.jsx:49-62 | refused on the page with the message exactly when a picker is empty. Otherwise the server receives the lists unchanged |
| RegisterForm.PressSubmit | frontend/src/pages/Register.jsx:110-126 | the browser blocks submit exactly when the username, email or password is empty. Otherwise the handler decides, so a submitted form has all three fields |
| RegisterForm.AfterRegister | frontend/src/pages/Register.jsx:57-66 | a failed registration shows `Registration failed. Try again.`; success leaves the page |
| RegisterForm.SubmitRegisters | frontend/src/pages/Register.jsx:49-62 | a picker-built form with free account fields registers a user with exactly the picked natives and codes, all at `Beginner` |
| EditProfile.FormOf | frontend/src/components/EditProfileModal.jsx:19-25 | the form takes the username, the natives and the learning codes in order |
| EditProfile.OnOpen | frontend/src/components/EditProfileModal.jsx:19-27 | the form reloads only while open with a user signed in |
| EditProfile.OnClick | frontend/src/components/EditProfileModal.jsx:53-67 | both pickers flip plain codes |
| EditProfile.LevelFor | frontend/src/components/EditProfileModal.jsx:37 | the level of the first stored entry with that code, else `beginner`; always a valid enum name |
| EditProfile.SaveEntries | frontend/src/components/EditProfileModal.jsx:35-38 | one entry per code, in order, each with that level |
| EditProfile.Payload | frontend/src/components/EditProfileModal.jsx:32-39 | the body carries the username, the natives and the entries |
| EditProfile.SaveRoundTrip | frontend/src/components/EditProfileModal.jsx:19-39 | loading distinct codes and saving them unchanged rebuilds exactly the stored entries |
| EditProfile.EntriesRestored | frontend/src/components/EditProfileModal.jsx:35-38 | entries whose codes and levels match the stored ones, one for one, are the stored entries when the codes are distinct |
| EditProfile.SaveUnchangedIsNoOp | frontend/src/components/EditProfileModal.jsx:29-41 | opening the dialog and saving at once, when accepted, writes back the identical database |
| Avatar.ToInt32 | frontend/src/components/UserAvatar.jsx:14 | the signed 32-bit value congruent to the input modulo 2^32, which is the input itself when it fits |
| Avatar.Shl5 | frontend/src/components/UserAvatar.jsx:14 | a signed 32-bit value congruent to 32 times the operand's 32-bit value |
| Avatar.Hash | frontend/src/components/UserAvatar.jsx:12-15 | the loop computes the left-to-right hash of the id |
| Avatar.HashBound | frontend/src/components/UserAvatar.jsx:14 | the hash's magnitude grows by at most 2^31 + 2^21 per character |
| Avatar.HashExact | frontend/src/components/UserAvatar.jsx:12-15 | for ids up to 2^21 characters every intermediate hash is below 2^53, so exact as a double |
| Avatar.AvatarColor | frontend/src/components/UserAvatar.jsx:10-18 | gray exactly without a key; otherwise a palette class |
| Avatar.ColorOf | frontend/src/components/UserAvatar.jsx:10-18 | the same, as a function of the key |
| Avatar.Initials | frontend/src/components/UserAvatar.jsx:23 | the first one or two characters upper-cased, or `??` without a name |
| Avatar.AvatarOf | frontend/src/components/UserAvatar.jsx:20-24 | a placeholder exactly without a user. The colour follows the id, or the username when the id is empty |
| Avatar.ColorFollowsId | frontend/src/components/UserAvatar.jsx:24 | two users with the same non-empty id get the same palette colour, whatever their names |

## Left out

- Persistence: MongoDB, `populate` and field projection are not modelled. Collections are sequences, and populated documents are the `Views` shapes the client receives.
- Ids: ObjectId casting and comparison through `String(...)` are not modelled; ids are plain strings.
- Tokens: JWT issuing and checking are not modelled.
- Password hashing: bcrypt is modelled only as the parameters `hash` and `matches`.
- Auth middleware: not modelled; the caller's id is a parameter.
- Stream: `getStreamToken` and the Stream video SDK are external services and are not modelled.
- Network and sockets: the network, socket rooms, transport and the client's socket context are left out. Events are appended to an outbox.
- Translation: the library call is the parameter `Service`.
- Concurrency: interleaving of concurrent handlers is not modelled; each handler runs to completion.
- Clock: one `now` per handler, and times are integer milliseconds.
- Calendar days: counted in UTC. The local time zone and daylight-saving shifts of the source's calendar-day truncation are not modelled.
- Unicode text: case mapping and whitespace are ASCII only, for `toLowerCase`, `toUpperCase` and `trim`.
- Avatar.Hash: a character code is a Unicode scalar value, so a character outside the Basic Multilingual Plane counts as one code rather than two UTF-16 units. Double arithmetic is exact only up to 2^21 characters, as `HashExact` shows.
- `grammarTip` and `totalCallMinutes`: carried by the schemas but not used by the core, so not modelled.
- `UserStats` beyond the message counter: not modelled.
- ChatController.UpdateConnectionStatus: an absent `status` field is not modelled, because status is a plain string.
- Online lists: `Object.keys` order is modelled as a set of ids.
- Public users: fields beyond those the core reads are left out.
- Match duplicates: when teach equals learn, the `$all`/`$size` query also matches any two-language conversation containing that language. This is modelled as written.
- AuthController.ByEmail: MongoDB returns some document for the empty filter without promising which. The model takes the first in natural order, like every other lookup here.
- AuthController.GetProfile: the missing try/catch around the lookup is not modelled, because the lookup itself cannot fail in the model.
- Discovery: sections are computed only from the matches on screen, as the page does.
- RegisterForm.PressSubmit: the email input's `type="email"` format check in the browser is not modelled. A non-empty but malformed email reaches the handler in the model and the server then stores it as given.
- Sidebar.Preview: a last message that is a bare id previews as `No messages yet`, as in the source.
- Client plumbing: React state plumbing, polling intervals, toasts, loading flags, navigation and routing are not modelled. The leaderboard page, login page, navigation bars, call modal and contexts are context, not core.
- EditProfile.SaveRoundTrip: requires distinct stored codes. With a repeated code, every entry for that code is saved at the first entry's level.

=== FILE: auth_controller.dfy ===
/** Registration, login and the profile endpoints. Password hashing and
    comparison are opaque: `hash` stands for salting and hashing, `matches`
    for comparing a plain password with a stored hash. Tokens are not
    modelled. */
module AuthController {
  import opened Base
  import opened Seqs
  import opened Models
  import opened Store

  /** A registration body: the list fields, or the legacy single-language
      fields older clients send. */
  datatype RegisterBody = RegisterBody(
    username: Option<string>,
    email: Option<string>,
    password: Option<string>,
    nativeLanguage: Option<string>,
    learningLanguage: Option<string>,
    nativeLanguages: Option<seq<string>>,
    learningLanguages: Option<seq<LearningDraft>>)

  /** The native list to store: the list when one is sent (even an empty
      one), else the single legacy value when it is non-empty, else nothing. */
  function FinalNative(b: RegisterBody): (r: seq<string>)
    ensures b.nativeLanguages.Some? ==> r == b.nativeLanguages.value
    ensures b.nativeLanguages.None? && Truthy(b.nativeLanguage) ==> r == [b.nativeLanguage.value]
    ensures b.nativeLanguages.None? && !Truthy(b.nativeLanguage) ==> r == []
  {
    if b.nativeLanguages.Some? then b.nativeLanguages.value
    else if Truthy(b.nativeLanguage) then [b.nativeLanguage.value]
    else []
  }

  /** The learning list to store, by the same rule; a legacy value becomes
      one entry at level `beginner`. */
  function FinalLearning(b: RegisterBody): (r: seq<LearningDraft>)
    ensures b.learningLanguages.Some? ==> r == b.learningLanguages.value
    ensures b.learningLanguages.None? && Truthy(b.learningLanguage) ==>
      r == [LearningDraft(b.learningLanguage, Some("beginner"))]
    ensures b.learningLanguages.None? && !Truthy(b.learningLanguage) ==> r == []
  {
    if b.learningLanguages.Some? then b.learningLanguages.value
    else if Truthy(b.learningLanguage) then [LearningDraft(b.learningLanguage, Some("beginner"))]
    else []
  }

  /** `findOne({ email })`: the user an email address belongs to. Mongoose
      drops a condition whose value is `undefined`, so without an address
      the filter is empty and the first stored user is found. */
  function ByEmail(users: seq<User>, email: Option<string>): (r: Option<User>)
    ensures email.Some? && r.Some? ==> r.value in users && r.value.email == email.value
    ensures email.Some? && r.None? ==> forall i :: 0 <= i < |users| ==> users[i].email != email.value
    ensures email.None? ==> (r.None? <==> |users| == 0)
    ensures email.None? && r.Some? ==> r.value == users[0]
  {
    if email.None? then At(users, 0) else UserByEmail(users, email.value)
  }

  /** `register`: a taken email is refused with 400; otherwise the user is
      created with the hashed password, a zeroed message counter is created
      for them, and their profile (never the password) is returned. Any
      failure on the way is a 500, and a failure creating the counter comes
      after the user is already stored. */
  function Register(db: Db, b: RegisterBody, hash: string -> string, newId: Id, now: int): (r: (Db, Result<Profile, HttpError>))
    ensures ByEmail(db.users, b.email).Some? ==> r == (db, Err(HttpError(400, "User already exists")))
    // without an email the lookup finds any stored user, so the answer is 400
    ensures b.email.None? && |db.users| > 0 ==> r == (db, Err(HttpError(400, "User already exists")))
    ensures r.1.Ok? <==>
      && ByEmail(db.users, b.email).None?
      && b.password.Some?
      && NewUser(UserDraft(b.username, b.email, Some(hash(b.password.value)), FinalNative(b), FinalLearning(b)), newId, now).Ok?
      && !UserClash(db.users, NewUser(UserDraft(b.username, b.email, Some(hash(b.password.value)), FinalNative(b), FinalLearning(b)), newId, now).value)
      && newId !in db.stats
    ensures r.1.Ok? ==>
      && |r.0.users| == |db.users| + 1 && r.0.users[..|db.users|] == db.users
      && var u := r.0.users[|db.users|];
      && r.1.value == ProfileOf(u)
      && u.id == newId && u.username == b.username.value && u.email == b.email.value
      && u.password == hash(b.password.value)
      && u.nativeLanguages == FinalNative(b) && |u.learningLanguages| == |FinalLearning(b)|
      && (forall k :: 0 <= k < |u.learningLanguages| ==>
            && FinalLearning(b)[k].language == Some(u.learningLanguages[k].language)
            && LevelName(u.learningLanguages[k].level) == FinalLearning(b)[k].level.GetOr("beginner"))
      && r.0.stats == db.stats[newId := 0]
      && r.0.conversations == db.conversations && r.0.messages == db.messages
    ensures r.1.Err? && r.1.error.status != 500 ==> r.0 == db
    // every other failure is the generic 500
    ensures r.1.Err? && r.1.error.status != 400 ==> r.1.error == HttpError(500, "Server error")
    // a counter that cannot be created fails the request after the user is stored
    ensures ByEmail(db.users, b.email).None? && b.password.Some? ==>
      var u := NewUser(UserDraft(b.username, b.email, Some(hash(b.password.value)), FinalNative(b), FinalLearning(b)), newId, now);
      u.Ok? && !UserClash(db.users, u.value) && newId in db.stats ==>
        r == (db.(users := db.users + [u.value]), Err(HttpError(500, "Server error")))
  {
    if ByEmail(db.users, b.email).Some? then (db, Err(HttpError(400, "User already exists")))
    else if b.password.None? then (db, Err(HttpError(500, "Server error")))
    else
      var draft := UserDraft(b.username, b.email, Some(hash(b.password.value)), FinalNative(b), FinalLearning(b));
      match NewUser(draft, newId, now)
      case Err(_) => (db, Err(HttpError(500, "Server error")))
      case Ok(u) =>
        if UserClash(db.users, u) then (db, Err(HttpError(500, "Server error")))
        else
          var db1 := db.(users := db.users + [u]);
          assert db1.users[..|db.users|] == db.users;
          if newId in db.stats then (db1, Err(HttpError(500, "Server error")))
          else (db1.(stats := db.stats[newId := 0]), Ok(ProfileOf(u)))
  }

  /** A legacy body and the equivalent list body register the same user. */
  lemma {:induction false} LegacyMatchesLists(db: Db, b: RegisterBody, native: string, learning: string,
                                              hash: string -> string, newId: Id, now: int)
    requires native != "" && learning != ""
    ensures var legacy := b.(nativeLanguage := Some(native), learningLanguage := Some(learning),
                             nativeLanguages := None, learningLanguages := None);
      var lists := b.(nativeLanguages := Some([native]),
                      learningLanguages := Some([LearningDraft(Some(learning), Some("beginner"))]));
      Register(db, legacy, hash, newId, now) == Register(db, lists, hash, newId, now)
  {
    var legacy := b.(nativeLanguage := Some(native), learningLanguage := Some(learning),
                     nativeLanguages := None, learningLanguages := None);
    var lists := b.(nativeLanguages := Some([native]),
                    learningLanguages := Some([LearningDraft(Some(learning), Some("beginner"))]));
    assert FinalNative(legacy) == FinalNative(lists);
    assert FinalLearning(legacy) == FinalLearning(lists);
  }

  /** `login`: the profile for a known email whose stored hash matches the
      password; one and the same 401 for an unknown email and for a wrong
      password, so the answer does not tell which was wrong. Without an
      email the password is checked against the first stored user. */
  function Login(db: Db, email: Option<string>, password: Option<string>, matches: (string, string) -> bool): (r: Result<Profile, HttpError>)
    ensures ByEmail(db.users, email).None? ==> r == Err(HttpError(401, "Invalid email or password"))
    ensures ByEmail(db.users, email).Some? && password.Some? ==>
      var u := ByEmail(db.users, email).value;
      (r.Ok? <==> matches(password.value, u.password))
      && (r.Ok? ==> r.value == ProfileOf(u))
      && (r.Err? ==> r.error == HttpError(401, "Invalid email or password"))
    ensures r.Ok? ==> exists i :: 0 <= i < |db.users| && r.value == ProfileOf(db.users[i])
    // a found user and no password: the comparison throws, and the answer is 500
    ensures ByEmail(db.users, email).Some? && password.None? ==> r == Err(HttpError(500, "Server error"))
    ensures r.Ok? ==> password.Some? && matches(password.value, ByEmail(db.users, email).value.password)
  {
    match ByEmail(db.users, email)
    case None => Err(HttpError(401, "Invalid email or password"))
    case Some(u) =>
      if password.None? then Err(HttpError(500, "Server error"))
      else if matches(password.value, u.password) then
        assert exists i :: 0 <= i < |db.users| && db.users[i] == u;
        Ok(ProfileOf(u))
      else Err(HttpError(401, "Invalid email or password"))
  }

  /** A login without an email is checked against the first stored user:
      it succeeds as that user exactly when the password matches their hash. */
  lemma LoginWithoutEmail(db: Db, password: string, matches: (string, string) -> bool)
    requires |db.users| > 0
    ensures var r := Login(db, None, Some(password), matches);
      && (r.Ok? <==> matches(password, db.users[0].password))
      && (r.Ok? ==> r.value == ProfileOf(db.users[0]))
  {
  }

  /** Whoever just registered can log in with the same email and password,
      provided the comparison accepts a password against its own hash. */
  lemma {:induction false} RegisterThenLogin(db: Db, b: RegisterBody, hash: string -> string,
                                             matches: (string, string) -> bool, newId: Id, now: int)
    requires Register(db, b, hash, newId, now).1.Ok?
    requires forall p :: matches(p, hash(p))
    ensures Login(Register(db, b, hash, newId, now).0, b.email, b.password, matches)
      == Ok(Register(db, b, hash, newId, now).1.value)
  {
    var (db1, res) := Register(db, b, hash, newId, now);
    var n := |db.users|;
    var u := db1.users[n];
    assert db1.users == db.users + [u];
    assert forall i :: 0 <= i < n ==> db.users[i].email != b.email.value;
    assert forall i :: 0 <= i < n ==> db1.users[i].email != b.email.value;
    assert UserByEmail(db1.users, b.email.value) == Some(u) by {
      assert FindIndex(db1.users, (x: User) => x.email == b.email.value) == Some(n);
    }
    assert matches(b.password.value, u.password);
  }

  /** `getProfile`: the stored user without the password, or 404. */
  function GetProfile(db: Db, id: Id): (r: Result<PublicUser, HttpError>)
    ensures r.Err? <==> forall i :: 0 <= i < |db.users| ==> db.users[i].id != id
    ensures r.Err? ==> r.error == HttpError(404, "User not found")
    ensures r.Ok? ==> r.value.id == id && exists i :: 0 <= i < |db.users| && r.value == PublicOf(db.users[i])
  {
    match UserById(db.users, id)
    case None => Err(HttpError(404, "User not found"))
    case Some(u) =>
      assert exists i :: 0 <= i < |db.users| && db.users[i] == u;
      Ok(PublicOf(u))
  }

  /** What a profile update may carry; the email is not one of its fields. */
  datatype ProfileBody = ProfileBody(
    username: Option<string>,
    nativeLanguages: Option<seq<string>>,
    learningLanguages: Option<seq<LearningDraft>>)

  /** The username after an update: the new one unless it is missing or empty. */
  function MergedUsername(u: User, b: ProfileBody): string {
    OrElse(b.username, u.username)
  }

  /** The update as a document draft, for validation. */
  function MergedDraft(u: User, b: ProfileBody): UserDraft {
    UserDraft(Some(MergedUsername(u, b)), Some(u.email), Some(u.password),
              b.nativeLanguages.GetOr(u.nativeLanguages),
              b.learningLanguages.GetOr(MapSeq(u.learningLanguages, DraftOf)))
  }

  /** Does another user already hold this username? */
  predicate UsernameTaken(users: seq<User>, i: nat, name: string) {
    exists j :: 0 <= j < |users| && j != i && users[j].username == name
  }

  /** `updateProfile`: 404 for an unknown user; otherwise a field-by-field
      merge that keeps the username when none is sent, replaces each
      language list only when one is sent, and never touches the email,
      password or anything else. A merged record that fails validation or
      the username index is a 500 and nothing is written. */
  function UpdateProfile(db: Db, id: Id, b: ProfileBody): (r: (Db, Result<Profile, HttpError>))
    ensures r.1.Err? ==> r.0 == db
    ensures r.1 == Err(HttpError(404, "User not found")) <==> UserIndex(db.users, id).None?
    ensures UserIndex(db.users, id).Some? ==>
      var i := UserIndex(db.users, id).value;
      var u := db.users[i];
      && (r.1.Ok? <==> UserDraftValid(MergedDraft(u, b)) && !UsernameTaken(db.users, i, MergedUsername(u, b)))
      && (r.1.Ok? ==> |r.0.users| == |db.users|)
      && (r.1.Ok? ==>
            var v := r.0.users[i];
            && (forall j :: 0 <= j < |db.users| && j != i ==> r.0.users[j] == db.users[j])
            && r.0 == db.(users := r.0.users)
            && r.1.value == ProfileOf(v)
            && v.id == u.id && v.email == u.email && v.password == u.password
            && v.avatar == u.avatar && v.timezone == u.timezone && v.createdAt == u.createdAt
            && (Truthy(b.username) ==> v.username == b.username.value)
            && (!Truthy(b.username) ==> v.username == u.username)
            && (b.nativeLanguages.Some? ==> v.nativeLanguages == b.nativeLanguages.value)
            && (b.nativeLanguages.None? ==> v.nativeLanguages == u.nativeLanguages)
            && (b.learningLanguages.Some? ==>
                  && |v.learningLanguages| == |b.learningLanguages.value|
                  && forall k :: 0 <= k < |v.learningLanguages| ==>
                       && b.learningLanguages.value[k].language == Some(v.learningLanguages[k].language)
                       && LevelName(v.learningLanguages[k].level) == b.learningLanguages.value[k].level.GetOr("beginner"))
            && (b.learningLanguages.None? ==> v.learningLanguages == u.learningLanguages))
  {
    match UserIndex(db.users, id)
    case None => (db, Err(HttpError(404, "User not found")))
    case Some(i) =>
      var u := db.users[i];
      var d := MergedDraft(u, b);
      if !UserDraftValid(d) || UsernameTaken(db.users, i, d.username.value) then (db, Err(HttpError(500, "Server error")))
      else
        var learning := if b.learningLanguages.Some? then BuildEntries(b.learningLanguages.value) else u.learningLanguages;
        var v := u.(username := d.username.value, nativeLanguages := d.nativeLanguages, learningLanguages := learning);
        (db.(users := db.users[i := v]), Ok(ProfileOf(v)))
  }

  /** Writing a stored user's entries back as a request body is lossless. */
  lemma {:induction false} EntriesRoundTrip(es: seq<LearningEntry>)
    requires forall i :: 0 <= i < |es| ==> es[i].language != ""
    ensures forall i :: 0 <= i < |es| ==> LearningDraftValid(DraftOf(es[i]))
    ensures BuildEntries(MapSeq(es, DraftOf)) == es
  {
    var ds := MapSeq(es, DraftOf);
    forall i | 0 <= i < |es|
      ensures LearningDraftValid(ds[i]) && BuildEntry(ds[i]) == es[i]
    {
      LevelNameRoundTrip(es[i].level);
    }
    var r := BuildEntries(ds);
    forall i | 0 <= i < |es|
      ensures r[i] == es[i]
    {
      LevelNameRoundTrip(es[i].level);
      LevelNameRoundTrip(r[i].level);
    }
  }

  /** Applying the same update twice leaves the record as applying it once. */
  lemma {:induction false} UpdateIdempotent(db: Db, id: Id, b: ProfileBody)
    requires UpdateProfile(db, id, b).1.Ok?
    ensures var db1 := UpdateProfile(db, id, b).0;
      UpdateProfile(db1, id, b) == UpdateProfile(db, id, b).(0 := db1)
  {
    var i := UserIndex(db.users, id).value;
    var (db1, res) := UpdateProfile(db, id, b);
    var u := db.users[i];
    var v := db1.users[i];
    assert UserIndex(db1.users, id) == Some(i) by {
      assert forall j :: 0 <= j < i ==> db1.users[j] == db.users[j];
    }
    assert MergedDraft(v, b) == MergedDraft(u, b);
    assert !UsernameTaken(db1.users, i, MergedUsername(v, b)) by {
      assert forall j :: 0 <= j < |db.users| && j != i ==> db1.users[j] == db.users[j];
    }
    var learning := if b.learningLanguages.Some? then BuildEntries(b.learningLanguages.value) else v.learningLanguages;
    var w := v.(username := MergedUsername(v, b), nativeLanguages := MergedDraft(v, b).nativeLanguages, learningLanguages := learning);
    assert w == v;
    assert db1.users[i := w] == db1.users;
  }
}

=== FILE: avatar.dfy ===
/** The round avatar: up to two upper-cased initials on a colour picked
    from a fixed palette by a string hash of the user's id. The hash runs on
    JavaScript numbers; every intermediate value is an integer, and the
    bound below shows they stay exactly representable for ids up to 2^21
    characters, so the model computes on unbounded integers and writes the
    32-bit conversion of `<<` out. */
module Avatar {
  import opened Base
  import opened Text
  import opened Views

  const Palette: seq<string> := [
    "bg-red-500", "bg-orange-500", "bg-amber-500", "bg-yellow-500", "bg-lime-500",
    "bg-green-500", "bg-emerald-500", "bg-teal-500", "bg-cyan-500", "bg-sky-500",
    "bg-blue-500", "bg-indigo-500", "bg-violet-500", "bg-purple-500", "bg-fuchsia-500",
    "bg-pink-500", "bg-rose-500"]

  const Gray := "bg-gray-500"

  const TwoTo31: int := 0x8000_0000
  const TwoTo32: int := 0x1_0000_0000

  /** ECMAScript `ToInt32` on an integer: the value modulo 2^32, read as a
      signed 32-bit number. */
  function ToInt32(x: int): (r: int)
    ensures -TwoTo31 <= r < TwoTo31
    ensures (x - r) % TwoTo32 == 0
    ensures -TwoTo31 <= x < TwoTo31 ==> r == x
  {
    var m := x % TwoTo32;
    if m >= TwoTo31 then m - TwoTo32 else m
  }

  /** `h << 5`: both the operand and the result pass through `ToInt32`. */
  function Shl5(h: int): (r: int)
    ensures -TwoTo31 <= r < TwoTo31
    ensures (r - ToInt32(h) * 32) % TwoTo32 == 0
  {
    ToInt32(ToInt32(h) * 32)
  }

  /** One round: `hash = c + ((hash << 5) - hash)`. */
  function HashStep(h: int, c: char): int {
    c as int + (Shl5(h) - h)
  }

  /** The hash of a string, one character at a time from the left. */
  function HashOf(s: string): int
    decreases |s|
  {
    if |s| == 0 then 0 else HashStep(HashOf(s[..|s| - 1]), s[|s| - 1])
  }

  /** The loop in `getAvatarColor`. */
  method Hash(id: string) returns (h: int)
    ensures h == HashOf(id)
  {
    h := 0;
    var i := 0;
    while i < |id|
      invariant 0 <= i <= |id|
      invariant h == HashOf(id[..i])
    {
      assert id[..i + 1][..i] == id[..i];
      h := HashStep(h, id[i]);
      i := i + 1;
    }
    assert id[..i] == id;
  }

  /** Each round adds at most a character code (below 2^21) and a 32-bit
      value to the magnitude. */
  lemma {:induction false} HashBound(s: string)
    ensures Abs(HashOf(s)) <= |s| * (TwoTo31 + 0x20_0000)
    decreases |s|
  {
    if |s| > 0 {
      HashBound(s[..|s| - 1]);
      assert (s[|s| - 1] as int) < 0x20_0000;
    }
  }

  /** For ids up to 2^21 characters every intermediate hash is below 2^53
      in magnitude, where doubles hold every integer exactly. */
  lemma HashExact(s: string)
    requires |s| <= 0x20_0000
    ensures forall k :: 0 <= k <= |s| ==> Abs(HashOf(s[..k])) < 0x20_0000_0000_0000
  {
    forall k | 0 <= k <= |s|
      ensures Abs(HashOf(s[..k])) < 0x20_0000_0000_0000
    {
      HashBound(s[..k]);
    }
  }

  /** `getAvatarColor`: gray without a key, otherwise the palette class at
      the hash's magnitude modulo the palette size. */
  method AvatarColor(key: Option<string>) returns (r: string)
    ensures r == Gray <==> !Truthy(key)
    ensures Truthy(key) ==> r in Palette
    ensures r == ColorOf(key)
  {
    if !Truthy(key) {
      return Gray;
    }
    var h := Hash(key.value);
    r := Palette[Abs(h) % |Palette|];
  }

  /** The colour as a function of the key: the reference the loop above
      computes. */
  function ColorOf(key: Option<string>): (r: string)
    ensures r == Gray <==> !Truthy(key)
    ensures Truthy(key) ==> r in Palette
  {
    if !Truthy(key) then Gray else Palette[Abs(HashOf(key.value)) % |Palette|]
  }

  /** The first two characters of a name, upper-cased; `??` without one. */
  function Initials(username: Option<string>): (r: string)
    ensures 1 <= |r| <= 2
    ensures !Truthy(username) ==> r == "??"
    ensures Truthy(username) ==>
              && |r| == (if |username.value| < 2 then |username.value| else 2)
              && forall i :: 0 <= i < |r| ==> r[i] == UpperChar(username.value[i])
  {
    if !Truthy(username) then "??"
    else
      var u := username.value;
      Upper(u[..if |u| < 2 then |u| else 2])
  }

  datatype AvatarView = Placeholder | Badge(initials: string, color: string)

  /** `UserAvatar`: a gray disc without a user; otherwise the initials on
      the colour of the id, or of the username when the id is empty. */
  function AvatarOf(user: Option<Person>): (r: AvatarView)
    ensures r.Placeholder? <==> user.None?
    ensures r.Badge? ==> r.initials == Initials(user.value.username)
    ensures r.Badge? && user.value.id != "" ==> r.color == ColorOf(Some(user.value.id))
    ensures r.Badge? && user.value.id == "" ==> r.color == ColorOf(user.value.username)
  {
    match user
    case None => Placeholder
    case Some(p) => Badge(Initials(p.username), ColorOf(Or(Some(p.id), p.username)))
  }

  /** The colour belongs to the id: renaming a user does not change it, and
      only a user without id or name is drawn gray. */
  lemma ColorFollowsId(p: Person, q: Person)
    requires p.id == q.id && p.id != ""
    ensures AvatarOf(Some(p)).color == AvatarOf(Some(q)).color
    ensures AvatarOf(Some(p)).color in Palette
  {
  }
}

=== FILE: base.dfy ===
/** Failure-carrying shapes shared by every module, and the JavaScript
    truthiness rules the application code leans on (`a || b` on strings). */
module Base {

  /** Identifiers of users, conversations, messages and sockets. */
  type Id = string

  /** `undefined` versus a present value. */
  datatype Option<+T> = None | Some(value: T) {
    function GetOr(default: T): T {
      match this
      case Some(v) => v
      case None => default
    }
  }

  datatype Result<+T, +E> = Ok(value: T) | Err(error: E)

  /** An HTTP error response: status code and the `message` field. */
  datatype HttpError = HttpError(status: nat, message: string)

  /** A string value is truthy in JavaScript iff it is present and non-empty. */
  predicate Truthy(o: Option<string>) {
    o.Some? && o.value != ""
  }

  /** JavaScript `a || b` where both sides are optional strings. */
  function Or(a: Option<string>, b: Option<string>): Option<string> {
    if Truthy(a) then a else b
  }

  /** JavaScript `a || "literal"`: the literal is the last resort. */
  function OrElse(a: Option<string>, d: string): string {
    if Truthy(a) then a.value else d
  }

  /** `s[i]` in JavaScript: `undefined` past the end. */
  function At<T>(s: seq<T>, i: nat): (r: Option<T>)
    ensures r.Some? <==> i < |s|
    ensures r.Some? ==> r.value == s[i]
  {
    if i < |s| then Some(s[i]) else None
  }

  /** `m[k]` on a plain object or Map: `undefined` when the key is absent. */
  function Lookup<K, V>(m: map<K, V>, k: K): (r: Option<V>)
    ensures r.Some? <==> k in m
    ensures r.Some? ==> r.value == m[k]
  {
    if k in m then Some(m[k]) else None
  }

  /** `Math.abs` on an integer. */
  function Abs(x: int): nat {
    if x < 0 then -x else x
  }
}

=== FILE: chat_controller.dfy ===
/** The exchange-partner endpoints: matching by complementary languages,
    the connection-request lifecycle (request, accept or reject, cancel),
    the conversation lists, a conversation's messages, and the streak
    leaderboard. `caller`/`actor` is the authenticated user's id. */
module ChatController {
  import opened Base
  import opened Seqs
  import opened Sorting
  import opened Models
  import opened Store

  // ------------------------------------------------------------- matching

  /** Users `a` and `b` are both participants of one conversation, whatever
      its status. */
  predicate SharesConversation(convs: seq<Conversation>, a: Id, b: Id) {
    exists i :: 0 <= i < |convs| && a in convs[i].participants && b in convs[i].participants
  }

  /** The ids the match query leaves out: the caller, and every other
      participant of any conversation the caller is in. */
  function Excluded(convs: seq<Conversation>, caller: Id): (r: seq<Id>)
    ensures forall b :: b in r <==> b == caller || SharesConversation(convs, caller, b)
  {
    var others := (c: Conversation) =>
      if caller in c.participants then Filter(c.participants, (p: Id) => p != caller) else [];
    var partners := FlatMap(convs, others);
    forall b
      ensures b in partners <==> b != caller && SharesConversation(convs, caller, b)
    {
      if b in partners {
        var i :| 0 <= i < |convs| && b in others(convs[i]);
        assert caller in convs[i].participants && b in convs[i].participants;
      }
      if b != caller && SharesConversation(convs, caller, b) {
        var i :| 0 <= i < |convs| && caller in convs[i].participants && b in convs[i].participants;
        assert b in others(convs[i]);
      }
    }
    [caller] + partners
  }

  /** A match as sent to the client: the other user without the password,
      and what each side offers the other. */
  datatype Match = Match(user: PublicUser, canTeachMe: seq<string>, wantsToLearn: seq<string>)

  /** `v` speaks something `me` is learning, and learns something `me` speaks. */
  predicate Compatible(me: User, v: User) {
    && Intersects(v.nativeLanguages, LearningCodes(me.learningLanguages))
    && Intersects(LearningCodes(v.learningLanguages), me.nativeLanguages)
  }

  /** Whom the caller may be offered: a compatible other user with no
      conversation of any status shared with the caller. */
  predicate Eligible(convs: seq<Conversation>, me: User, v: User) {
    v.id != me.id && !SharesConversation(convs, me.id, v.id) && Compatible(me, v)
  }

  /** One match with its compatibility details: the candidate's natives the
      caller learns, and the candidate's learning codes the caller speaks,
      each in the candidate's own order. */
  function MatchOf(me: User, v: User): (m: Match)
    ensures m.user == PublicOf(v)
    ensures forall x :: x in m.canTeachMe <==> x in v.nativeLanguages && x in LearningCodes(me.learningLanguages)
    ensures Subseq(m.canTeachMe, v.nativeLanguages)
    ensures forall x :: multiset(m.canTeachMe)[x]
                        == (if x in LearningCodes(me.learningLanguages) then multiset(v.nativeLanguages)[x] else 0)
    ensures forall x :: x in m.wantsToLearn <==> x in LearningCodes(v.learningLanguages) && x in me.nativeLanguages
    ensures Subseq(m.wantsToLearn, LearningCodes(v.learningLanguages))
    ensures forall x :: multiset(m.wantsToLearn)[x]
                        == (if x in me.nativeLanguages then multiset(LearningCodes(v.learningLanguages))[x] else 0)
    ensures Compatible(me, v) <==> |m.canTeachMe| > 0 && |m.wantsToLearn| > 0
  {
    Match(PublicOf(v),
          KeepIn(v.nativeLanguages, LearningCodes(me.learningLanguages)),
          KeepIn(LearningCodes(v.learningLanguages), me.nativeLanguages))
  }

  /** `findMatch`: 404 for an unknown caller; otherwise exactly the eligible
      users, each with its compatibility details. */
  function FindMatch(db: Db, caller: Id): (r: Result<seq<Match>, HttpError>)
    ensures r.Err? <==> UserById(db.users, caller).None?
    ensures r.Err? ==> r.error == HttpError(404, "User not found")
    ensures r.Ok? ==> var me := UserById(db.users, caller).value;
      && (forall m :: m in r.value ==> exists v :: v in db.users && Eligible(db.conversations, me, v) && m == MatchOf(me, v))
      && (forall v :: v in db.users && Eligible(db.conversations, me, v) ==> MatchOf(me, v) in r.value)
  {
    match UserById(db.users, caller)
    case None => Err(HttpError(404, "User not found"))
    case Some(me) =>
      var excluded := Excluded(db.conversations, me.id);
      var raw := Filter(db.users, (v: User) => v.id !in excluded && Compatible(me, v));
      assert forall v :: v in raw <==> v in db.users && Eligible(db.conversations, me, v);
      var ms := MapSeq(raw, (v: User) => MatchOf(me, v));
      MatchesAreEligible(db, me, raw, ms);
      Ok(ms)
  }

  lemma MatchesAreEligible(db: Db, me: User, raw: seq<User>, ms: seq<Match>)
    requires forall v :: v in raw <==> v in db.users && Eligible(db.conversations, me, v)
    requires |ms| == |raw| && forall i :: 0 <= i < |raw| ==> ms[i] == MatchOf(me, raw[i])
    ensures forall m :: m in ms ==> exists v :: v in db.users && Eligible(db.conversations, me, v) && m == MatchOf(me, v)
    ensures forall v :: v in db.users && Eligible(db.conversations, me, v) ==> MatchOf(me, v) in ms
  {
    forall m | m in ms
      ensures exists v :: v in db.users && Eligible(db.conversations, me, v) && m == MatchOf(me, v)
    {
      var i :| 0 <= i < |ms| && ms[i] == m;
      assert raw[i] in raw;
    }
    forall v | v in db.users && Eligible(db.conversations, me, v)
      ensures MatchOf(me, v) in ms
    {
      var i :| 0 <= i < |raw| && raw[i] == v;
      assert ms[i] == MatchOf(me, v);
    }
  }

  /** Two users who already share a conversation are never offered to each
      other, in either direction. */
  lemma {:induction false} ConnectedNeverMatched(db: Db, a: Id, b: Id)
    requires SharesConversation(db.conversations, a, b)
    ensures FindMatch(db, a).Ok? ==> forall m :: m in FindMatch(db, a).value ==> m.user.id != b
    ensures FindMatch(db, b).Ok? ==> forall m :: m in FindMatch(db, b).value ==> m.user.id != a
  {
    var i :| 0 <= i < |db.conversations| && a in db.conversations[i].participants && b in db.conversations[i].participants;
    assert SharesConversation(db.conversations, b, a);
  }

  // ---------------------------------------------------- connection requests

  /** The body of a connection request, from the sender's point of view. */
  datatype RequestBody = RequestBody(receiverId: Option<Id>, teachLanguage: Option<string>, learnLanguage: Option<string>)

  /** The duplicate query for one conversation: both users are participants
      and its languages are exactly two entries that include both of the pair. */
  predicate SamePair(c: Conversation, sender: Id, receiver: Option<Id>, teach: string, learn: string) {
    && sender in c.participants
    && receiver.Some? && receiver.value in c.participants
    && teach in c.languages && learn in c.languages && |c.languages| == 2
  }

  predicate PairTaken(convs: seq<Conversation>, sender: Id, receiver: Option<Id>, teach: string, learn: string) {
    exists i :: 0 <= i < |convs| && SamePair(convs[i], sender, receiver, teach, learn)
  }

  /** For two different languages the duplicate query is exactly "same two
      users, same two languages in either order". */
  lemma {:induction false} SamePairIsUnordered(c: Conversation, s: Id, r: Id, t: string, l: string)
    requires t != l
    ensures SamePair(c, s, Some(r), t, l) <==>
      s in c.participants && r in c.participants && (c.languages == [t, l] || c.languages == [l, t])
  {
    if SamePair(c, s, Some(r), t, l) {
      var ls := c.languages;
      assert ls == [ls[0], ls[1]];
      if ls[0] == t {
        assert ls[1] == l;
      } else {
        assert ls[0] == l && ls[1] == t;
      }
    }
  }

  /** The conversation document a request asks the store to create. A
      computed object key given twice keeps the second value, so a request
      to oneself maps the user to the teach language. */
  function RequestDraft(sender: Id, body: RequestBody, teach: string, learn: string): ConversationDraft {
    var receiver := body.receiverId;
    var participants := if receiver.Some? then [sender, receiver.value] else [sender];
    var learningMap := map[sender := learn][receiver.GetOr("undefined") := teach];
    ConversationDraft(Some(sender), receiver, Some("pending"), participants, [teach, learn], learningMap)
  }

  /** `sendConnectionRequest`: both languages are required; a request for a
      pair the two users already have is refused; otherwise a pending
      conversation is created. No check stops a user from asking oneself. */
  function SendConnectionRequest(db: Db, sender: Id, body: RequestBody, newId: Id, now: int): (r: (Db, Result<Conversation, HttpError>))
    ensures r.1.Err? ==> r.0 == db
    ensures !Truthy(body.teachLanguage) || !Truthy(body.learnLanguage) ==>
      r.1 == Err(HttpError(400, "Language pair required"))
    ensures Truthy(body.teachLanguage) && Truthy(body.learnLanguage)
      && PairTaken(db.conversations, sender, body.receiverId, body.teachLanguage.value, body.learnLanguage.value)
      ==> r.1 == Err(HttpError(400, "Connection for this language pair already exists"))
    ensures r.1.Ok? <==>
      && Truthy(body.teachLanguage) && Truthy(body.learnLanguage)
      && !PairTaken(db.conversations, sender, body.receiverId, body.teachLanguage.value, body.learnLanguage.value)
      && sender != "" && Truthy(body.receiverId)
      && !ConvIdTaken(db.conversations, newId)
    ensures r.1.Ok? ==>
      var c := r.1.value;
      var s, rc, t, l := sender, body.receiverId.value, body.teachLanguage.value, body.learnLanguage.value;
      && r.0 == db.(conversations := db.conversations + [c])
      && c.id == newId && c.requester == s && c.recipient == rc && c.status == Pending
      && c.participants == [s, rc] && c.languages == [t, l]
      && c.learningMap.Keys == {s, rc} && c.learningMap[rc] == t && (s != rc ==> c.learningMap[s] == l)
      && c.streak == 0 && c.lastInteraction.None? && c.lastMessage.None? && c.updatedAt == now
  {
    if !Truthy(body.teachLanguage) || !Truthy(body.learnLanguage) then
      (db, Err(HttpError(400, "Language pair required")))
    else
      var teach, learn := body.teachLanguage.value, body.learnLanguage.value;
      if PairTaken(db.conversations, sender, body.receiverId, teach, learn) then
        (db, Err(HttpError(400, "Connection for this language pair already exists")))
      else
        match NewConversation(RequestDraft(sender, body, teach, learn), newId, now)
        case Err(e) => (db, Err(HttpError(500, e)))
        case Ok(c) =>
          if ConvIdTaken(db.conversations, newId) then (db, Err(HttpError(500, "duplicate key")))
          else (db.(conversations := db.conversations + [c]), Ok(c))
  }

  /** Once a request is created, asking again for the same pair is refused,
      and so is the receiver asking back with the languages swapped. */
  lemma {:induction false} RepeatRequestRefused(db: Db, sender: Id, body: RequestBody, id1: Id, id2: Id, now: int)
    requires SendConnectionRequest(db, sender, body, id1, now).1.Ok?
    ensures var db1 := SendConnectionRequest(db, sender, body, id1, now).0;
      SendConnectionRequest(db1, sender, body, id2, now).1
        == Err(HttpError(400, "Connection for this language pair already exists"))
    ensures var db1 := SendConnectionRequest(db, sender, body, id1, now).0;
      var back := RequestBody(Some(sender), body.learnLanguage, body.teachLanguage);
      SendConnectionRequest(db1, body.receiverId.value, back, id2, now).1
        == Err(HttpError(400, "Connection for this language pair already exists"))
  {
    var (db1, res) := SendConnectionRequest(db, sender, body, id1, now);
    var c := res.value;
    var n := |db.conversations|;
    assert db1.conversations[n] == c;
    var t, l := body.teachLanguage.value, body.learnLanguage.value;
    assert SamePair(c, sender, body.receiverId, t, l);
    assert PairTaken(db1.conversations, sender, body.receiverId, t, l);
    assert SamePair(c, body.receiverId.value, Some(sender), l, t);
    assert PairTaken(db1.conversations, body.receiverId.value, Some(sender), l, t);
  }

  /** After a request is created neither user is offered the other as a match. */
  lemma {:induction false} RequestEndsMatching(db: Db, sender: Id, body: RequestBody, newId: Id, now: int)
    requires SendConnectionRequest(db, sender, body, newId, now).1.Ok?
    ensures var db1 := SendConnectionRequest(db, sender, body, newId, now).0;
      && (FindMatch(db1, sender).Ok? ==> forall m :: m in FindMatch(db1, sender).value ==> m.user.id != body.receiverId.value)
      && (FindMatch(db1, body.receiverId.value).Ok? ==>
            forall m :: m in FindMatch(db1, body.receiverId.value).value ==> m.user.id != sender)
  {
    var (db1, res) := SendConnectionRequest(db, sender, body, newId, now);
    var n := |db.conversations|;
    assert db1.conversations[n] == res.value;
    assert SharesConversation(db1.conversations, sender, body.receiverId.value);
    ConnectedNeverMatched(db1, sender, body.receiverId.value);
  }

  // ------------------------------------------------------- status changes

  datatype StatusReply = Cancelled(conversationId: Id) | Updated(conversation: Conversation)

  /** `updateConnectionStatus`: the requester may cancel (delete) the
      request whatever its status; only the recipient may set any other
      status, and nothing stops a resolved request from being changed again. */
  function UpdateConnectionStatus(db: Db, actor: Id, conversationId: Option<Id>, status: string): (r: (Db, Result<StatusReply, HttpError>))
    ensures r.1.Err? ==> r.0 == db
    ensures r.1 == Err(HttpError(404, "Request not found")) <==>
      conversationId.None? || ConvIndex(db.conversations, conversationId.value).None?
    ensures conversationId.Some? && ConvIndex(db.conversations, conversationId.value).Some? ==>
      var i := ConvIndex(db.conversations, conversationId.value).value;
      var c := db.conversations[i];
      && (status == "cancelled" && c.requester != actor ==>
            r.1 == Err(HttpError(403, "Not authorized to cancel this request")))
      && (status == "cancelled" && c.requester == actor ==>
            r.1 == Ok(Cancelled(conversationId.value))
            && r.0 == db.(conversations := db.conversations[..i] + db.conversations[i + 1..]))
      && (status != "cancelled" && c.recipient != actor ==> r.1 == Err(HttpError(403, "Not authorized")))
      && (status != "cancelled" && c.recipient == actor && ParseStatus(status).None? ==> r.1.Err? && r.1.error.status == 500)
      && (status != "cancelled" && c.recipient == actor && ParseStatus(status).Some? ==>
            && r.1.Ok? && r.1.value.Updated?
            && r.1.value.conversation == c.(status := r.1.value.conversation.status)
            && StatusName(r.1.value.conversation.status) == status
            && r.0 == db.(conversations := db.conversations[i := r.1.value.conversation]))
  {
    if conversationId.None? then (db, Err(HttpError(404, "Request not found")))
    else
      match ConvIndex(db.conversations, conversationId.value)
      case None => (db, Err(HttpError(404, "Request not found")))
      case Some(i) =>
        var c := db.conversations[i];
        if status == "cancelled" then
          if c.requester != actor then (db, Err(HttpError(403, "Not authorized to cancel this request")))
          else (db.(conversations := RemoveAt(db.conversations, i)), Ok(Cancelled(conversationId.value)))
        else if c.recipient != actor then (db, Err(HttpError(403, "Not authorized")))
        else
          match ParseStatus(status)
          case None => (db, Err(HttpError(500, "ValidationError")))
          case Some(st) =>
            var c2 := c.(status := st);
            (db.(conversations := db.conversations[i := c2]), Ok(Updated(c2)))
  }

  // ---------------------------------------------------------------- lists

  function UpdatedAt(c: Conversation): int {
    c.updatedAt
  }

  function StreakOf(c: Conversation): int {
    c.streak
  }

  /** Which list a conversation belongs to: `pending` is what others asked
      the caller, `sent` is what the caller asked, anything else is the
      caller's accepted chats. */
  predicate Listed(kind: Option<string>, caller: Id, c: Conversation) {
    if kind == Some("pending") then c.recipient == caller && c.status == Pending
    else if kind == Some("sent") then c.requester == caller && c.status == Pending
    else caller in c.participants && c.status == Accepted
  }

  /** `getConversations`: every conversation of the chosen list, each as
      often as stored, most recently updated first. */
  function GetConversations(convs: seq<Conversation>, caller: Id, kind: Option<string>): (r: seq<Conversation>)
    ensures forall c :: multiset(r)[c] == if Listed(kind, caller, c) then multiset(convs)[c] else 0
    ensures forall c :: c in r <==> c in convs && Listed(kind, caller, c)
    ensures SortedDesc(r, UpdatedAt)
  {
    var listed := Filter(convs, (c: Conversation) => Listed(kind, caller, c));
    var r := SortDesc(listed, UpdatedAt);
    FilterMultiset(convs, (c: Conversation) => Listed(kind, caller, c));
    SameMembers(listed, r);
    r
  }

  /** A new request is pending in the recipient's `pending` list and in
      the sender's `sent` list. */
  lemma {:induction false} RequestIsPending(db: Db, sender: Id, body: RequestBody, newId: Id, now: int)
    requires SendConnectionRequest(db, sender, body, newId, now).1.Ok?
    ensures var r := SendConnectionRequest(db, sender, body, newId, now);
      && r.1.value in GetConversations(r.0.conversations, body.receiverId.value, Some("pending"))
      && r.1.value in GetConversations(r.0.conversations, sender, Some("sent"))
  {
    var r := SendConnectionRequest(db, sender, body, newId, now);
    var c := r.1.value;
    var convs := r.0.conversations;
    assert convs == db.conversations + [c];
    assert c in convs;
    ListedIff(convs, body.receiverId.value, Some("pending"), c);
    ListedIff(convs, sender, Some("sent"), c);
  }

  /** A new request is in neither user's chats until it is accepted. */
  lemma {:induction false} RequestNotActive(db: Db, sender: Id, body: RequestBody, newId: Id, now: int)
    requires SendConnectionRequest(db, sender, body, newId, now).1.Ok?
    ensures var r := SendConnectionRequest(db, sender, body, newId, now);
      && r.1.value !in GetConversations(r.0.conversations, sender, None)
      && r.1.value !in GetConversations(r.0.conversations, body.receiverId.value, None)
  {
    var r := SendConnectionRequest(db, sender, body, newId, now);
    var c := r.1.value;
    var convs := r.0.conversations;
    assert c.status == Pending;
    assert convs == db.conversations + [c];
    assert c in convs;
    assert c !in GetConversations(convs, sender, None) by {
      assert !Listed(None, sender, c);
      ListedIff(convs, sender, None, c);
    }
    assert c !in GetConversations(convs, body.receiverId.value, None) by {
      assert !Listed(None, body.receiverId.value, c);
      ListedIff(convs, body.receiverId.value, None, c);
    }
  }

  lemma ListedIff(convs: seq<Conversation>, caller: Id, kind: Option<string>, c: Conversation)
    requires c in convs
    ensures c in GetConversations(convs, caller, kind) <==> Listed(kind, caller, c)
  {
  }

  /** Once the recipient accepts a request it is in both users' chats and
      no longer pending. */
  lemma {:induction false} AcceptedIsActive(db: Db, actor: Id, id: Id)
    requires UpdateConnectionStatus(db, actor, Some(id), "accepted").1.Ok?
    ensures var r := UpdateConnectionStatus(db, actor, Some(id), "accepted");
      var c := r.1.value.conversation;
      && r.1.value.Updated? && c.status == Accepted
      && (forall u :: u in c.participants ==> c in GetConversations(r.0.conversations, u, None))
      && c !in GetConversations(r.0.conversations, actor, Some("pending"))
      && c !in GetConversations(r.0.conversations, c.requester, Some("sent"))
  {
    var r := UpdateConnectionStatus(db, actor, Some(id), "accepted");
    var i := ConvIndex(db.conversations, id).value;
    StatusNameRoundTrip(Accepted);
    var c := r.1.value.conversation;
    assert r.0.conversations[i] == c;
    assert c in r.0.conversations;
  }

  /** The full lifecycle: after a request, the recipient's acceptance
      succeeds and the conversation joins both users' chats. */
  lemma {:induction false} RequestLifecycle(db: Db, sender: Id, body: RequestBody, newId: Id, now: int)
    requires SendConnectionRequest(db, sender, body, newId, now).1.Ok?
    ensures var db1 := SendConnectionRequest(db, sender, body, newId, now).0;
      var r := UpdateConnectionStatus(db1, body.receiverId.value, Some(newId), "accepted");
      && r.1.Ok?
      && r.1.value.conversation in GetConversations(r.0.conversations, sender, None)
      && r.1.value.conversation in GetConversations(r.0.conversations, body.receiverId.value, None)
  {
    var r0 := SendConnectionRequest(db, sender, body, newId, now);
    var db1 := r0.0;
    var n := |db.conversations|;
    assert db1.conversations[n] == r0.1.value;
    assert ConvIndex(db1.conversations, newId) == Some(n);
    StatusNameRoundTrip(Accepted);
    var receiver := body.receiverId.value;
    assert UpdateConnectionStatus(db1, receiver, Some(newId), "accepted").1.Ok?;
    AcceptedIsActive(db1, receiver, newId);
    var c := UpdateConnectionStatus(db1, receiver, Some(newId), "accepted").1.value.conversation;
    assert c.participants == [sender, receiver];
  }

  /** `getMessages`: the conversation's messages in stored order, each as
      often as it is stored. */
  function GetMessages(msgs: seq<Message>, conversationId: Id): (r: seq<Message>)
    ensures forall m :: m in r <==> m in msgs && m.conversationId == conversationId
    ensures forall m :: multiset(r)[m] == if m.conversationId == conversationId then multiset(msgs)[m] else 0
    ensures Subseq(r, msgs)
  {
    var p := (m: Message) => m.conversationId == conversationId;
    FilterMultiset(msgs, p);
    Filter(msgs, p)
  }

  // ----------------------------------------------------------- leaderboard

  const LeaderboardSize: nat := 10

  /** The `streak: { $gt: 0 }` query. */
  predicate OnBoard(c: Conversation) {
    c.streak > 0
  }

  /** `getLeaderboard`: conversations with a positive streak, longest first,
      at most ten, each stored conversation at most once; anything left off
      ranks no higher than anything shown, and nothing is left off while
      there is room. */
  function Leaderboard(convs: seq<Conversation>): (r: seq<Conversation>)
    ensures |r| <= LeaderboardSize
    ensures multiset(r) <= multiset(convs)
    ensures forall c :: c in r ==> c in convs && c.streak > 0
    ensures SortedDesc(r, StreakOf)
    ensures |r| < LeaderboardSize ==> forall c :: c in convs && c.streak > 0 ==> c in r
    ensures forall c, x :: c in convs && c.streak > 0 && c !in r && x in r ==> c.streak <= x.streak
  {
    var positive := Filter(convs, OnBoard);
    var ranked := SortDesc(positive, StreakOf);
    SameMembers(positive, ranked);
    var r := Take(ranked, LeaderboardSize);
    PrefixRanksHighest(ranked, r, StreakOf);
    assert forall c :: c in convs && c.streak > 0 <==> c in ranked;
    FilterMultiset(convs, OnBoard);
    PrefixMultiset(ranked, |r|);
    r
  }

  /** The board holds as many conversations as there are with a positive
      streak, up to ten. */
  lemma LeaderboardSizeIsCount(convs: seq<Conversation>)
    ensures |Leaderboard(convs)| == if Count(convs, OnBoard) < LeaderboardSize then Count(convs, OnBoard) else LeaderboardSize
  {
    FilterCount(convs, OnBoard);
  }
}

=== FILE: chat_window.dfy ===
/** The open conversation: which messages it shows, the message events it
    sends (text, image, call invitation) with their language fallback
    chains, how a call invitation is recognised again, and the translation
    line under a message. */
module ChatWindow {
  import opened Base
  import opened Seqs
  import opened Text
  import opened Models
  import opened Views
  import opened Translate
  import opened Relay
  import opened Presence

  /** The `receive_message` handler: only messages of the open conversation
      are appended; the window never shows another conversation's message. */
  function OnIncoming(messages: seq<MessageView>, msg: MessageView, open: Option<Id>): (r: seq<MessageView>)
    ensures |messages| <= |r| <= |messages| + 1 && r[..|messages|] == messages
    ensures |r| == |messages| + 1 <==> open == Some(msg.conversationId)
    ensures |r| == |messages| + 1 ==> r[|messages|] == msg
    ensures open.Some? && (forall m :: m in messages ==> m.conversationId == open.value)
      ==> forall m :: m in r ==> m.conversationId == open.value
  {
    if open == Some(msg.conversationId) then messages + [msg] else messages
  }

  /** The key the map is read with for the other side: a template of
      `undefined` when there is no other participant. */
  function PartnerKey(other: Option<Person>): Id {
    if other.Some? then other.value.id else "undefined"
  }

  /** The language a message is written in: what the map says the partner
      learns, else the viewer's first native language, else `en`. */
  function OriginalLanguage(conv: ConvView, me: Person, other: Option<Person>): (r: string)
    ensures r != ""
    ensures Truthy(Lookup(conv.learningMap, PartnerKey(other))) ==> r == conv.learningMap[PartnerKey(other)]
    ensures !Truthy(Lookup(conv.learningMap, PartnerKey(other))) && Truthy(At(me.nativeLanguages, 0))
      ==> r == me.nativeLanguages[0]
    ensures !Truthy(Lookup(conv.learningMap, PartnerKey(other))) && !Truthy(At(me.nativeLanguages, 0))
      ==> r == "en"
  {
    OrElse(Or(Lookup(conv.learningMap, PartnerKey(other)), At(me.nativeLanguages, 0)), "en")
  }

  /** The language a message is translated into: what the map says the
      viewer learns, else the partner's first native language, else `es`. */
  function TargetLanguage(conv: ConvView, me: Person, other: Option<Person>): (r: string)
    ensures r != ""
    ensures Truthy(Lookup(conv.learningMap, me.id)) ==> r == conv.learningMap[me.id]
    ensures !Truthy(Lookup(conv.learningMap, me.id)) && other.Some? && Truthy(At(other.value.nativeLanguages, 0))
      ==> r == other.value.nativeLanguages[0]
    ensures !Truthy(Lookup(conv.learningMap, me.id)) && (other.None? || !Truthy(At(other.value.nativeLanguages, 0)))
      ==> r == "es"
  {
    OrElse(Or(Lookup(conv.learningMap, me.id), if other.Some? then At(other.value.nativeLanguages, 0) else None), "es")
  }

  /** A `send_message` payload of the given kind; the three senders share
      the same language chains. */
  function Outgoing(conv: ConvView, me: Person, other: Option<Person>, content: string, kind: string): (d: SendData)
    ensures d.senderId == Some(me.id) && d.conversationId == Some(conv.id)
    ensures d.content == Some(content) && d.kind == Some(kind)
    ensures d.originalLanguage == Some(OriginalLanguage(conv, me, other))
    ensures d.targetLanguage == Some(TargetLanguage(conv, me, other))
  {
    SendData(Some(me.id), Some(conv.id), Some(content),
             Some(OriginalLanguage(conv, me, other)), Some(TargetLanguage(conv, me, other)), Some(kind))
  }

  /** The send button: blank input sends nothing and stays; anything else is
      sent as typed (not trimmed) and the input is cleared. */
  function HandleSend(input: string, conv: ConvView, me: Person, other: Option<Person>): (r: (Option<SendData>, string))
    ensures r.0.None? <==> forall i :: 0 <= i < |input| ==> IsSpace(input[i])
    ensures r.0.None? ==> r.1 == input
    ensures r.0.Some? ==> r.1 == "" && r.0.value == Outgoing(conv, me, other, input, "text")
  {
    TrimEmptyIffBlank(input);
    if Trim(input) == "" then (None, input) else (Some(Outgoing(conv, me, other, input, "text")), "")
  }

  /** Whatever non-blank text is sent from an open conversation passes the
      message schema on the server, and as text it is translated into the
      target language (or tagged with it when the service fails). */
  lemma SentTextIsStorable(input: string, conv: ConvView, me: Person, other: Option<Person>, service: Service)
    requires HandleSend(input, conv, me, other).0.Some?
    requires conv.id != "" && me.id != ""
    ensures var data := HandleSend(input, conv, me, other).0.value;
      && MessageDraftValid(Relay.DraftOf(data, service))
      && Relay.DraftOf(data, service).translatedText
         == Some(TranslateText(input, Some(TargetLanguage(conv, me, other)), service))
  {
    TypeNameRoundTrip(Text);
    assert input != "";
  }

  function CallContent(video: bool): string {
    if video then "Started a Video Call" else "Started a Voice Call"
  }

  /** How a call invitation is drawn: as a video call when its text
      mentions `video` in any case. */
  predicate IsVideo(text: string) {
    Includes(Lower(text), "video")
  }

  /** The call invitation round trip: the kind of call is recovered from the
      text that announced it. */
  lemma CallRoundTrip(video: bool)
    ensures IsVideo(CallContent(video)) == video
  {
    var t := CallContent(video);
    var low := Lower(t);
    if video {
      assert t[10] == 'V' && t[11] == 'i' && t[12] == 'd' && t[13] == 'e' && t[14] == 'o';
      assert low[10..][..5] == "video";
    } else {
      assert forall j :: 0 <= j < |t| && j != 10 ==> t[j] != 'V' && t[j] != 'v';
      assert t[11] == 'o';
      forall i | 0 <= i <= |low| ensures !("video" <= low[i..]) {
        if i + 1 < |low| {
          assert low[i..][..2] == [LowerChar(t[i]), LowerChar(t[i + 1])];
        }
      }
    }
  }

  /** The call button's payload. */
  function CallMessage(conv: ConvView, me: Person, other: Option<Person>, video: bool): (d: SendData)
    ensures d.kind == Some("call_invite") && d.content.Some? && IsVideo(d.content.value) == video
    ensures d.senderId == Some(me.id) && d.conversationId == Some(conv.id)
  {
    CallRoundTrip(video);
    Outgoing(conv, me, other, CallContent(video), "call_invite")
  }

  /** The image upload's payload. */
  function ImageMessage(conv: ConvView, me: Person, other: Option<Person>, dataUrl: string): (d: SendData)
    ensures d.kind == Some("image") && d.content == Some(dataUrl)
    ensures d.senderId == Some(me.id) && d.conversationId == Some(conv.id)
  {
    Outgoing(conv, me, other, dataUrl, "image")
  }

  /** Text, image and call messages sent from one conversation carry the same
      two languages: the written-in language of the partner-keyed chain and
      the translate-into language of the viewer-keyed chain. */
  lemma SendersShareLanguages(input: string, conv: ConvView, me: Person, other: Option<Person>, video: bool, dataUrl: string)
    requires HandleSend(input, conv, me, other).0.Some?
    ensures var t := HandleSend(input, conv, me, other).0.value;
      var c := CallMessage(conv, me, other, video);
      var i := ImageMessage(conv, me, other, dataUrl);
      && t.originalLanguage == c.originalLanguage == i.originalLanguage == Some(OriginalLanguage(conv, me, other))
      && t.targetLanguage == c.targetLanguage == i.targetLanguage == Some(TargetLanguage(conv, me, other))
  {
  }

  /** The sender is the viewer, whether the sender is a bare id or populated. */
  predicate IsMe(sender: SenderRef, me: Id) {
    match sender
    case SenderId(id) => id == me
    case SenderDoc(p) => p.id == me
  }

  /** The line under a message: drawn under others' text (and notice)
      messages while translation is on; it shows the translation, or
      `Translating...` while there is none. */
  function TranslationLine(msg: MessageView, me: Id, translationOn: bool): (r: Option<string>)
    ensures r.Some? <==> msg.kind != Image && msg.kind != CallInvite && !IsMe(msg.sender, me) && translationOn
    ensures r.Some? ==> r.value != ""
    ensures r.Some? && Truthy(msg.translatedText) ==> r.value == msg.translatedText.value
    ensures r.Some? && !Truthy(msg.translatedText) ==> r.value == "Translating..."
  {
    if msg.kind == Image || msg.kind == CallInvite || IsMe(msg.sender, me) || !translationOn then None
    else Some(OrElse(msg.translatedText, "Translating..."))
  }

  /** When translation fails, the relay still delivers the message, and the
      other participant sees the tagged fallback under it. */
  lemma FailedTranslationIsShownTagged(st: State, data: SendData, msgId: Id, now: int, sender: Person, viewer: Id)
    requires MessageDraftValid(Relay.DraftOf(data, Failed))
    requires data.kind == Some("text")
    requires !Store.MessageIdTaken(st.db.messages, msgId)
    requires Store.ConvIndex(st.db.conversations, data.conversationId.value).Some?
    requires sender.id != viewer
    ensures var (s, o) := SendMessage(st, data, Failed, msgId, now, NoFault);
      var m := s.db.messages[|st.db.messages|];
      && o == Delivered
      && TranslationLine(MessageViewOf(m, sender), viewer, true) == Some(Fallback(data.targetLanguage, data.content.value))
  {
    TranslationFailureStillDelivers(st, data, msgId, now);
    var (s, o) := SendMessage(st, data, Failed, msgId, now, NoFault);
    var m := s.db.messages[|st.db.messages|];
    assert NewMessage(Relay.DraftOf(data, Failed), msgId, now) == Ok(m);
    TypeNameRoundTrip(Text);
    assert m.kind == Text;
  }

  /** The header's online flag follows the presence registry: right after
      the partner connects they show online, and right after their own
      socket closes they show offline. */
  lemma OnlineFollowsPresence(h: Hub, p: Person, socketId: Id)
    requires Presence.Accepted(Some(p.id))
    ensures var h1 := Connect(h, Some(p.id), socketId);
      && LastSnapshot(h1.outbox).Some? && Online(Some(p), LastSnapshot(h1.outbox).value)
    ensures var h2 := Disconnect(Connect(h, Some(p.id), socketId), Some(p.id), socketId);
      && LastSnapshot(h2.outbox).Some? && !Online(Some(p), LastSnapshot(h2.outbox).value)
  {
    var h1 := Connect(h, Some(p.id), socketId);
    assert LastSnapshot(h1.outbox) == Some(h1.online.Keys);
    var h2 := Disconnect(h1, Some(p.id), socketId);
    assert LastSnapshot(h2.outbox) == Some(h2.online.Keys);
  }
}

=== FILE: discovery.dfy ===
/** The partner-discovery page: the client-side search and language filters
    over the server's matches, the language pills and per-language sections,
    the request each card sends, and the list update after a request. */
module Discovery {
  import opened Base
  import opened Seqs
  import opened Text
  import opened Models
  import opened Store
  import opened ChatController

  /** The search box hit: the lower-cased term occurs in the lower-cased
      username, a native language, or a language the match can teach. */
  predicate SearchHit(m: Match, lower: string) {
    || Includes(Lower(m.user.username), lower)
    || Any(m.user.nativeLanguages, (l: string) => Includes(Lower(l), lower))
    || Any(m.canTeachMe, (l: string) => Includes(Lower(l), lower))
  }

  /** Is a match on screen for this search term and language selection? An
      empty term searches nothing away; `All` selects every language. */
  predicate Shown(m: Match, term: string, selected: string) {
    && (term == "" || SearchHit(m, Lower(term)))
    && (selected == "All" || selected in m.canTeachMe)
  }

  function SearchFilter(ms: seq<Match>, term: string): seq<Match> {
    if term != "" then Filter(ms, (m: Match) => SearchHit(m, Lower(term))) else ms
  }

  function LanguageFilter(ms: seq<Match>, selected: string): seq<Match> {
    if selected != "All" then Filter(ms, (m: Match) => selected in m.canTeachMe) else ms
  }

  /** The filter effect: the search, then the language selection. The result
      is the matches on screen, in the server's order. */
  function FilterMatches(ms: seq<Match>, term: string, selected: string): (r: seq<Match>)
    ensures r == Filter(ms, (m: Match) => Shown(m, term, selected))
    ensures Subseq(r, ms)
    ensures forall m :: m in r <==> m in ms && Shown(m, term, selected)
  {
    PipelineIsOneFilter(ms, term, selected);
    LanguageFilter(SearchFilter(ms, term), selected)
  }

  /** The two filter stages together keep exactly the shown matches. */
  lemma PipelineIsOneFilter(ms: seq<Match>, term: string, selected: string)
    ensures LanguageFilter(SearchFilter(ms, term), selected) == Filter(ms, (m: Match) => Shown(m, term, selected))
  {
    var shown := (m: Match) => Shown(m, term, selected);
    var hit := (m: Match) => SearchHit(m, Lower(term));
    var lang := (m: Match) => selected in m.canTeachMe;
    var always := (m: Match) => true;
    if term != "" && selected != "All" {
      FilterFuse(ms, hit, lang, shown);
    } else if term != "" {
      FilterFuse(ms, hit, always, shown);
      FilterAll(Filter(ms, hit), always);
    } else if selected != "All" {
      FilterFuse(ms, always, lang, shown);
      FilterAll(ms, always);
    } else {
      FilterAll(ms, shown);
    }
  }

  /** Applying the language selection before the search shows the same list. */
  lemma FiltersCommute(ms: seq<Match>, term: string, selected: string)
    ensures SearchFilter(LanguageFilter(ms, selected), term) == FilterMatches(ms, term, selected)
  {
    var shown := (m: Match) => Shown(m, term, selected);
    var hit := (m: Match) => SearchHit(m, Lower(term));
    var lang := (m: Match) => selected in m.canTeachMe;
    var always := (m: Match) => true;
    if term != "" && selected != "All" {
      FilterFuse(ms, lang, hit, shown);
    } else if term != "" {
      FilterFuse(ms, always, hit, shown);
      FilterAll(ms, always);
    } else if selected != "All" {
      FilterFuse(ms, lang, always, shown);
      FilterAll(Filter(ms, lang), always);
    }
  }

  /** The pills: `All`, then each language some match can teach, once, in
      first-seen order. */
  function AvailableLanguages(ms: seq<Match>): (r: seq<string>)
    ensures |r| >= 1 && r[0] == "All"
    ensures NoDup(r[1..])
    ensures forall l :: l in r[1..] <==> exists m :: m in ms && l in m.canTeachMe
    ensures Subseq(r[1..], FlatMap(ms, (m: Match) => m.canTeachMe))
  {
    var langs := Dedupe(FlatMap(ms, (m: Match) => m.canTeachMe));
    forall l ensures l in langs <==> exists m :: m in ms && l in m.canTeachMe {
      if l in langs {
        var i :| 0 <= i < |ms| && l in ms[i].canTeachMe;
      }
      if exists m :: m in ms && l in m.canTeachMe {
        var m :| m in ms && l in m.canTeachMe;
        var i :| 0 <= i < |ms| && ms[i] == m;
      }
    }
    assert (["All"] + langs)[1..] == langs;
    ["All"] + langs
  }

  /** The pill row is drawn only when there are more than two entries. */
  predicate PillsShown(ms: seq<Match>) {
    |AvailableLanguages(ms)| > 2
  }

  /** The pills appear exactly when the matches can teach at least two
      different languages. */
  lemma PillsShownIff(ms: seq<Match>)
    ensures PillsShown(ms) <==>
      exists m1, m2, a, b :: m1 in ms && m2 in ms && a in m1.canTeachMe && b in m2.canTeachMe && a != b
  {
    var langs := AvailableLanguages(ms)[1..];
    if PillsShown(ms) {
      assert langs[0] != langs[1];
      assert langs[0] in langs && langs[1] in langs;
    }
    if exists m1, m2, a, b :: m1 in ms && m2 in ms && a in m1.canTeachMe && b in m2.canTeachMe && a != b {
      var m1, m2, a, b :| m1 in ms && m2 in ms && a in m1.canTeachMe && b in m2.canTeachMe && a != b;
      assert a in langs && b in langs;
      var i :| 0 <= i < |langs| && langs[i] == a;
      var j :| 0 <= j < |langs| && langs[j] == b;
      assert i != j;
    }
  }

  /** The list after a request: on success the receiver is gone; on failure
      nothing changes. */
  function AfterRequest(ms: seq<Match>, receiverId: Id, succeeded: bool): (r: seq<Match>)
    ensures succeeded ==> forall m :: m in r <==> m in ms && m.user.id != receiverId
    ensures succeeded ==> Subseq(r, ms)
    ensures !succeeded ==> r == ms
  {
    if succeeded then Filter(ms, (m: Match) => m.user.id != receiverId) else ms
  }

  /** Adding a conversation between the caller and `rid` removes exactly
      `rid` from the users the caller may be offered. */
  lemma EligibleAfterAppend(convs: seq<Conversation>, c: Conversation, me: User, rid: Id, v: User)
    requires c.participants == [me.id, rid]
    ensures Eligible(convs + [c], me, v) <==> Eligible(convs, me, v) && v.id != rid
  {
    var convs1 := convs + [c];
    if SharesConversation(convs, me.id, v.id) {
      var i :| 0 <= i < |convs| && me.id in convs[i].participants && v.id in convs[i].participants;
      assert convs1[i] == convs[i];
    }
    if v.id == rid {
      assert convs1[|convs|] == c;
    }
    if SharesConversation(convs1, me.id, v.id) && v.id != rid && v.id != me.id {
      var i :| 0 <= i < |convs1| && me.id in convs1[i].participants && v.id in convs1[i].participants;
      assert i < |convs|;
      assert convs[i] == convs1[i];
    }
  }

  /** A created request changes the server's answer exactly as the client
      predicts: refetching the matches gives the old ones minus the receiver. */
  lemma AfterRequestMatchesRefetch(db: Db, caller: Id, body: RequestBody, newId: Id, now: int)
    requires FindMatch(db, caller).Ok?
    requires SendConnectionRequest(db, caller, body, newId, now).1.Ok?
    ensures var db1 := SendConnectionRequest(db, caller, body, newId, now).0;
      var before := AfterRequest(FindMatch(db, caller).value, body.receiverId.value, true);
      forall m :: m in FindMatch(db1, caller).value <==> m in before
  {
    var (db1, res) := SendConnectionRequest(db, caller, body, newId, now);
    RefetchAfterAppend(db, db1, res.value, caller, body.receiverId.value);
  }

  lemma RefetchAfterAppend(db: Db, db1: Db, c: Conversation, caller: Id, rid: Id)
    requires FindMatch(db, caller).Ok?
    requires db1.users == db.users && db1.conversations == db.conversations + [c]
    requires c.participants == [caller, rid]
    ensures forall m :: m in FindMatch(db1, caller).value <==> m in FindMatch(db, caller).value && m.user.id != rid
  {
    var me := UserById(db.users, caller).value;
    var after := FindMatch(db1, caller).value;
    var before := FindMatch(db, caller).value;
    forall m ensures m in after <==> m in before && m.user.id != rid {
      if m in after {
        var v :| v in db1.users && Eligible(db1.conversations, me, v) && m == MatchOf(me, v);
        EligibleAfterAppend(db.conversations, c, me, rid, v);
      }
      if m in before && m.user.id != rid {
        var v :| v in db.users && Eligible(db.conversations, me, v) && m == MatchOf(me, v);
        EligibleAfterAppend(db.conversations, c, me, rid, v);
      }
    }
  }

  /** One language section: the language and the filtered matches that can
      teach it. */
  datatype Section = Section(language: string, matches: seq<Match>)

  function SectionsFrom(langs: seq<string>, filtered: seq<Match>, selected: string): (r: seq<Section>)
    ensures forall s :: s in r ==>
      && s.language in langs && (selected == "All" || s.language == selected)
      && s.matches == Filter(filtered, (m: Match) => s.language in m.canTeachMe) && |s.matches| > 0
    decreases |langs|
  {
    if |langs| == 0 then []
    else
      var l := langs[0];
      var rest := SectionsFrom(langs[1..], filtered, selected);
      if selected != "All" && l != selected then rest
      else
        var sm := Filter(filtered, (m: Match) => l in m.canTeachMe);
        if |sm| == 0 then rest else [Section(l, sm)] + rest
  }

  /** Every selected language some filtered match teaches gets a section. */
  lemma {:induction false} SectionsCover(langs: seq<string>, filtered: seq<Match>, selected: string, l: string, m: Match)
    requires l in langs && (selected == "All" || l == selected) && m in filtered && l in m.canTeachMe
    ensures exists s :: s in SectionsFrom(langs, filtered, selected) && s.language == l
    decreases |langs|
  {
    var r := SectionsFrom(langs, filtered, selected);
    if langs[0] == l {
      var sm := Filter(filtered, (x: Match) => l in x.canTeachMe);
      assert m in sm;
      assert r[0] == Section(l, sm);
    } else {
      assert l in langs[1..];
      SectionsCover(langs[1..], filtered, selected, l, m);
      var rest := SectionsFrom(langs[1..], filtered, selected);
      assert forall s :: s in rest ==> s in r;
    }
  }

  function SectionLanguages(r: seq<Section>): (ls: seq<string>)
    ensures |ls| == |r| && forall i :: 0 <= i < |r| ==> ls[i] == r[i].language
  {
    MapSeq(r, (s: Section) => s.language)
  }

  /** The sections come in the order of their languages. */
  lemma {:induction false} SectionsInOrder(langs: seq<string>, filtered: seq<Match>, selected: string)
    ensures Subseq(SectionLanguages(SectionsFrom(langs, filtered, selected)), langs)
    decreases |langs|
  {
    if |langs| > 0 {
      var r := SectionsFrom(langs, filtered, selected);
      var rest := SectionsFrom(langs[1..], filtered, selected);
      SectionsInOrder(langs[1..], filtered, selected);
      var ls := SectionLanguages(r);
      if r != rest {
        assert ls[0] == langs[0];
        assert ls[1..] == SectionLanguages(rest);
      } else if |ls| > 0 {
        assert ls == SectionLanguages(rest);
      }
    }
  }

  /** The sections drawn under the filters: one per language some shown
      match can teach (only the selected one unless `All`), each with every
      shown match that teaches it, none empty and none repeated. */
  function Sections(filtered: seq<Match>, selected: string): (r: seq<Section>)
    ensures forall s :: s in r ==>
      && (selected == "All" || s.language == selected) && |s.matches| > 0
      && forall m :: m in s.matches <==> m in filtered && s.language in m.canTeachMe
    ensures forall m, l ::
              (m in filtered && l in m.canTeachMe && (selected == "All" || l == selected))
              ==> exists s :: s in r && s.language == l && m in s.matches
    ensures forall i, j :: 0 <= i < j < |r| ==> r[i].language != r[j].language
  {
    var langs := Dedupe(FlatMap(filtered, (m: Match) => m.canTeachMe));
    var r := SectionsFrom(langs, filtered, selected);
    SectionsInOrder(langs, filtered, selected);
    NoDupSubseq(SectionLanguages(r), langs);
    assert forall i :: 0 <= i < |r| ==> SectionLanguages(r)[i] == r[i].language;
    forall m, l | m in filtered && l in m.canTeachMe && (selected == "All" || l == selected)
      ensures exists s :: s in r && s.language == l && m in s.matches
    {
      var i :| 0 <= i < |filtered| && filtered[i] == m;
      assert l in langs;
      SectionsCover(langs, filtered, selected, l, m);
      var s :| s in r && s.language == l;
      assert m in s.matches;
    }
    r
  }

  /** The request a card sends for a section's language: the card's user as
      receiver, the first language they want to learn as the one the caller
      teaches, and the section's language as the one the caller learns. */
  function CardRequest(m: Match, lang: string): (r: RequestBody)
    ensures r.receiverId == Some(m.user.id) && r.learnLanguage == Some(lang)
    ensures r.teachLanguage.Some? <==> |m.wantsToLearn| > 0
    ensures r.teachLanguage.Some? ==> r.teachLanguage.value == m.wantsToLearn[0]
  {
    RequestBody(Some(m.user.id), At(m.wantsToLearn, 0), Some(lang))
  }

  /** The level a card computes for the language its user wants to learn:
      their own level for it, else `Beginner`. The card's markup never
      renders it. */
  function CardLevel(m: Match): (r: string)
    ensures (exists e :: e in m.user.learningLanguages && |m.wantsToLearn| > 0 && e.language == m.wantsToLearn[0])
      ==> exists e :: e in m.user.learningLanguages && e.language == m.wantsToLearn[0] && r == LevelName(e.level)
    ensures !(exists e :: e in m.user.learningLanguages && |m.wantsToLearn| > 0 && e.language == m.wantsToLearn[0])
      ==> r == "Beginner"
  {
    var teach := At(m.wantsToLearn, 0);
    match Find(m.user.learningLanguages, (e: LearningEntry) => teach.Some? && e.language == teach.value)
    case Some(e) => LevelName(e.level)
    case None => "Beginner"
  }

  /** Every stored learning entry names a language, as the schema requires. */
  predicate LanguagesPresent(users: seq<User>) {
    forall u, e :: u in users && e in u.learningLanguages ==> e.language != ""
  }

  /** A card for a server match sends a request the server accepts as a
      language pair, between two different users, that pairs a language the
      caller learns and the partner speaks with one the partner learns and
      the caller speaks; and the level the card computes is the partner's
      own. */
  lemma CardRequestFromMatch(db: Db, caller: Id, m: Match, lang: string)
    requires FindMatch(db, caller).Ok? && m in FindMatch(db, caller).value
    requires lang in m.canTeachMe
    requires LanguagesPresent(db.users)
    ensures var me := UserById(db.users, caller).value;
      var body := CardRequest(m, lang);
      && m.user.id != caller
      && Truthy(body.teachLanguage) && Truthy(body.learnLanguage)
      && lang in LearningCodes(me.learningLanguages) && lang in m.user.nativeLanguages
      && body.teachLanguage.value in me.nativeLanguages
      && body.teachLanguage.value in LearningCodes(m.user.learningLanguages)
    ensures CardLevel(m) != "Beginner"
  {
    var me := UserById(db.users, caller).value;
    var v :| v in db.users && Eligible(db.conversations, me, v) && m == MatchOf(me, v);
    CardOfEligible(me, v, lang);
  }

  lemma CardOfEligible(me: User, v: User, lang: string)
    requires Compatible(me, v) && v.id != me.id
    requires LanguagesPresent([me, v])
    requires lang in MatchOf(me, v).canTeachMe
    ensures var m := MatchOf(me, v);
      var body := CardRequest(m, lang);
      && m.user.id != me.id
      && Truthy(body.teachLanguage) && Truthy(body.learnLanguage)
      && lang in LearningCodes(me.learningLanguages) && lang in m.user.nativeLanguages
      && body.teachLanguage.value in me.nativeLanguages
      && body.teachLanguage.value in LearningCodes(m.user.learningLanguages)
    ensures CardLevel(MatchOf(me, v)) != "Beginner"
  {
    var m := MatchOf(me, v);
    var codes := LearningCodes(me.learningLanguages);
    var k :| 0 <= k < |codes| && codes[k] == lang;
    assert me.learningLanguages[k] in me.learningLanguages;
    TeachIsLearned(me, v);
    LevelNotFallback(m);
  }

  /** When the card's user has an entry for the language, the computed
      level is not the fallback `Beginner`: stored level names are lower
      case. */
  lemma LevelNotFallback(m: Match)
    requires |m.wantsToLearn| > 0
    requires exists e :: e in m.user.learningLanguages && e.language == m.wantsToLearn[0]
    ensures CardLevel(m) != "Beginner"
  {
    var e :| e in m.user.learningLanguages && e.language == m.wantsToLearn[0] && CardLevel(m) == LevelName(e.level);
    assert LevelName(e.level)[0] != 'B';
  }

  /** The first language a match wants to learn is one of their entries. */
  lemma TeachIsLearned(me: User, v: User)
    requires Compatible(me, v)
    requires LanguagesPresent([me, v])
    ensures var m := MatchOf(me, v);
      && |m.wantsToLearn| > 0 && m.wantsToLearn[0] != ""
      && (exists e :: e in m.user.learningLanguages && e.language == m.wantsToLearn[0])
  {
    var m := MatchOf(me, v);
    var teach := m.wantsToLearn[0];
    assert teach in m.wantsToLearn;
    var vcodes := LearningCodes(v.learningLanguages);
    var j :| 0 <= j < |vcodes| && vcodes[j] == teach;
    assert v.learningLanguages[j] in v.learningLanguages;
    assert m.user.learningLanguages == v.learningLanguages;
  }
}

=== FILE: edit_profile.dfy ===
/** The edit-profile dialog: it loads the signed-in user's profile into a
    form of plain language codes, and on save sends the codes back with
    each one's stored level. */
module EditProfile {
  import opened Base
  import opened Seqs
  import opened Models
  import opened Store
  import opened AuthController
  import opened Toggles

  /** What the dialog holds: learning languages as bare codes. */
  datatype Form = Form(username: string, nativeLanguages: seq<string>, learningCodes: seq<string>)

  /** The form as loaded from a profile. */
  function FormOf(p: Profile): (r: Form)
    ensures r.username == p.username && r.nativeLanguages == p.nativeLanguages
    ensures |r.learningCodes| == |p.learningLanguages|
    ensures forall i :: 0 <= i < |r.learningCodes| ==> r.learningCodes[i] == p.learningLanguages[i].language
  {
    Form(OrElse(Some(p.username), ""), p.nativeLanguages, LearningCodes(p.learningLanguages))
  }

  /** The load effect: it runs only while the dialog is open and a user is
      signed in; otherwise the form keeps what it had (and a closed dialog
      renders nothing). */
  function OnOpen(user: Option<Profile>, isOpen: bool, prev: Form): (r: Form)
    ensures user.Some? && isOpen ==> r == FormOf(user.value)
    ensures user.None? || !isOpen ==> r == prev
  {
    if user.Some? && isOpen then FormOf(user.value) else prev
  }

  /** Both pickers toggle plain codes. */
  function OnClick(f: Form, c: Click): (r: Form)
    ensures r.username == f.username
    ensures c.NativeClick? ==>
              && r.learningCodes == f.learningCodes
              && (c.lang in r.nativeLanguages <==> c.lang !in f.nativeLanguages)
    ensures c.LearningClick? ==>
              && r.nativeLanguages == f.nativeLanguages
              && (c.lang in r.learningCodes <==> c.lang !in f.learningCodes)
  {
    match c
    case NativeClick(lang) => f.(nativeLanguages := ToggleMember(f.nativeLanguages, lang))
    case LearningClick(lang) => f.(learningCodes := ToggleMember(f.learningCodes, lang))
  }

  /** The level sent for a code: that of the first stored entry with the
      code, else `beginner`. */
  function LevelFor(p: Profile, code: string): (r: string)
    ensures ParseLevel(r).Some?
    ensures forall i ::
              (0 <= i < |p.learningLanguages| && p.learningLanguages[i].language == code
               && (forall j :: 0 <= j < i ==> p.learningLanguages[j].language != code))
              ==> r == LevelName(p.learningLanguages[i].level)
    ensures (forall i :: 0 <= i < |p.learningLanguages| ==> p.learningLanguages[i].language != code) ==>
      r == "beginner"
  {
    var found := Find(p.learningLanguages, (e: LearningEntry) => e.language == code);
    var level := if found.Some? then Some(LevelName(found.value.level)) else None;
    var r := OrElse(level, "beginner");
    if found.Some? then LevelNameRoundTrip(found.value.level); r else r
  }

  /** One body entry per code, in the form's order. */
  function SaveEntries(p: Profile, codes: seq<string>): (r: seq<LearningDraft>)
    ensures |r| == |codes|
    ensures forall i :: 0 <= i < |codes| ==>
      r[i].language == Some(codes[i]) && r[i].level == Some(LevelFor(p, codes[i]))
  {
    MapSeq(codes, (c: string) => LearningDraft(Some(c), Some(LevelFor(p, c))))
  }

  /** `handleSave`: the body sent to the profile endpoint. */
  function Payload(f: Form, p: Profile): (r: ProfileBody)
    ensures r.username == Some(f.username) && r.nativeLanguages == Some(f.nativeLanguages)
    ensures r.learningLanguages.Some? && |r.learningLanguages.value| == |f.learningCodes|
    ensures forall i :: 0 <= i < |f.learningCodes| ==>
      r.learningLanguages.value[i] == LearningDraft(Some(f.learningCodes[i]), Some(LevelFor(p, f.learningCodes[i])))
  {
    ProfileBody(Some(f.username), Some(f.nativeLanguages), Some(SaveEntries(p, f.learningCodes)))
  }

  /** Loading entries with distinct, non-empty codes and saving them
      unchanged gives back the same entries. */
  lemma SaveRoundTrip(p: Profile)
    requires NoDup(LearningCodes(p.learningLanguages))
    requires forall i :: 0 <= i < |p.learningLanguages| ==> p.learningLanguages[i].language != ""
    ensures var ds := SaveEntries(p, LearningCodes(p.learningLanguages));
      && (forall i :: 0 <= i < |ds| ==> LearningDraftValid(ds[i]))
      && BuildEntries(ds) == p.learningLanguages
  {
    var es := p.learningLanguages;
    var codes := LearningCodes(es);
    var ds := SaveEntries(p, codes);
    forall i | 0 <= i < |es|
      ensures LevelFor(p, codes[i]) == LevelName(es[i].level)
    {
      assert forall j :: 0 <= j < i ==> codes[j] != codes[i];
    }
    forall i | 0 <= i < |ds| ensures LearningDraftValid(ds[i]) {
    }
    var r := BuildEntries(ds);
    forall i | 0 <= i < |es| ensures r[i] == es[i] {
      LevelNameRoundTrip(r[i].level);
      LevelNameRoundTrip(es[i].level);
    }
  }

  /** Entries whose codes and levels match a profile's, one for one, are
      that profile's entries. */
  lemma EntriesRestored(p: Profile, vs: seq<LearningEntry>)
    requires NoDup(LearningCodes(p.learningLanguages))
    requires |vs| == |p.learningLanguages|
    requires forall k :: 0 <= k < |vs| ==>
      && vs[k].language == p.learningLanguages[k].language
      && LevelName(vs[k].level) == LevelFor(p, p.learningLanguages[k].language)
    ensures vs == p.learningLanguages
  {
    var es := p.learningLanguages;
    var codes := LearningCodes(es);
    forall k | 0 <= k < |vs|
      ensures vs[k] == es[k]
    {
      assert forall j :: 0 <= j < k ==> codes[j] != codes[k];
      LevelNameRoundTrip(vs[k].level);
      LevelNameRoundTrip(es[k].level);
    }
  }

  /** Opening the dialog on the stored profile and saving at once is a
      no-op on the server: the update, when accepted, writes back the very
      same record. */
  lemma SaveUnchangedIsNoOp(db: Db, id: Id, p: Profile)
    requires UserIndex(db.users, id).Some?
    requires p == ProfileOf(db.users[UserIndex(db.users, id).value])
    requires NoDup(LearningCodes(p.learningLanguages))
    requires UpdateProfile(db, id, Payload(FormOf(p), p)).1.Ok?
    ensures UpdateProfile(db, id, Payload(FormOf(p), p)).0 == db
  {
    var i := UserIndex(db.users, id).value;
    var u := db.users[i];
    var f := FormOf(p);
    var b := Payload(f, p);
    var db1 := UpdateProfile(db, id, b).0;
    var v := db1.users[i];
    var ds := b.learningLanguages.value;
    forall k | 0 <= k < |v.learningLanguages|
      ensures v.learningLanguages[k].language == p.learningLanguages[k].language
      ensures LevelName(v.learningLanguages[k].level) == LevelFor(p, p.learningLanguages[k].language)
    {
      assert ds[k] == LearningDraft(Some(f.learningCodes[k]), Some(LevelFor(p, f.learningCodes[k])));
    }
    EntriesRestored(p, v.learningLanguages);
    assert v == u;
    assert db1.users == db.users;
  }
}

=== FILE: events.dfy ===
/** What the server pushes over the real-time channel. Rooms are named by
    conversation id; the transport itself is not modelled, only who an event
    is addressed to. */
module Events {
  import opened Base
  import opened Models

  datatype Payload =
    | OnlineUsers(ids: set<Id>)
    | ReceiveMessage(msg: Message)
    | UserTyping(userId: Option<Id>)

  datatype Event =
    | ToAll(payload: Payload)
    | ToRoom(room: Id, payload: Payload)
    | ToRoomExceptSender(typingRoom: Option<Id>, senderSocket: Id, payload: Payload)
}

=== FILE: models.dfy ===
/** The three stored record kinds (User, Conversation, Message), their enum
    fields, and what the schema layer does on creation: reject a missing
    required field or an out-of-enum value, and fill in defaults. */
module Models {
  import opened Base

  /** A String or ObjectId path marked `required` accepts neither an absent
      value nor the empty string. */
  predicate Required(o: Option<string>) {
    Truthy(o)
  }

  // ---------------------------------------------------------------- users

  datatype Level = Beginner | Intermediate | Advanced | Native

  function LevelName(l: Level): string {
    match l
    case Beginner => "beginner"
    case Intermediate => "intermediate"
    case Advanced => "advanced"
    case Native => "native"
  }

  /** The `enum` check of a learning entry's level. */
  function ParseLevel(s: string): (r: Option<Level>)
    ensures r.None? ==> forall l: Level :: LevelName(l) != s
    ensures r.Some? ==> LevelName(r.value) == s
  {
    if s == "beginner" then Some(Beginner)
    else if s == "intermediate" then Some(Intermediate)
    else if s == "advanced" then Some(Advanced)
    else if s == "native" then Some(Native)
    else
      assert forall l: Level :: LevelName(l) != s;
      None
  }

  lemma {:induction false} LevelNameRoundTrip(l: Level)
    ensures ParseLevel(LevelName(l)) == Some(l)
  {
    match l
    case Beginner =>
    case Intermediate =>
    case Advanced =>
    case Native =>
  }

  datatype LearningEntry = LearningEntry(language: string, level: Level)

  datatype User = User(
    id: Id,
    username: string,
    email: string,
    password: string,
    avatar: string,
    nativeLanguages: seq<string>,
    learningLanguages: seq<LearningEntry>,
    timezone: string,
    isOnline: bool,
    lastActive: int,
    createdAt: int)

  /** A learning entry as it arrives in a request body. */
  datatype LearningDraft = LearningDraft(language: Option<string>, level: Option<string>)

  /** The fields a new user document is created from. */
  datatype UserDraft = UserDraft(
    username: Option<string>,
    email: Option<string>,
    password: Option<string>,
    nativeLanguages: seq<string>,
    learningLanguages: seq<LearningDraft>)

  predicate LearningDraftValid(d: LearningDraft) {
    Required(d.language) && (d.level.None? || ParseLevel(d.level.value).Some?)
  }

  /** Every native entry is a required String; every learning entry needs a
      language and a level from the enum (or none, taking the default). */
  predicate LanguagesValid(natives: seq<string>, learning: seq<LearningDraft>) {
    && (forall i :: 0 <= i < |natives| ==> natives[i] != "")
    && (forall i :: 0 <= i < |learning| ==> LearningDraftValid(learning[i]))
  }

  predicate UserDraftValid(d: UserDraft) {
    && Required(d.username)
    && Required(d.email)
    && Required(d.password)
    && LanguagesValid(d.nativeLanguages, d.learningLanguages)
  }

  function BuildEntry(d: LearningDraft): (e: LearningEntry)
    requires LearningDraftValid(d)
    ensures e.language == d.language.value
    ensures LevelName(e.level) == d.level.GetOr("beginner")
  {
    LearningEntry(d.language.value, if d.level.None? then Beginner else ParseLevel(d.level.value).value)
  }

  function BuildEntries(ds: seq<LearningDraft>): (r: seq<LearningEntry>)
    requires forall i :: 0 <= i < |ds| ==> LearningDraftValid(ds[i])
    ensures |r| == |ds|
    ensures forall i :: 0 <= i < |ds| ==>
      ds[i].language == Some(r[i].language) && LevelName(r[i].level) == ds[i].level.GetOr("beginner")
  {
    var r := seq(|ds|, i requires 0 <= i < |ds| => BuildEntry(ds[i]));
    assert forall i :: 0 <= i < |ds| ==>
      ds[i].language == Some(r[i].language) && LevelName(r[i].level) == ds[i].level.GetOr("beginner") by {
      forall i | 0 <= i < |ds|
        ensures ds[i].language == Some(r[i].language) && LevelName(r[i].level) == ds[i].level.GetOr("beginner")
      {
        assert r[i] == BuildEntry(ds[i]);
      }
    }
    r
  }

  /** The way a stored entry would be written back into a request body. */
  function DraftOf(e: LearningEntry): LearningDraft {
    LearningDraft(Some(e.language), Some(LevelName(e.level)))
  }

  /** `User.create`: validation, then the schema defaults. */
  function NewUser(d: UserDraft, id: Id, now: int): (r: Result<User, string>)
    ensures r.Ok? <==> UserDraftValid(d)
    ensures r.Ok? ==>
      && r.value.id == id
      && r.value.username == d.username.value
      && r.value.email == d.email.value
      && r.value.password == d.password.value
      && r.value.nativeLanguages == d.nativeLanguages
      && |r.value.learningLanguages| == |d.learningLanguages|
      && (forall i :: 0 <= i < |d.learningLanguages| ==>
            && r.value.learningLanguages[i].language == d.learningLanguages[i].language.value
            && LevelName(r.value.learningLanguages[i].level) == d.learningLanguages[i].level.GetOr("beginner"))
    ensures r.Ok? ==>
      r.value.avatar == "" && r.value.timezone == "UTC" && !r.value.isOnline
      && r.value.lastActive == now && r.value.createdAt == now
  {
    if !UserDraftValid(d) then Err("ValidationError")
    else Ok(User(id, d.username.value, d.email.value, d.password.value, "",
                 d.nativeLanguages, BuildEntries(d.learningLanguages), "UTC", false, now, now))
  }

  /** The language codes of a user's learning entries, in order. */
  function LearningCodes(entries: seq<LearningEntry>): (r: seq<string>)
    ensures |r| == |entries|
    ensures forall i :: 0 <= i < |entries| ==> r[i] == entries[i].language
  {
    seq(|entries|, i requires 0 <= i < |entries| => entries[i].language)
  }

  /** What the auth endpoints send back: never the password. */
  datatype Profile = Profile(
    id: Id,
    username: string,
    email: string,
    nativeLanguages: seq<string>,
    learningLanguages: seq<LearningEntry>)

  function ProfileOf(u: User): Profile {
    Profile(u.id, u.username, u.email, u.nativeLanguages, u.learningLanguages)
  }

  /** A user document as read with the password projected away. */
  datatype PublicUser = PublicUser(
    id: Id,
    username: string,
    email: string,
    avatar: string,
    nativeLanguages: seq<string>,
    learningLanguages: seq<LearningEntry>,
    timezone: string,
    isOnline: bool,
    lastActive: int,
    createdAt: int)

  function PublicOf(u: User): PublicUser {
    PublicUser(u.id, u.username, u.email, u.avatar, u.nativeLanguages, u.learningLanguages,
               u.timezone, u.isOnline, u.lastActive, u.createdAt)
  }

  // -------------------------------------------------------- conversations

  datatype ConvStatus = Pending | Accepted | Rejected

  function StatusName(s: ConvStatus): string {
    match s
    case Pending => "pending"
    case Accepted => "accepted"
    case Rejected => "rejected"
  }

  /** The `enum` check of a conversation's status. */
  function ParseStatus(s: string): (r: Option<ConvStatus>)
    ensures r.None? ==> forall st: ConvStatus :: StatusName(st) != s
    ensures r.Some? ==> StatusName(r.value) == s
  {
    if s == "pending" then Some(Pending)
    else if s == "accepted" then Some(Accepted)
    else if s == "rejected" then Some(Rejected)
    else
      assert forall st: ConvStatus :: StatusName(st) != s;
      None
  }

  lemma {:induction false} StatusNameRoundTrip(st: ConvStatus)
    ensures ParseStatus(StatusName(st)) == Some(st)
  {
    match st
    case Pending =>
    case Accepted =>
    case Rejected =>
  }

  /** A connection between two users over one language pair, with its request
      status and its streak. */
  datatype Conversation = Conversation(
    id: Id,
    requester: Id,
    recipient: Id,
    status: ConvStatus,
    participants: seq<Id>,
    languages: seq<string>,
    learningMap: map<Id, string>,
    lastMessage: Option<Id>,
    updatedAt: int,
    streak: nat,
    lastInteraction: Option<int>,
    totalCallMinutes: int)

  datatype ConversationDraft = ConversationDraft(
    requester: Option<Id>,
    recipient: Option<Id>,
    status: Option<string>,
    participants: seq<Id>,
    languages: seq<string>,
    learningMap: map<Id, string>)

  predicate ConversationDraftValid(d: ConversationDraft) {
    Required(d.requester) && Required(d.recipient)
    && (d.status.None? || ParseStatus(d.status.value).Some?)
  }

  /** `Conversation.create`: validation, then the schema defaults (no last
      message, no interaction yet, streak and call minutes at zero). */
  function NewConversation(d: ConversationDraft, id: Id, now: int): (r: Result<Conversation, string>)
    ensures r.Ok? <==> ConversationDraftValid(d)
    ensures r.Ok? ==>
      && r.value.id == id
      && r.value.requester == d.requester.value
      && r.value.recipient == d.recipient.value
      && StatusName(r.value.status) == d.status.GetOr("pending")
      && r.value.participants == d.participants
      && r.value.languages == d.languages
      && r.value.learningMap == d.learningMap
    ensures r.Ok? ==>
      r.value.lastMessage.None? && r.value.lastInteraction.None?
      && r.value.streak == 0 && r.value.totalCallMinutes == 0 && r.value.updatedAt == now
  {
    if !ConversationDraftValid(d) then Err("ValidationError")
    else
      var st := if d.status.None? then Pending else ParseStatus(d.status.value).value;
      Ok(Conversation(id, d.requester.value, d.recipient.value, st, d.participants,
                      d.languages, d.learningMap, None, now, 0, None, 0))
  }

  // ------------------------------------------------------------- messages

  datatype MessageType = Text | Image | System | CallInvite

  function TypeName(t: MessageType): string {
    match t
    case Text => "text"
    case Image => "image"
    case System => "system"
    case CallInvite => "call_invite"
  }

  /** The `enum` check of a message's type. */
  function ParseType(s: string): (r: Option<MessageType>)
    ensures r.None? ==> forall t: MessageType :: TypeName(t) != s
    ensures r.Some? ==> TypeName(r.value) == s
  {
    if s == "text" then Some(Text)
    else if s == "image" then Some(Image)
    else if s == "system" then Some(System)
    else if s == "call_invite" then Some(CallInvite)
    else
      assert forall t: MessageType :: TypeName(t) != s;
      None
  }

  lemma {:induction false} TypeNameRoundTrip(t: MessageType)
    ensures ParseType(TypeName(t)) == Some(t)
  {
    match t
    case Text =>
    case Image =>
    case System =>
    case CallInvite =>
  }

  datatype Message = Message(
    id: Id,
    conversationId: Id,
    sender: Id,
    originalText: string,
    translatedText: Option<string>,
    originalLanguage: string,
    targetLanguage: Option<string>,
    kind: MessageType,
    createdAt: int)

  datatype MessageDraft = MessageDraft(
    conversationId: Option<Id>,
    sender: Option<Id>,
    originalText: Option<string>,
    translatedText: Option<string>,
    originalLanguage: Option<string>,
    targetLanguage: Option<string>,
    kind: Option<string>)

  predicate MessageDraftValid(d: MessageDraft) {
    && Required(d.conversationId)
    && Required(d.sender)
    && Required(d.originalText)
    && Required(d.originalLanguage)
    && (d.kind.None? || ParseType(d.kind.value).Some?)
  }

  /** `Message.create`: validation, then the defaults (type `text`, created now). */
  function NewMessage(d: MessageDraft, id: Id, now: int): (r: Result<Message, string>)
    ensures r.Ok? <==> MessageDraftValid(d)
    ensures r.Ok? ==>
      && r.value.id == id
      && r.value.conversationId == d.conversationId.value
      && r.value.sender == d.sender.value
      && r.value.originalText == d.originalText.value
      && r.value.translatedText == d.translatedText
      && r.value.originalLanguage == d.originalLanguage.value
      && r.value.targetLanguage == d.targetLanguage
      && TypeName(r.value.kind) == d.kind.GetOr("text")
      && r.value.createdAt == now
  {
    if !MessageDraftValid(d) then Err("ValidationError")
    else
      var t := if d.kind.None? then Text else ParseType(d.kind.value).value;
      Ok(Message(id, d.conversationId.value, d.sender.value, d.originalText.value, d.translatedText,
                 d.originalLanguage.value, d.targetLanguage, t, now))
  }
}

=== FILE: presence.dfy ===
/** The online-user registry of the real-time channel: at most one live
    socket per user (the most recent connection wins), and a disconnect only
    counts when it comes from that socket. Every change is broadcast to all
    clients as the full set of online user ids. */
module Presence {
  import opened Base
  import opened Events

  /** The user-to-socket registry and every event sent so far. */
  datatype Hub = Hub(online: map<Id, Id>, outbox: seq<Event>)

  /** A handshake id is accepted when present, non-empty, and not the
      literal string `undefined` a client sends before it knows its user. */
  predicate Accepted(userId: Option<string>) {
    Truthy(userId) && userId.value != "undefined"
  }

  /** Is `e` an online-users broadcast? */
  predicate IsSnapshot(e: Event) {
    e.ToAll? && e.payload.OnlineUsers?
  }

  /** The most recent online-users broadcast, if any. */
  function LastSnapshot(outbox: seq<Event>): (r: Option<set<Id>>)
    ensures r.None? <==> forall j :: 0 <= j < |outbox| ==> !IsSnapshot(outbox[j])
    ensures r.Some? ==>
      exists i :: 0 <= i < |outbox| && outbox[i] == ToAll(OnlineUsers(r.value))
        && forall j :: i < j < |outbox| ==> !IsSnapshot(outbox[j])
    decreases |outbox|
  {
    if |outbox| == 0 then None
    else
      var n := |outbox| - 1;
      var e := outbox[n];
      if IsSnapshot(e) then
        assert outbox[n] == ToAll(OnlineUsers(e.payload.ids));
        Some(e.payload.ids)
      else
        var front := outbox[..n];
        var r := LastSnapshot(front);
        assert forall j :: 0 <= j < n ==> front[j] == outbox[j];
        if r.Some? then
          var i :| 0 <= i < n && front[i] == ToAll(OnlineUsers(r.value))
            && forall j :: i < j < n ==> !IsSnapshot(front[j]);
          assert outbox[i] == ToAll(OnlineUsers(r.value));
          r
        else r
  }

  /** What every client last heard is who is online now: either nobody has
      been announced and nobody is online, or the last broadcast set is the
      registry's key set. */
  predicate Consistent(h: Hub) {
    match LastSnapshot(h.outbox)
    case None => h.online == map[]
    case Some(ids) => ids == h.online.Keys
  }

  function Broadcast(online: map<Id, Id>): Event {
    ToAll(OnlineUsers(online.Keys))
  }

  /** A new connection: an accepted id is (re)registered to this socket,
      replacing any earlier socket, and the online set is broadcast; any
      other handshake changes nothing. */
  function Connect(h: Hub, userId: Option<string>, socketId: Id): (r: Hub)
    ensures Accepted(userId) ==>
      && r.online.Keys == h.online.Keys + {userId.value}
      && r.online[userId.value] == socketId
      && (forall u :: u in h.online && u != userId.value ==> r.online[u] == h.online[u])
      && r.outbox == h.outbox + [ToAll(OnlineUsers(r.online.Keys))]
    ensures !Accepted(userId) ==> r == h
    ensures Consistent(h) ==> Consistent(r)
  {
    if Accepted(userId) then
      var online := h.online[userId.value := socketId];
      var r := Hub(online, h.outbox + [Broadcast(online)]);
      assert LastSnapshot(r.outbox) == Some(online.Keys);
      r
    else h
  }

  /** A closing socket: the user goes offline only if this socket is the
      one registered for them; a stale socket from an older tab changes
      nothing and broadcasts nothing. */
  function Disconnect(h: Hub, userId: Option<string>, socketId: Id): (r: Hub)
    ensures Truthy(userId) && userId.value in h.online && h.online[userId.value] == socketId ==>
      && r.online == h.online - {userId.value}
      && r.outbox == h.outbox + [ToAll(OnlineUsers(r.online.Keys))]
    ensures !(Truthy(userId) && userId.value in h.online && h.online[userId.value] == socketId) ==> r == h
    ensures Consistent(h) ==> Consistent(r)
  {
    if Truthy(userId) && userId.value in h.online && h.online[userId.value] == socketId then
      var online := h.online - {userId.value};
      var r := Hub(online, h.outbox + [Broadcast(online)]);
      assert LastSnapshot(r.outbox) == Some(online.Keys);
      r
    else h
  }

  /** Events of other kinds (message delivery, typing) leave the last
      online-users broadcast, and so consistency, as it was. */
  lemma {:induction false} OtherEventsKeepConsistent(h: Hub, e: Event)
    requires !(e.ToAll? && e.payload.OnlineUsers?)
    ensures LastSnapshot(h.outbox + [e]) == LastSnapshot(h.outbox)
    ensures Consistent(h) ==> Consistent(h.(outbox := h.outbox + [e]))
  {
    assert (h.outbox + [e])[..|h.outbox|] == h.outbox;
  }

  /** Two tabs: the user connects on one socket, then on a second; closing
      the first leaves them online, closing the second takes them offline. */
  lemma {:induction false} SecondTabWins(h: Hub, u: Id, s1: Id, s2: Id)
    requires Accepted(Some(u)) && s1 != s2
    ensures var h1 := Connect(h, Some(u), s1);
      var h2 := Connect(h1, Some(u), s2);
      var h3 := Disconnect(h2, Some(u), s1);
      var h4 := Disconnect(h3, Some(u), s2);
      && u in h3.online && h3 == h2
      && u !in h4.online
      && h4.outbox[|h4.outbox| - 1] == ToAll(OnlineUsers(h4.online.Keys))
  {
  }

  /** Whoever connected last owns the user's presence: after a connection
      on socket `s`, a disconnect on socket `t` takes the user offline
      exactly when `t` is `s`. */
  lemma {:induction false} DisconnectOfflineIff(h: Hub, u: Id, s: Id, t: Id)
    requires Accepted(Some(u))
    ensures u !in Disconnect(Connect(h, Some(u), s), Some(u), t).online <==> t == s
  {
  }
}

=== FILE: register_form.dfy ===
/** The registration form: the two language pickers, and the submit
    handler that refuses an empty picker before calling the server. */
module RegisterForm {
  import opened Base
  import opened Seqs
  import opened Models
  import opened Store
  import opened AuthController
  import opened Toggles

  /** The languages the pickers offer. */
  const AvailableLanguages: seq<string> := [
    "English", "Spanish", "French", "German", "Italian",
    "Portuguese", "Chinese", "Japanese", "Russian", "Arabic", "Hindi", "Bengali", "Odia (Oriya)", "Korean"]

  /** What the form holds. */
  datatype Form = Form(
    username: string,
    email: string,
    password: string,
    nativeLanguages: seq<string>,
    learningLanguages: seq<LearningDraft>)

  const EmptyForm := Form("", "", "", [], [])

  function OnClick(f: Form, c: Click): (r: Form)
    ensures r.username == f.username && r.email == f.email && r.password == f.password
    ensures c.NativeClick? ==>
              && r.learningLanguages == f.learningLanguages
              && (c.lang in r.nativeLanguages <==> c.lang !in f.nativeLanguages)
    ensures c.LearningClick? ==>
              && r.nativeLanguages == f.nativeLanguages
              && (Some(c.lang) in DraftCodes(r.learningLanguages) <==> Some(c.lang) !in DraftCodes(f.learningLanguages))
  {
    match c
    case NativeClick(lang) => f.(nativeLanguages := ToggleMember(f.nativeLanguages, lang))
    case LearningClick(lang) => f.(learningLanguages := ToggleLearning(f.learningLanguages, lang))
  }

  /** After `register` answers: its failure is shown on the form, success
      leaves the page. */
  function AfterRegister(res: Result<Profile, HttpError>): (r: Option<string>)
    ensures r.None? <==> res.Ok?
    ensures r.Some? ==> r.value == "Registration failed. Try again."
  {
    if res.Ok? then None else Some("Registration failed. Try again.")
  }

  /** The form after a run of clicks, oldest first. */
  function OnClicks(f: Form, cs: seq<Click>): Form
    decreases |cs|
  {
    if |cs| == 0 then f else OnClicks(OnClick(f, cs[0]), cs[1..])
  }

  /** What the pickers can build: entries with distinct, offered, non-empty
      languages, each learning entry at level `beginner`. */
  predicate PickersWellFormed(f: Form) {
    && NoDup(f.nativeLanguages)
    && NoDup(DraftCodes(f.learningLanguages))
    && (forall i :: 0 <= i < |f.nativeLanguages| ==> f.nativeLanguages[i] in AvailableLanguages)
    && (forall i :: 0 <= i < |f.learningLanguages| ==>
          && f.learningLanguages[i].language.Some?
          && f.learningLanguages[i].language.value in AvailableLanguages
          && f.learningLanguages[i].level == Some("beginner"))
  }

  lemma ClickKeepsWellFormed(f: Form, c: Click)
    requires PickersWellFormed(f) && c.lang in AvailableLanguages
    ensures PickersWellFormed(OnClick(f, c))
  {
    var r := OnClick(f, c);
    if c.LearningClick? {
      forall i | 0 <= i < |r.learningLanguages|
        ensures r.learningLanguages[i].language.Some?
        ensures r.learningLanguages[i].language.value in AvailableLanguages
        ensures r.learningLanguages[i].level == Some("beginner")
      {
        var d := r.learningLanguages[i];
        assert DraftCodes(r.learningLanguages)[i] == d.language;
        if d.language != Some(c.lang) {
          assert d in f.learningLanguages;
        }
      }
    } else {
      forall i | 0 <= i < |r.nativeLanguages|
        ensures r.nativeLanguages[i] in AvailableLanguages
      {
        var n := r.nativeLanguages[i];
        if n != c.lang {
          assert n in f.nativeLanguages;
        }
      }
    }
  }

  /** Whatever sequence of offered languages is clicked, starting from the
      empty form, the pickers hold distinct offered languages. */
  lemma {:induction false} ClicksKeepWellFormed(f: Form, cs: seq<Click>)
    requires PickersWellFormed(f)
    requires forall i :: 0 <= i < |cs| ==> cs[i].lang in AvailableLanguages
    ensures PickersWellFormed(OnClicks(f, cs))
    decreases |cs|
  {
    if |cs| > 0 {
      ClickKeepsWellFormed(f, cs[0]);
      ClicksKeepWellFormed(OnClick(f, cs[0]), cs[1..]);
    }
  }

  /** The outcome of pressing submit: the browser blocks it, the handler
      refuses it on the page, or the form is sent. */
  datatype Submitted = Blocked | FormError(message: string) | Submit(body: RegisterBody)

  function BodyOf(f: Form): RegisterBody {
    RegisterBody(Some(f.username), Some(f.email), Some(f.password), None, None,
                 Some(f.nativeLanguages), Some(f.learningLanguages))
  }

  /** `handleSubmit`: an empty picker is refused on the page; otherwise the
      form goes to the server with the two lists as they are. */
  function HandleSubmit(f: Form): (r: Submitted)
    ensures !r.Blocked?
    ensures r.FormError? <==> |f.nativeLanguages| == 0 || |f.learningLanguages| == 0
    ensures r.FormError? ==> r.message == "Please add at least one native and one learning language."
    ensures r.Submit? ==>
      && FinalNative(r.body) == f.nativeLanguages
      && FinalLearning(r.body) == f.learningLanguages
      && r.body.username == Some(f.username) && r.body.email == Some(f.email)
      && r.body.password == Some(f.password)
  {
    if |f.nativeLanguages| == 0 || |f.learningLanguages| == 0 then
      FormError("Please add at least one native and one learning language.")
    else Submit(BodyOf(f))
  }

  /** Pressing submit: the username, email and password inputs are
      `required`, so the browser does not run the handler while one of them
      is empty. */
  function PressSubmit(f: Form): (r: Submitted)
    ensures r.Blocked? <==> f.username == "" || f.email == "" || f.password == ""
    ensures r.FormError? <==> !r.Blocked? && (|f.nativeLanguages| == 0 || |f.learningLanguages| == 0)
    ensures r.Submit? ==> r == HandleSubmit(f) && f.username != "" && f.email != "" && f.password != ""
  {
    if f.username == "" || f.email == "" || f.password == "" then Blocked
    else HandleSubmit(f)
  }

  /** A form the pickers built, with non-empty account fields, a free email,
      username and id, is accepted by `register`, and the stored user has
      exactly the picked languages, every learning entry at beginner. */
  lemma SubmitRegisters(db: Db, f: Form, hash: string -> string, newId: Id, now: int)
    requires PickersWellFormed(f) && HandleSubmit(f).Submit?
    requires f.username != "" && f.email != "" && hash(f.password) != ""
    requires forall i :: 0 <= i < |db.users| ==>
      db.users[i].email != f.email && db.users[i].username != f.username && db.users[i].id != newId
    requires newId !in db.stats
    ensures var (db1, res) := Register(db, HandleSubmit(f).body, hash, newId, now);
      && res.Ok?
      && var u := db1.users[|db.users|];
      && u.nativeLanguages == f.nativeLanguages
      && LearningCodes(u.learningLanguages) == MapSeq(f.learningLanguages, (d: LearningDraft) => d.language.GetOr(""))
      && forall k :: 0 <= k < |u.learningLanguages| ==> u.learningLanguages[k].level == Beginner
  {
    var b := HandleSubmit(f).body;
    assert ByEmail(db.users, b.email).None?;
    var d := UserDraft(b.username, b.email, Some(hash(b.password.value)), FinalNative(b), FinalLearning(b));
    assert UserDraftValid(d) by {
      forall i | 0 <= i < |f.nativeLanguages| ensures f.nativeLanguages[i] != "" {
        assert f.nativeLanguages[i] in AvailableLanguages;
      }
      forall i | 0 <= i < |f.learningLanguages| ensures LearningDraftValid(f.learningLanguages[i]) {
        assert f.learningLanguages[i].language.value in AvailableLanguages;
        assert ParseLevel("beginner") == Some(Beginner);
      }
    }
    var u := NewUser(d, newId, now).value;
    assert !UserClash(db.users, u);
    var (db1, res) := Register(db, b, hash, newId, now);
    var v := db1.users[|db.users|];
    forall k | 0 <= k < |v.learningLanguages|
      ensures v.learningLanguages[k].level == Beginner
    {
      var l := v.learningLanguages[k].level;
      assert LevelName(l) == "beginner";
      LevelNameRoundTrip(l);
    }
  }
}

=== FILE: relay.dfy ===
/** The `send_message` and `typing` handlers of the real-time channel.
    Sending a message is a pipeline of storage steps with no transaction:
    store the message, touch the conversation (last message, time, streak),
    bump the sender's counter, fetch the stored message and emit it to the
    conversation's room. A failing step stops the pipeline silently and the
    effects of the earlier steps stay. */
module Relay {
  import opened Base
  import opened Models
  import opened Store
  import opened Events
  import opened Streak
  import opened Translate

  /** The payload of a `send_message` event; every field may be absent. */
  datatype SendData = SendData(
    senderId: Option<Id>,
    conversationId: Option<Id>,
    content: Option<string>,
    originalLanguage: Option<string>,
    targetLanguage: Option<string>,
    kind: Option<string>)

  /** Which storage call, if any, the database makes fail. */
  datatype Fault = NoFault | MessageWriteFails | ConversationSaveFails | StatsWriteFails | MessageReadFails

  /** The steps of the pipeline, in order. */
  datatype Stage = StoreMessage | LoadConversation | SaveConversation | UpdateStats | FetchMessage

  function Rank(s: Stage): nat {
    match s
    case StoreMessage => 0
    case LoadConversation => 1
    case SaveConversation => 2
    case UpdateStats => 3
    case FetchMessage => 4
  }

  /** Either the message reached the room, or the first step that failed. */
  datatype Outcome = Delivered | Stopped(at: Stage)

  /** Did the pipeline get past step `s`? */
  predicate Passed(o: Outcome, s: Stage) {
    o.Delivered? || Rank(o.at) > Rank(s)
  }

  datatype State = State(db: Db, outbox: seq<Event>)

  /** The message document the handler asks the store to create. */
  function DraftOf(data: SendData, service: Service): MessageDraft {
    var kind := data.kind.GetOr("text");
    var translated :=
      if data.content.Some? then Some(ResolveTranslation(kind, data.content.value, data.targetLanguage, service))
      else None;
    MessageDraft(data.conversationId, data.senderId, data.content, translated,
                 data.originalLanguage, data.targetLanguage, data.kind)
  }

  /** Step 3: the new last message, the time, and the streak update. */
  function Touch(c: Conversation, msgId: Id, now: int): (r: Conversation)
    ensures r.lastMessage == Some(msgId) && r.updatedAt == now && r.lastInteraction == Some(now)
    ensures r.streak >= 1
    ensures r == c.(lastMessage := r.lastMessage, updatedAt := r.updatedAt, streak := r.streak,
                    lastInteraction := r.lastInteraction)
  {
    RecordInteraction(c.(lastMessage := Some(msgId), updatedAt := now), now)
  }

  /** `$inc` on the sender's counter; without a counter document nothing is
      written (no upsert). */
  function Bump(stats: map<Id, nat>, user: Id): (r: map<Id, nat>)
    ensures r.Keys == stats.Keys
    ensures user in stats ==> r[user] == stats[user] + 1
    ensures forall u :: u in stats && u != user ==> r[u] == stats[u]
  {
    if user in stats then stats[user := stats[user] + 1] else stats
  }

  /** The whole `send_message` handler. `service` is what the translation
      service answers, `msgId` the id the store assigns, `now` the clock. */
  function SendMessage(st: State, data: SendData, service: Service, msgId: Id, now: int, fault: Fault): (r: (State, Outcome))
    // users are never touched; the message log only grows, by exactly the new message
    ensures r.0.db.users == st.db.users
    ensures Passed(r.1, StoreMessage) <==> |r.0.db.messages| == |st.db.messages| + 1
    ensures !Passed(r.1, StoreMessage) ==> r.0 == st
    ensures r.0.db.messages[..|st.db.messages|] == st.db.messages
    // the stored message is the validated draft, translated when it is text
    ensures Passed(r.1, StoreMessage) ==>
      NewMessage(DraftOf(data, service), msgId, now) == Ok(r.0.db.messages[|st.db.messages|])
    ensures r.1 == Stopped(StoreMessage) <==>
      !MessageDraftValid(DraftOf(data, service)) || MessageIdTaken(st.db.messages, msgId) || fault == MessageWriteFails
    // a missing conversation stops after the message is stored
    ensures r.1 == Stopped(LoadConversation) <==>
      Passed(r.1, StoreMessage) && ConvIndex(st.db.conversations, data.conversationId.value).None?
    // the conversation is updated only once saving succeeds
    ensures Passed(r.1, SaveConversation) ==>
      var i := ConvIndex(st.db.conversations, data.conversationId.value).value;
      r.0.db.conversations == st.db.conversations[i := Touch(st.db.conversations[i], msgId, now)]
    ensures !Passed(r.1, SaveConversation) ==> r.0.db.conversations == st.db.conversations
    // the counter moves only after the conversation is saved
    ensures Passed(r.1, UpdateStats) ==> r.0.db.stats == Bump(st.db.stats, data.senderId.value)
    ensures !Passed(r.1, UpdateStats) ==> r.0.db.stats == st.db.stats
    // the room hears about the message only when every step succeeded
    ensures r.1.Delivered? <==> Passed(r.1, LoadConversation) && fault == NoFault
    ensures r.1.Delivered? ==>
      r.0.outbox == st.outbox + [ToRoom(data.conversationId.value, ReceiveMessage(r.0.db.messages[|st.db.messages|]))]
    ensures !r.1.Delivered? ==> r.0.outbox == st.outbox
  {
    var db := st.db;
    match NewMessage(DraftOf(data, service), msgId, now)
    case Err(_) => (st, Stopped(StoreMessage))
    case Ok(m) =>
      if fault == MessageWriteFails || MessageIdTaken(db.messages, msgId) then (st, Stopped(StoreMessage))
      else
        var db1 := db.(messages := db.messages + [m]);
        assert db1.messages[..|db.messages|] == db.messages;
        AfterStore(st.outbox, db1, m, now, fault)
  }

  /** Steps 2 to 5, once the message `m` is stored in `db`. */
  function AfterStore(outbox: seq<Event>, db: Db, m: Message, now: int, fault: Fault): (r: (State, Outcome))
    requires fault != MessageWriteFails
    ensures Passed(r.1, StoreMessage)
    ensures r.0.db.users == db.users && r.0.db.messages == db.messages
    ensures r.1 == Stopped(LoadConversation) <==> ConvIndex(db.conversations, m.conversationId).None?
    ensures Passed(r.1, SaveConversation) ==>
      var i := ConvIndex(db.conversations, m.conversationId).value;
      r.0.db.conversations == db.conversations[i := Touch(db.conversations[i], m.id, now)]
    ensures !Passed(r.1, SaveConversation) ==> r.0.db.conversations == db.conversations
    ensures Passed(r.1, UpdateStats) ==> r.0.db.stats == Bump(db.stats, m.sender)
    ensures !Passed(r.1, UpdateStats) ==> r.0.db.stats == db.stats
    ensures r.1.Delivered? <==> Passed(r.1, LoadConversation) && fault == NoFault
    ensures r.1.Delivered? ==> r.0.outbox == outbox + [ToRoom(m.conversationId, ReceiveMessage(m))]
    ensures !r.1.Delivered? ==> r.0.outbox == outbox
  {
    match ConvIndex(db.conversations, m.conversationId)
    case None => (State(db, outbox), Stopped(LoadConversation))
    case Some(i) =>
      if fault == ConversationSaveFails then (State(db, outbox), Stopped(SaveConversation))
      else
        var db2 := db.(conversations := db.conversations[i := Touch(db.conversations[i], m.id, now)]);
        if fault == StatsWriteFails then (State(db2, outbox), Stopped(UpdateStats))
        else
          var db3 := db2.(stats := Bump(db2.stats, m.sender));
          if fault == MessageReadFails then (State(db3, outbox), Stopped(FetchMessage))
          else
            assert fault.NoFault?;
            (State(db3, outbox + [ToRoom(m.conversationId, ReceiveMessage(m))]), Delivered)
  }

  /** The `typing` handler: one event to the conversation's room, addressed
      to everyone but the typing socket, naming the typing user; nothing is
      stored. */
  function Typing(outbox: seq<Event>, socketId: Id, conversationId: Option<Id>, userId: Option<Id>): (r: seq<Event>)
    ensures |r| == |outbox| + 1 && r[..|outbox|] == outbox
    ensures r[|outbox|].ToRoomExceptSender? && r[|outbox|].typingRoom == conversationId
    ensures r[|outbox|].senderSocket == socketId && r[|outbox|].payload == UserTyping(userId)
  {
    outbox + [ToRoomExceptSender(conversationId, socketId, UserTyping(userId))]
  }

  /** A failed translation does not lose the message: a text message to an
      existing conversation is stored with the tagged fallback as its
      translation, the streak is recorded, and the room receives it. */
  lemma {:induction false} TranslationFailureStillDelivers(st: State, data: SendData, msgId: Id, now: int)
    requires MessageDraftValid(DraftOf(data, Failed))
    requires data.kind.None? || data.kind == Some("text")
    requires !MessageIdTaken(st.db.messages, msgId)
    requires ConvIndex(st.db.conversations, data.conversationId.value).Some?
    ensures var (s, o) := SendMessage(st, data, Failed, msgId, now, NoFault);
      && o == Delivered
      && s.db.messages[|st.db.messages|].translatedText == Some(Fallback(data.targetLanguage, data.content.value))
      && s.db.messages[|st.db.messages|].originalText == data.content.value
      && exists i :: 0 <= i < |s.db.conversations| && s.db.conversations[i].id == data.conversationId.value
           && s.db.conversations[i].lastInteraction == Some(now) && s.db.conversations[i].streak >= 1
  {
    var (s, o) := SendMessage(st, data, Failed, msgId, now, NoFault);
    var i := ConvIndex(st.db.conversations, data.conversationId.value).value;
    assert s.db.conversations[i] == Touch(st.db.conversations[i], msgId, now);
    var m := s.db.messages[|st.db.messages|];
    assert NewMessage(DraftOf(data, Failed), msgId, now) == Ok(m);
  }

  /** Only text is translated: an image, a system notice or a call
      invitation is stored with its content as the translation, whatever the
      translation service would have said. */
  lemma {:induction false} NonTextIsNotTranslated(st: State, data: SendData, service: Service, msgId: Id, now: int, fault: Fault)
    requires data.kind.Some? && data.kind.value != "text"
    ensures var (s, o) := SendMessage(st, data, service, msgId, now, fault);
      Passed(o, StoreMessage) ==> s.db.messages[|st.db.messages|].translatedText == data.content
  {
    var (s, o) := SendMessage(st, data, service, msgId, now, fault);
    if Passed(o, StoreMessage) {
      var m := s.db.messages[|st.db.messages|];
      assert NewMessage(DraftOf(data, service), msgId, now) == Ok(m);
    }
  }
}

=== FILE: requests.dfy ===
/** The connection-requests page: a card per pending request, seen from
    either side, and the list update after accepting, declining or
    cancelling. */
module Requests {
  import opened Base
  import opened Seqs
  import opened Models
  import opened Store
  import opened ChatController
  import opened Views

  /** The two tabs: requests others sent the viewer, and the viewer's own. */
  datatype Tab = ReceivedTab | SentTab

  /** What a card shows: the other user, the language the viewer teaches
      them, the language the viewer learns from them, and the statuses its
      buttons send. */
  datatype Card = Card(other: Person, langITeach: Option<string>, langILearn: Option<string>, actions: seq<string>)

  /** Whose card it is: the requester on a received card, the recipient on a
      sent one. */
  function OtherId(req: ConvView, tab: Tab): Id {
    if tab == ReceivedTab then req.requester else req.recipient
  }

  function RequestCard(req: ConvView, tab: Tab, me: Id): (r: Option<Card>)
    // no card without the other user's document
    ensures r.None? <==> forall p :: p in req.participants ==> p.id != OtherId(req, tab)
    ensures r.Some? ==> r.value.other in req.participants && r.value.other.id == OtherId(req, tab)
    // each side's language is what the map assigns to the other side and to the viewer
    ensures r.Some? ==> (r.value.langITeach.Some? <==> OtherId(req, tab) in req.learningMap)
    ensures r.Some? && r.value.langITeach.Some? ==> r.value.langITeach.value == req.learningMap[OtherId(req, tab)]
    ensures r.Some? ==> (r.value.langILearn.Some? <==> me in req.learningMap)
    ensures r.Some? && r.value.langILearn.Some? ==> r.value.langILearn.value == req.learningMap[me]
    // a received card can accept or decline; a sent card can only cancel
    ensures r.Some? && tab == ReceivedTab ==> r.value.actions == ["accepted", "rejected"]
    ensures r.Some? && tab == SentTab ==> r.value.actions == ["cancelled"]
  {
    var otherId := OtherId(req, tab);
    match Find(req.participants, (p: Person) => p.id == otherId)
    case None => None
    case Some(other) =>
      Some(Card(other, Lookup(req.learningMap, other.id), Lookup(req.learningMap, me),
                if tab == ReceivedTab then ["accepted", "rejected"] else ["cancelled"]))
  }

  /** Both cards of a new request between two different users read the pair
      the same way: the receiver teaches the language the sender learns and
      learns the one the sender teaches, and the sender sees the converse. */
  lemma CardsAgreeWithRequest(db: Db, sender: Id, body: RequestBody, newId: Id, now: int,
                              people: seq<Person>, last: LastMessage)
    requires SendConnectionRequest(db, sender, body, newId, now).1.Ok?
    requires body.receiverId.value != sender
    requires exists p :: p in people && p.id == sender
    requires exists p :: p in people && p.id == body.receiverId.value
    ensures var c := SendConnectionRequest(db, sender, body, newId, now).1.value;
      var view := ViewOf(c, people, last);
      var rc, t, l := body.receiverId.value, body.teachLanguage.value, body.learnLanguage.value;
      var received := RequestCard(view, ReceivedTab, rc);
      var sent := RequestCard(view, SentTab, sender);
      && received.Some? && received.value.other.id == sender
      && received.value.langITeach == Some(l) && received.value.langILearn == Some(t)
      && sent.Some? && sent.value.other.id == rc
      && sent.value.langITeach == Some(t) && sent.value.langILearn == Some(l)
  {
  }

  /** The card lists after an action: on success the acted-on request leaves
      the list of the tab it was on; on failure nothing changes. */
  function HandleAction(received: seq<ConvView>, sent: seq<ConvView>, id: Id, tab: Tab, succeeded: bool)
    : (r: (seq<ConvView>, seq<ConvView>))
    ensures !succeeded ==> r == (received, sent)
    ensures succeeded && tab == ReceivedTab ==>
      && r.1 == sent && Subseq(r.0, received)
      && forall c :: c in r.0 <==> c in received && c.id != id
    ensures succeeded && tab == SentTab ==>
      && r.0 == received && Subseq(r.1, sent)
      && forall c :: c in r.1 <==> c in sent && c.id != id
  {
    if !succeeded then (received, sent)
    else if tab == ReceivedTab then (Filter(received, (c: ConvView) => c.id != id), sent)
    else (received, Filter(sent, (c: ConvView) => c.id != id))
  }

  /** No two stored conversations share an id. */
  predicate UniqueIds(convs: seq<Conversation>) {
    forall i, j :: 0 <= i < j < |convs| ==> convs[i].id != convs[j].id
  }

  /** Replacing a conversation by one that is not listed leaves no
      listed conversation with its id. */
  lemma GoneAfterReplace(convs: seq<Conversation>, i: nat, c2: Conversation, me: Id, kind: Option<string>)
    requires UniqueIds(convs) && i < |convs| && c2.id == convs[i].id && !Listed(kind, me, c2)
    ensures forall x :: x in GetConversations(convs[i := c2], me, kind) ==> x.id != convs[i].id
  {
    var convs1 := convs[i := c2];
    forall x | x in GetConversations(convs1, me, kind) ensures x.id != convs[i].id {
      var j :| 0 <= j < |convs1| && convs1[j] == x;
      if j != i {
        assert x == convs[j];
      }
    }
  }

  /** Removing a conversation leaves none with its id. */
  lemma GoneAfterRemove(convs: seq<Conversation>, i: nat, me: Id, kind: Option<string>)
    requires UniqueIds(convs) && i < |convs|
    ensures forall x :: x in GetConversations(convs[..i] + convs[i + 1..], me, kind) ==> x.id != convs[i].id
  {
    var rest := convs[..i] + convs[i + 1..];
    IdGoneFromRest(convs, i);
    assert forall x :: x in GetConversations(rest, me, kind) ==> x in rest;
  }

  lemma IdGoneFromRest(convs: seq<Conversation>, i: nat)
    requires UniqueIds(convs) && i < |convs|
    ensures forall x :: x in convs[..i] + convs[i + 1..] ==> x.id != convs[i].id
  {
    var rest := convs[..i] + convs[i + 1..];
    forall x | x in rest ensures x.id != convs[i].id {
      var j :| 0 <= j < |rest| && rest[j] == x;
      if j < i {
        assert x == convs[j];
      } else {
        assert x == convs[j + 1];
      }
    }
  }

  /** Accepting or declining a received request is allowed to its viewer,
      and afterwards the server's pending list no longer holds it either. */
  lemma ReceivedActionAgreesWithServer(db: Db, me: Id, c: Conversation, status: string)
    requires UniqueIds(db.conversations)
    requires c in GetConversations(db.conversations, me, Some("pending"))
    requires status == "accepted" || status == "rejected"
    ensures var r := UpdateConnectionStatus(db, me, Some(c.id), status);
      && r.1.Ok?
      && forall x :: x in GetConversations(r.0.conversations, me, Some("pending")) ==> x.id != c.id
  {
    var i := ConvIndex(db.conversations, c.id).value;
    var k :| 0 <= k < |db.conversations| && db.conversations[k] == c;
    assert i == k;
    StatusNameRoundTrip(Accepted);
    StatusNameRoundTrip(Rejected);
    assert ParseStatus(status).Some? && ParseStatus(status).value != Pending;
    var r := UpdateConnectionStatus(db, me, Some(c.id), status);
    var c2 := r.1.value.conversation;
    assert c2.status != Pending;
    GoneAfterReplace(db.conversations, i, c2, me, Some("pending"));
  }

  /** Cancelling a sent request is allowed to its viewer, and afterwards the
      server's sent list no longer holds it either. */
  lemma SentActionAgreesWithServer(db: Db, me: Id, c: Conversation)
    requires UniqueIds(db.conversations)
    requires c in GetConversations(db.conversations, me, Some("sent"))
    ensures var r := UpdateConnectionStatus(db, me, Some(c.id), "cancelled");
      && r.1 == Ok(Cancelled(c.id))
      && forall x :: x in GetConversations(r.0.conversations, me, Some("sent")) ==> x.id != c.id
  {
    var i := ConvIndex(db.conversations, c.id).value;
    var k :| 0 <= k < |db.conversations| && db.conversations[k] == c;
    assert i == k;
    GoneAfterRemove(db.conversations, i, me, Some("sent"));
  }
}

=== FILE: seqs.dfy ===
/** Sequence combinators in the shape JavaScript array methods have
    (`filter`, `find`, `findIndex`, `splice`, `new Set(...)`), each with the
    facts the callers need about order and membership. */
module Seqs {
  import opened Base

  /** `a` is obtained from `b` by deleting elements, keeping the rest in order. */
  ghost predicate Subseq<T>(a: seq<T>, b: seq<T>)
    decreases |b|
  {
    if |a| == 0 then true
    else if |b| == 0 then false
    else (a[0] == b[0] && Subseq(a[1..], b[1..])) || Subseq(a, b[1..])
  }

  lemma {:induction false} SubseqRefl<T>(a: seq<T>)
    ensures Subseq(a, a)
    decreases |a|
  {
    if |a| > 0 {
      SubseqRefl(a[1..]);
    }
  }

  /** Every element of a subsequence occurs in the sequence it came from. */
  lemma {:induction false} SubseqMembers<T>(a: seq<T>, b: seq<T>)
    requires Subseq(a, b)
    ensures forall x :: x in a ==> x in b
    decreases |b|
  {
    if |a| > 0 && |b| > 0 {
      assert forall x :: x in a ==> x == a[0] || x in a[1..];
      assert forall x :: x in b[1..] ==> x in b;
      if a[0] == b[0] && Subseq(a[1..], b[1..]) {
        SubseqMembers(a[1..], b[1..]);
      } else {
        SubseqMembers(a, b[1..]);
      }
    }
  }

  /** `Array.prototype.filter`: the kept elements, in their original order. */
  function Filter<T(==,!new)>(s: seq<T>, p: T -> bool): (r: seq<T>)
    ensures |r| <= |s|
    ensures forall x :: x in r <==> x in s && p(x)
    ensures forall i :: 0 <= i < |r| ==> p(r[i])
    ensures Subseq(r, s)
    decreases |s|
  {
    if |s| == 0 then []
    else
      var rest := Filter(s[1..], p);
      var r := if p(s[0]) then [s[0]] + rest else rest;
      FilterMembers(s, p, rest, r);
      FilterOrder(s, p, rest, r);
      r
  }

  /** Filtering keeps every copy of a kept element and drops every copy of
      the others. */
  lemma {:induction false} FilterMultiset<T(!new)>(s: seq<T>, p: T -> bool)
    ensures forall x :: multiset(Filter(s, p))[x] == if p(x) then multiset(s)[x] else 0
    decreases |s|
  {
    if |s| > 0 {
      FilterMultiset(s[1..], p);
      FilterCounts(s, p, Filter(s[1..], p), Filter(s, p));
    }
  }

  lemma FilterMembers<T>(s: seq<T>, p: T -> bool, rest: seq<T>, r: seq<T>)
    requires |s| > 0 && r == if p(s[0]) then [s[0]] + rest else rest
    requires forall x :: x in rest <==> x in s[1..] && p(x)
    requires forall i :: 0 <= i < |rest| ==> p(rest[i])
    ensures forall x :: x in r <==> x in s && p(x)
    ensures forall i :: 0 <= i < |r| ==> p(r[i])
  {
    assert forall x :: x in s <==> x == s[0] || x in s[1..];
  }

  lemma FilterOrder<T>(s: seq<T>, p: T -> bool, rest: seq<T>, r: seq<T>)
    requires |s| > 0 && r == if p(s[0]) then [s[0]] + rest else rest
    requires Subseq(rest, s[1..]) && |rest| <= |s[1..]|
    ensures Subseq(r, s) && |r| <= |s|
  {
    if p(s[0]) {
      assert r[1..] == rest;
    } else if |rest| > 0 {
      assert Subseq(r, s[1..]);
    }
  }

  lemma FilterCounts<T>(s: seq<T>, p: T -> bool, rest: seq<T>, r: seq<T>)
    requires |s| > 0 && r == if p(s[0]) then [s[0]] + rest else rest
    requires forall x :: multiset(rest)[x] == if p(x) then multiset(s[1..])[x] else 0
    ensures forall x :: multiset(r)[x] == if p(x) then multiset(s)[x] else 0
  {
    assert s == [s[0]] + s[1..];
    assert multiset(s) == multiset{s[0]} + multiset(s[1..]);
    if p(s[0]) {
      assert multiset(r) == multiset{s[0]} + multiset(rest);
    }
  }

  /** Filtering twice is filtering once by both conditions. */
  lemma {:induction false} FilterFuse<T(!new)>(s: seq<T>, p: T -> bool, q: T -> bool, pq: T -> bool)
    requires forall x :: pq(x) == (p(x) && q(x))
    ensures Filter(Filter(s, p), q) == Filter(s, pq)
    decreases |s|
  {
    if |s| > 0 {
      FilterFuse(s[1..], p, q, pq);
      if p(s[0]) {
        assert ([s[0]] + Filter(s[1..], p))[1..] == Filter(s[1..], p);
      }
    }
  }

  /** Filtering distributes over concatenation. */
  lemma {:induction false} FilterAppend<T(!new)>(a: seq<T>, b: seq<T>, p: T -> bool)
    ensures Filter(a + b, p) == Filter(a, p) + Filter(b, p)
    decreases |a|
  {
    if |a| == 0 {
      assert a + b == b;
    } else {
      assert (a + b)[0] == a[0] && (a + b)[1..] == a[1..] + b;
      FilterAppend(a[1..], b, p);
    }
  }

  /** Filtering away only an appended last element gives back the prefix. */
  lemma FilterDropLast<T(!new)>(s: seq<T>, x: T, p: T -> bool)
    requires forall i :: 0 <= i < |s| ==> p(s[i])
    requires !p(x)
    ensures Filter(s + [x], p) == s
  {
    FilterAppend(s, [x], p);
    FilterAll(s, p);
    assert Filter([x], p) == [];
  }

  lemma FilterAll<T(!new)>(s: seq<T>, p: T -> bool)
    requires forall i :: 0 <= i < |s| ==> p(s[i])
    ensures Filter(s, p) == s
    decreases |s|
  {
    if |s| > 0 {
      FilterAll(s[1..], p);
      assert Filter(s, p) == [s[0]] + Filter(s[1..], p);
      assert s == [s[0]] + s[1..];
    }
  }

  /** Filtering with a predicate that holds nowhere on the sequence keeps nothing. */
  lemma FilterNone<T(!new)>(s: seq<T>, p: T -> bool)
    requires forall i :: 0 <= i < |s| ==> !p(s[i])
    ensures Filter(s, p) == []
  {
  }

  /** A prefix holds no more copies of anything than the whole. */
  lemma PrefixMultiset<T>(s: seq<T>, n: nat)
    requires n <= |s|
    ensures multiset(s[..n]) <= multiset(s)
  {
    assert s == s[..n] + s[n..];
  }

  /** Number of elements satisfying `p`. */
  function Count<T>(s: seq<T>, p: T -> bool): nat
    decreases |s|
  {
    if |s| == 0 then 0 else (if p(s[0]) then 1 else 0) + Count(s[1..], p)
  }

  lemma {:induction false} FilterCount<T(!new)>(s: seq<T>, p: T -> bool)
    ensures |Filter(s, p)| == Count(s, p)
    decreases |s|
  {
    if |s| > 0 {
      FilterCount(s[1..], p);
    }
  }

  /** `Array.prototype.findIndex`, with `None` for -1. */
  function FindIndex<T>(s: seq<T>, p: T -> bool): (r: Option<nat>)
    ensures r.Some? ==> r.value < |s| && p(s[r.value])
    ensures r.Some? ==> forall j :: 0 <= j < r.value ==> !p(s[j])
    ensures r.None? ==> forall j :: 0 <= j < |s| ==> !p(s[j])
    decreases |s|
  {
    if |s| == 0 then None
    else if p(s[0]) then Some(0)
    else
      match FindIndex(s[1..], p)
      case None => None
      case Some(k) => Some(k + 1)
  }

  /** `Array.prototype.find`: the first element satisfying `p`. */
  function Find<T(==)>(s: seq<T>, p: T -> bool): (r: Option<T>)
    ensures r.Some? <==> exists j :: 0 <= j < |s| && p(s[j])
    ensures r.Some? ==> r.value in s && p(r.value)
    ensures forall j :: 0 <= j < |s| && p(s[j]) && (forall k :: 0 <= k < j ==> !p(s[k])) ==> r == Some(s[j])
  {
    match FindIndex(s, p)
    case None => None
    case Some(k) => Some(s[k])
  }

  /** `Array.prototype.some`. */
  predicate Any<T>(s: seq<T>, p: T -> bool) {
    exists i :: 0 <= i < |s| && p(s[i])
  }

  /** `splice(i, 1)` on a copy. */
  function RemoveAt<T>(s: seq<T>, i: nat): (r: seq<T>)
    requires i < |s|
    ensures |r| == |s| - 1
    ensures forall j :: 0 <= j < i ==> r[j] == s[j]
    ensures forall j :: i <= j < |r| ==> r[j] == s[j + 1]
  {
    s[..i] + s[i + 1..]
  }

  /** Applies `f` to every element (`Array.prototype.map`). */
  function MapSeq<T, U>(s: seq<T>, f: T -> U): (r: seq<U>)
    ensures |r| == |s|
    ensures forall i :: 0 <= i < |s| ==> r[i] == f(s[i])
  {
    seq(|s|, i requires 0 <= i < |s| => f(s[i]))
  }

  /** Mapping keeps a subsequence a subsequence. */
  lemma {:induction false} SubseqMap<T, U>(a: seq<T>, b: seq<T>, f: T -> U)
    requires Subseq(a, b)
    ensures Subseq(MapSeq(a, f), MapSeq(b, f))
    decreases |b|
  {
    if |a| > 0 {
      assert MapSeq(b, f)[1..] == MapSeq(b[1..], f);
      assert MapSeq(a, f)[1..] == MapSeq(a[1..], f);
      if a[0] == b[0] && Subseq(a[1..], b[1..]) {
        SubseqMap(a[1..], b[1..], f);
      } else {
        SubseqMap(a, b[1..], f);
      }
    }
  }

  /** `flatMap`: the concatenation of `f` over the sequence. */
  function FlatMap<T, U(==,!new)>(s: seq<T>, f: T -> seq<U>): (r: seq<U>)
    ensures forall y :: y in r <==> exists i :: 0 <= i < |s| && y in f(s[i])
    decreases |s|
  {
    if |s| == 0 then []
    else
      var rest := FlatMap(s[1..], f);
      assert forall i :: 1 <= i < |s| ==> f(s[i]) == f(s[1..][i - 1]);
      f(s[0]) + rest
  }

  predicate NoDup<T(==)>(s: seq<T>) {
    forall i, j :: 0 <= i < j < |s| ==> s[i] != s[j]
  }

  /** A subsequence of a sequence without duplicates has none either. */
  lemma {:induction false} NoDupSubseq<T>(a: seq<T>, b: seq<T>)
    requires Subseq(a, b)
    ensures NoDup(b) ==> NoDup(a)
    decreases |b|
  {
    if |a| > 0 && |b| > 0 && NoDup(b) {
      assert NoDup(b[1..]);
      if a[0] == b[0] && Subseq(a[1..], b[1..]) {
        NoDupSubseq(a[1..], b[1..]);
        SubseqMembers(a[1..], b[1..]);
        assert a[0] !in b[1..];
        assert a == [a[0]] + a[1..];
      } else {
        NoDupSubseq(a, b[1..]);
      }
    }
  }

  /** `[...new Set(s)]`: each element once, in first-seen order. */
  function Dedupe<T(==,!new)>(s: seq<T>): (r: seq<T>)
    ensures NoDup(r)
    ensures forall x :: x in r <==> x in s
    ensures Subseq(r, s)
    decreases |s|
  {
    if |s| == 0 then []
    else
      var init := Dedupe(s[..|s| - 1]);
      var last := s[|s| - 1];
      assert s == s[..|s| - 1] + [last];
      SubseqSnoc(init, s[..|s| - 1], last);
      if last in init then init
      else
        assert forall i :: 0 <= i < |init| ==> init[i] != last;
        init + [last]
  }

  /** A subsequence of `b` is a subsequence of `b` extended, with or without
      the new element appended to it too. */
  lemma {:induction false} SubseqSnoc<T>(a: seq<T>, b: seq<T>, x: T)
    requires Subseq(a, b)
    ensures Subseq(a, b + [x])
    ensures Subseq(a + [x], b + [x])
    decreases |b|
  {
    if |a| == 0 {
      assert a + [x] == [x];
      SubseqLast(b, x);
    } else {
      assert (b + [x])[1..] == b[1..] + [x];
      assert (a + [x])[1..] == a[1..] + [x];
      if a[0] == b[0] && Subseq(a[1..], b[1..]) {
        SubseqSnoc(a[1..], b[1..], x);
      } else {
        SubseqSnoc(a, b[1..], x);
      }
    }
  }

  /** The last element alone is a subsequence. */
  lemma {:induction false} SubseqLast<T>(b: seq<T>, x: T)
    ensures Subseq([x], b + [x])
    decreases |b|
  {
    if |b| == 0 {
      assert [x][1..] == [];
      assert b + [x] == [x];
    } else {
      SubseqLast(b[1..], x);
      assert (b + [x])[1..] == b[1..] + [x];
    }
  }

  /** Does any element occur in both sequences? */
  predicate Intersects<T(==)>(a: seq<T>, b: seq<T>) {
    exists x :: x in a && x in b
  }

  /** `s.filter(x => keep.includes(x))`: the elements of `s` also in `keep`. */
  function KeepIn<T(==,!new)>(s: seq<T>, keep: seq<T>): (r: seq<T>)
    ensures forall x :: x in r <==> x in s && x in keep
    ensures forall x :: multiset(r)[x] == if x in keep then multiset(s)[x] else 0
    ensures Subseq(r, s)
    ensures |r| > 0 <==> Intersects(s, keep)
  {
    var p := x => x in keep;
    FilterMultiset(s, p);
    var r := Filter(s, p);
    if Intersects(s, keep) then
      var x :| x in s && x in keep;
      assert x in r;
      r
    else r
  }
}

=== FILE: sidebar.dfy ===
/** The conversation list beside the chat: a reducer that moves a
    conversation to the top when a message arrives for it, and the fields
    each row shows. */
module Sidebar {
  import opened Base
  import opened Seqs
  import opened Models
  import opened Views

  /** Only these message kinds touch the list; system notices do not. */
  predicate Listable(k: MessageType) {
    k == Text || k == Image || k == CallInvite
  }

  /** A row after a message: the message becomes its last message and its
      time the last interaction. */
  function Bumped(c: ConvView, msg: MessageView): (r: ConvView)
    ensures r.id == c.id && r.lastMessage == LastMessageDoc(msg) && r.lastInteraction == Some(msg.createdAt)
    ensures r.(lastMessage := c.lastMessage, lastInteraction := c.lastInteraction) == c
  {
    c.(lastMessage := LastMessageDoc(msg), lastInteraction := Some(msg.createdAt))
  }

  function Ids(list: seq<ConvView>): (r: seq<Id>)
    ensures |r| == |list| && forall i :: 0 <= i < |list| ==> r[i] == list[i].id
  {
    MapSeq(list, (c: ConvView) => c.id)
  }

  /** The `receive_message` reducer. */
  function OnMessage(list: seq<ConvView>, msg: MessageView): (r: seq<ConvView>)
    ensures |r| == |list|
    ensures multiset(Ids(r)) == multiset(Ids(list))
    // a system notice, or a message for a conversation not in the list, changes nothing
    ensures !Listable(msg.kind) || (forall c :: c in list ==> c.id != msg.conversationId) ==> r == list
    // otherwise the first row with that id moves to the top, updated, and
    // every other row keeps its place relative to the rest
    ensures Listable(msg.kind) && (exists c :: c in list && c.id == msg.conversationId) ==>
      exists i :: 0 <= i < |list| && list[i].id == msg.conversationId
        && (forall j :: 0 <= j < i ==> list[j].id != msg.conversationId)
        && r[0] == Bumped(list[i], msg)
        && r[1..i + 1] == list[..i] && r[i + 1..] == list[i + 1..]
  {
    if !Listable(msg.kind) then list
    else
      match FindIndex(list, (c: ConvView) => c.id == msg.conversationId)
      case None => list
      case Some(i) =>
        var r := [Bumped(list[i], msg)] + RemoveAt(list, i);
        assert r[1..i + 1] == list[..i];
        assert r[i + 1..] == list[i + 1..];
        MoveToFrontIds(list, i, r);
        r
  }

  lemma MoveToFrontIds(list: seq<ConvView>, i: nat, r: seq<ConvView>)
    requires i < |list| && |r| == |list| && r[0].id == list[i].id
    requires r[1..i + 1] == list[..i] && r[i + 1..] == list[i + 1..]
    ensures multiset(Ids(r)) == multiset(Ids(list))
  {
    var a := Ids(list);
    var b := Ids(r);
    var c := [a[i]] + a[..i] + a[i + 1..];
    forall k | 0 <= k < |b|
      ensures b[k] == c[k]
    {
      if 1 <= k <= i {
        assert r[k] == r[1..i + 1][k - 1];
      } else if i < k {
        assert r[k] == r[i + 1..][k - (i + 1)];
      }
    }
    assert b == c;
    assert a == a[..i] + [a[i]] + a[i + 1..];
  }

  /** A second delivery of the same message leaves the list as the first
      one did: the conversation is already on top with that message. */
  lemma {:induction false} OnMessageIdempotent(list: seq<ConvView>, msg: MessageView)
    ensures OnMessage(OnMessage(list, msg), msg) == OnMessage(list, msg)
  {
    var r := OnMessage(list, msg);
    if Listable(msg.kind) && FindIndex(list, (c: ConvView) => c.id == msg.conversationId).Some? {
      assert r[0].id == msg.conversationId;
      assert FindIndex(r, (c: ConvView) => c.id == msg.conversationId) == Some(0);
      assert Bumped(r[0], msg) == r[0];
      assert [r[0]] + RemoveAt(r, 0) == r;
    }
  }

  /** The preview line under a row. */
  function Preview(last: LastMessage): (r: string)
    ensures r != ""
    ensures !last.LastMessageDoc? ==> r == "No messages yet"
    // a populated message: a photo or call marker, else its text, else `Message`
    ensures last.LastMessageDoc? && last.msg.kind == Image ==> r == "\U{1F4F7} Photo"
    ensures last.LastMessageDoc? && last.msg.kind == CallInvite ==> r == "\U{1F4DE} Call"
    ensures last.LastMessageDoc? && last.msg.kind != Image && last.msg.kind != CallInvite ==>
      && (last.msg.originalText != "" ==> r == last.msg.originalText)
      && (last.msg.originalText == "" ==> r == "Message")
  {
    match last
    case LastMessageDoc(m) =>
      if m.kind == Image then "\U{1F4F7} Photo"
      else if m.kind == CallInvite then "\U{1F4DE} Call"
      else if m.originalText != "" then m.originalText
      else "Message"
    case _ => "No messages yet"
  }

  /** After a message arrives for a listed conversation, the top row
      previews it: a photo or call marker, or its text. */
  lemma PreviewAfterMessage(list: seq<ConvView>, msg: MessageView)
    requires Listable(msg.kind) && exists c :: c in list && c.id == msg.conversationId
    ensures var r := OnMessage(list, msg);
      && r[0].id == msg.conversationId
      && (msg.kind == Image ==> Preview(r[0].lastMessage) == "\U{1F4F7} Photo")
      && (msg.kind == CallInvite ==> Preview(r[0].lastMessage) == "\U{1F4DE} Call")
      && (msg.kind == Text && msg.originalText != "" ==> Preview(r[0].lastMessage) == msg.originalText)
      && (msg.kind == Text && msg.originalText == "" ==> Preview(r[0].lastMessage) == "Message")
  {
  }

  /** The "you learn" label: the first of the viewer's learning codes that is
      one of the conversation's languages, else the first language. */
  function LearnLabel(me: Person, langs: seq<string>): (r: Option<string>)
    ensures r.Some? ==> r.value in langs
    ensures forall i ::
              (0 <= i < |me.learningLanguages| && me.learningLanguages[i].language in langs
               && me.learningLanguages[i].language != ""
               && (forall j :: 0 <= j < i ==> me.learningLanguages[j].language !in langs))
              ==> r == Some(me.learningLanguages[i].language)
    ensures (forall e :: e in me.learningLanguages ==> e.language !in langs) ==>
      r == At(langs, 0)
  {
    var found := Find(me.learningLanguages, (e: LearningEntry) => e.language in langs);
    var first := At(langs, 0);
    Or(if found.Some? then Some(found.value.language) else None, first)
  }

  /** The "you speak" label: the first of the viewer's native languages that
      is one of the conversation's languages, else the second language. */
  function SpeakLabel(me: Person, langs: seq<string>): (r: Option<string>)
    ensures r.Some? ==> r.value in langs
    ensures forall i ::
              (0 <= i < |me.nativeLanguages| && me.nativeLanguages[i] in langs
               && me.nativeLanguages[i] != ""
               && (forall j :: 0 <= j < i ==> me.nativeLanguages[j] !in langs))
              ==> r == Some(me.nativeLanguages[i])
    ensures (forall n :: n in me.nativeLanguages ==> n !in langs) ==>
      r == At(langs, 1)
  {
    Or(Find(me.nativeLanguages, (n: string) => n in langs), At(langs, 1))
  }

  /** What a row shows. */
  datatype Row = Row(
    other: Option<Person>,
    online: bool,
    badge: Option<nat>,
    learn: Option<string>,
    speak: Option<string>,
    preview: string)

  function RowOf(c: ConvView, me: Person, onlineUsers: set<Id>): (r: Row)
    ensures r.other == OtherUser(c.participants, me.id)
    ensures r.online <==> r.other.Some? && r.other.value.id in onlineUsers
    // the flame badge with the streak count appears exactly for a live streak
    ensures r.badge.Some? <==> c.streak > 0
    ensures r.badge.Some? ==> r.badge.value == c.streak
    ensures r.learn == LearnLabel(me, c.languages) && r.speak == SpeakLabel(me, c.languages)
    ensures r.learn.Some? ==> r.learn.value in c.languages
    ensures r.speak.Some? ==> r.speak.value in c.languages
    ensures r.preview == Preview(c.lastMessage)
  {
    var other := OtherUser(c.participants, me.id);
    Row(other, Online(other, onlineUsers), if c.streak > 0 then Some(c.streak) else None,
        LearnLabel(me, c.languages), SpeakLabel(me, c.languages), Preview(c.lastMessage))
  }

  /** For a pair created as languages `[teach, learn]`, a viewer who learns
      `learn` and speaks `teach` (and not the other way round) sees exactly
      those two labels. */
  lemma {:induction false} LabelsOfPair(me: Person, teach: string, learn: string)
    requires teach != "" && learn != "" && teach != learn
    requires learn in LearningCodes(me.learningLanguages) && teach !in LearningCodes(me.learningLanguages)
    requires teach in me.nativeLanguages && learn !in me.nativeLanguages
    ensures LearnLabel(me, [teach, learn]) == Some(learn)
    ensures SpeakLabel(me, [teach, learn]) == Some(teach)
  {
    var langs := [teach, learn];
    var codes := LearningCodes(me.learningLanguages);
    var j :| 0 <= j < |codes| && codes[j] == learn;
    assert me.learningLanguages[j].language in langs;
    var k := FindIndex(me.learningLanguages, (e: LearningEntry) => e.language in langs).value;
    assert codes[k] == me.learningLanguages[k].language;
    assert me.learningLanguages[k].language == learn;
    var n := FindIndex(me.nativeLanguages, (x: string) => x in langs).value;
    assert me.nativeLanguages[n] == teach;
  }
}

=== FILE: sorting.dfy ===
/** The `sort({ field: -1 })` and `limit(n)` stages of the repository's
    queries: a descending order on an integer key, and a prefix. */
module Sorting {

  predicate SortedDesc<T>(s: seq<T>, key: T -> int) {
    forall i, j :: 0 <= i < j < |s| ==> key(s[i]) >= key(s[j])
  }

  /** Places `x` before the first element whose key is not larger. */
  function InsertDesc<T>(x: T, s: seq<T>, key: T -> int): (r: seq<T>)
    requires SortedDesc(s, key)
    ensures SortedDesc(r, key)
    ensures multiset(r) == multiset(s) + multiset{x}
    ensures |r| == |s| + 1
    decreases |s|
  {
    if |s| == 0 then [x]
    else if key(x) >= key(s[0]) then [x] + s
    else
      var rest := InsertDesc(x, s[1..], key);
      assert s == [s[0]] + s[1..];
      forall i | 0 <= i < |rest|
        ensures key(s[0]) >= key(rest[i])
      {
        assert rest[i] in multiset(rest);
        if rest[i] != x {
          assert rest[i] in multiset(s[1..]);
          var j :| 0 <= j < |s[1..]| && s[1..][j] == rest[i];
          assert s[1..][j] == s[j + 1];
        }
      }
      SortedCons(s[0], rest, key);
      [s[0]] + rest
  }

  lemma SortedCons<T>(h: T, t: seq<T>, key: T -> int)
    requires SortedDesc(t, key)
    requires forall i :: 0 <= i < |t| ==> key(h) >= key(t[i])
    ensures SortedDesc([h] + t, key)
  {
    var r := [h] + t;
    forall i, j | 0 <= i < j < |r|
      ensures key(r[i]) >= key(r[j])
    {
      assert r[j] == t[j - 1];
      if i > 0 {
        assert r[i] == t[i - 1];
      }
    }
  }

  /** Insertion sort, largest key first. */
  function SortDesc<T>(s: seq<T>, key: T -> int): (r: seq<T>)
    ensures SortedDesc(r, key)
    ensures multiset(r) == multiset(s)
    ensures |r| == |s|
    decreases |s|
  {
    if |s| == 0 then []
    else
      assert s == [s[0]] + s[1..];
      InsertDesc(s[0], SortDesc(s[1..], key), key)
  }

  /** `limit(n)`: at most the first `n` elements. */
  function Take<T>(s: seq<T>, n: nat): (r: seq<T>)
    ensures |r| == if |s| < n then |s| else n
    ensures r == s[..|r|]
  {
    if |s| < n then s else s[..n]
  }

  /** Reordering keeps exactly the same elements. */
  lemma SameMembers<T>(a: seq<T>, b: seq<T>)
    requires multiset(a) == multiset(b)
    ensures forall x :: x in a <==> x in b
  {
    forall x ensures x in a <==> x in b {
      assert x in a <==> multiset(a)[x] > 0;
      assert x in b <==> multiset(b)[x] > 0;
    }
  }

  /** Whatever a prefix of a descending sequence leaves out ranks no higher
      than anything it keeps. */
  lemma PrefixRanksHighest<T>(s: seq<T>, p: seq<T>, key: T -> int)
    requires SortedDesc(s, key) && |p| <= |s| && p == s[..|p|]
    ensures SortedDesc(p, key)
    ensures forall c, x :: c in s && c !in p && x in p ==> key(c) <= key(x)
  {
    forall c, x | c in s && c !in p && x in p
      ensures key(c) <= key(x)
    {
      var j :| 0 <= j < |s| && s[j] == c;
      var i :| 0 <= i < |p| && p[i] == x;
      assert s[i] == x;
    }
  }
}

=== FILE: store.dfy ===
/** The repository as in-memory collections kept in natural (insertion)
    order, with the `_id` and unique-index checks the database applies on
    insert. A write that would break a unique index fails. */
module Store {
  import opened Base
  import opened Seqs
  import opened Models

  /** All collections: users, conversations, messages, and each user's
      total-messages-sent counter (the only statistic the core touches). */
  datatype Db = Db(
    users: seq<User>,
    conversations: seq<Conversation>,
    messages: seq<Message>,
    stats: map<Id, nat>)

  /** `User.findById` / `findOne({ _id })`: the first user with that id. */
  function UserById(users: seq<User>, id: Id): (r: Option<User>)
    ensures r.Some? ==> r.value in users && r.value.id == id
    ensures r.None? ==> forall i :: 0 <= i < |users| ==> users[i].id != id
  {
    Find(users, (u: User) => u.id == id)
  }

  /** `User.findOne({ email })`. */
  function UserByEmail(users: seq<User>, email: string): (r: Option<User>)
    ensures r.Some? ==> r.value in users && r.value.email == email
    ensures r.None? ==> forall i :: 0 <= i < |users| ==> users[i].email != email
  {
    Find(users, (u: User) => u.email == email)
  }

  function UserIndex(users: seq<User>, id: Id): (r: Option<nat>)
    ensures r.Some? ==> r.value < |users| && users[r.value].id == id
    ensures r.None? ==> forall i :: 0 <= i < |users| ==> users[i].id != id
  {
    FindIndex(users, (u: User) => u.id == id)
  }

  /** `Conversation.findById`, as a position in the collection. */
  function ConvIndex(convs: seq<Conversation>, id: Id): (r: Option<nat>)
    ensures r.Some? ==> r.value < |convs| && convs[r.value].id == id
    ensures r.None? ==> forall i :: 0 <= i < |convs| ==> convs[i].id != id
  {
    FindIndex(convs, (c: Conversation) => c.id == id)
  }

  /** Would inserting `u` break the `_id`, `username` or `email` unique index? */
  predicate UserClash(users: seq<User>, u: User) {
    exists i :: 0 <= i < |users| &&
      (users[i].id == u.id || users[i].username == u.username || users[i].email == u.email)
  }

  predicate ConvIdTaken(convs: seq<Conversation>, id: Id) {
    exists i :: 0 <= i < |convs| && convs[i].id == id
  }

  predicate MessageIdTaken(msgs: seq<Message>, id: Id) {
    exists i :: 0 <= i < |msgs| && msgs[i].id == id
  }
}

=== FILE: streak.dfy ===
/** The per-conversation daily streak: on every message the calendar days
    between the previous interaction and now decide whether the streak is
    kept, extended by one, or restarted at one. Timestamps are milliseconds
    since the epoch and calendar days are taken in one fixed time reference. */
module Streak {
  import opened Base
  import opened Models

  const MsPerDay: int := 86400000

  /** The calendar day a timestamp falls on. */
  function Day(t: int): int {
    t / MsPerDay
  }

  /** Calendar days between the previous interaction and now; a conversation
      with no interaction yet is measured from the epoch. */
  function DayGap(last: Option<int>, now: int): nat {
    Abs(Day(now) - Day(last.GetOr(0)))
  }

  function NextStreak(streak: nat, gap: nat): nat {
    if gap == 0 then (if streak == 0 then 1 else streak)
    else if gap == 1 then streak + 1
    else 1
  }

  /** The streak part of handling a message: only `streak` and
      `lastInteraction` change, and afterwards the conversation has been
      active today with a streak of at least one. */
  function RecordInteraction(c: Conversation, now: int): (r: Conversation)
    ensures r == c.(streak := r.streak, lastInteraction := Some(now))
    ensures r.streak >= 1
    ensures c.lastInteraction.Some? && Day(c.lastInteraction.value) == Day(now) ==>
      r.streak == if c.streak == 0 then 1 else c.streak
    ensures c.lastInteraction.Some? && Abs(Day(now) - Day(c.lastInteraction.value)) == 1 ==>
      r.streak == c.streak + 1
    ensures c.lastInteraction.Some? && Abs(Day(now) - Day(c.lastInteraction.value)) >= 2 ==>
      r.streak == 1
    ensures c.lastInteraction.None? && c.streak == 0 ==> r.streak == 1
    ensures c.lastInteraction.None? && Abs(Day(now)) >= 2 ==> r.streak == 1
  {
    c.(streak := NextStreak(c.streak, DayGap(c.lastInteraction, now)), lastInteraction := Some(now))
  }

  /** The conversation after one message at each of `times`, oldest first. */
  function Replay(c: Conversation, times: seq<int>): Conversation
    decreases |times|
  {
    if |times| == 0 then c
    else RecordInteraction(Replay(c, times[..|times| - 1]), times[|times| - 1])
  }

  predicate Chronological(times: seq<int>) {
    forall i, j :: 0 <= i < j < |times| ==> times[i] <= times[j]
  }

  /** At least one message was sent on calendar day `d`. */
  ghost predicate ActiveOn(times: seq<int>, d: int) {
    exists i :: 0 <= i < |times| && Day(times[i]) == d
  }

  lemma DayMonotone(a: int, b: int)
    requires a <= b
    ensures Day(a) <= Day(b)
  {
  }

  /** Every calendar day from `last - len + 1` to `last` is active. */
  ghost predicate ActiveRun(times: seq<int>, last: int, len: nat) {
    forall d :: last - len < d <= last ==> ActiveOn(times, d)
  }

  lemma ActiveSnoc(prefix: seq<int>, t: int, d: int)
    ensures ActiveOn(prefix + [t], d) <==> ActiveOn(prefix, d) || Day(t) == d
  {
    var times := prefix + [t];
    if ActiveOn(times, d) {
      var i :| 0 <= i < |times| && Day(times[i]) == d;
      if i < |prefix| {
        assert Day(prefix[i]) == d;
      }
    }
    if ActiveOn(prefix, d) {
      var i :| 0 <= i < |prefix| && Day(prefix[i]) == d;
      assert Day(times[i]) == d;
    }
    if Day(t) == d {
      assert Day(times[|prefix|]) == d;
    }
  }

  /** In chronological order no message falls on a day after the latest one. */
  lemma ActiveDaysBounded(times: seq<int>)
    requires |times| > 0 && Chronological(times)
    ensures forall d :: ActiveOn(times, d) ==> d <= Day(times[|times| - 1])
  {
    forall i | 0 <= i < |times|
      ensures Day(times[i]) <= Day(times[|times| - 1])
    {
      DayMonotone(times[i], times[|times| - 1]);
    }
  }

  lemma ReplayLastInteraction(c: Conversation, times: seq<int>)
    requires |times| > 0
    ensures Replay(c, times).lastInteraction == Some(times[|times| - 1])
  {
  }

  /** One message on day `day`, after a run of `s0` days ending on `lastDay`. */
  lemma RunStep(prefix: seq<int>, now: int, lastDay: int, s0: nat)
    requires s0 >= 1 && ActiveRun(prefix, lastDay, s0) && !ActiveOn(prefix, lastDay - s0)
    requires forall d :: ActiveOn(prefix, d) ==> d <= lastDay
    requires lastDay <= Day(now)
    ensures var s := NextStreak(s0, Day(now) - lastDay);
      ActiveRun(prefix + [now], Day(now), s) && !ActiveOn(prefix + [now], Day(now) - s)
  {
    var day := Day(now);
    var s := NextStreak(s0, day - lastDay);
    forall d
      ensures ActiveOn(prefix + [now], d) <==> ActiveOn(prefix, d) || d == day
    {
      ActiveSnoc(prefix, now, d);
    }
    if day == lastDay {
      assert s == s0;
    } else if day == lastDay + 1 {
      assert s == s0 + 1;
    } else {
      assert s == 1;
    }
  }

  /** Starting from a fresh conversation, after messages at `times` the
      streak counts exactly the run of consecutive active calendar days that
      ends on the day of the latest message. */
  lemma {:induction false} StreakCountsConsecutiveDays(c: Conversation, times: seq<int>)
    requires c.streak == 0 && c.lastInteraction.None?
    requires |times| > 0 && Chronological(times)
    ensures var s := Replay(c, times).streak;
      var last := Day(times[|times| - 1]);
      s >= 1 && ActiveRun(times, last, s) && !ActiveOn(times, last - s)
    decreases |times|
  {
    var n := |times|;
    var now := times[n - 1];
    var prefix := times[..n - 1];
    assert times == prefix + [now];
    if n == 1 {
      assert Replay(c, times) == RecordInteraction(c, now);
      ActiveSnoc(prefix, now, Day(now));
      ActiveSnoc(prefix, now, Day(now) - 1);
    } else {
      assert Chronological(prefix);
      StreakCountsConsecutiveDays(c, prefix);
      var prev := Replay(c, prefix);
      var lastDay := Day(prefix[n - 2]);
      DayMonotone(prefix[n - 2], now);
      ReplayLastInteraction(c, prefix);
      ActiveDaysBounded(prefix);
      assert Replay(c, times) == RecordInteraction(prev, now);
      assert DayGap(prev.lastInteraction, now) == Day(now) - lastDay;
      RunStep(prefix, now, lastDay, prev.streak);
    }
  }

  /** A worked example: a fresh conversation gets messages on one day, again
      later that day, on the next day, and then two days after that; the
      streak reads 1, 1, 2, 1. */
  lemma StreakTrace(c: Conversation)
    requires c.streak == 0 && c.lastInteraction.None?
    ensures var day1 := 20000 * MsPerDay;
      var r1 := RecordInteraction(c, day1 + 1000);
      var r2 := RecordInteraction(r1, day1 + 5000);
      var r3 := RecordInteraction(r2, day1 + MsPerDay + 7);
      var r4 := RecordInteraction(r3, day1 + 3 * MsPerDay);
      r1.streak == 1 && r2.streak == 1 && r3.streak == 2 && r4.streak == 1
  {
    var day1 := 20000 * MsPerDay;
    assert Day(day1 + 1000) == 20000;
    assert Day(day1 + 5000) == 20000;
    assert Day(day1 + MsPerDay + 7) == 20001;
    assert Day(day1 + 3 * MsPerDay) == 20003;
  }
}

=== FILE: text.dfy ===
/** String helpers with the meaning JavaScript gives them, restricted to
    ASCII where the browser would apply full Unicode case mapping. */
module Text {

  function LowerChar(c: char): (r: char)
    ensures 'A' <= c <= 'Z' ==> r as int == c as int + 32
    ensures !('A' <= c <= 'Z') ==> r == c
  {
    if 'A' <= c <= 'Z' then (c as int + 32) as char else c
  }

  function UpperChar(c: char): (r: char)
    ensures 'a' <= c <= 'z' ==> r as int == c as int - 32
    ensures !('a' <= c <= 'z') ==> r == c
  {
    if 'a' <= c <= 'z' then (c as int - 32) as char else c
  }

  /** `toLowerCase` on the ASCII letters. */
  function Lower(s: string): (r: string)
    ensures |r| == |s|
    ensures forall i :: 0 <= i < |s| ==> r[i] == LowerChar(s[i])
  {
    seq(|s|, i requires 0 <= i < |s| => LowerChar(s[i]))
  }

  /** `toUpperCase` on the ASCII letters. */
  function Upper(s: string): (r: string)
    ensures |r| == |s|
    ensures forall i :: 0 <= i < |s| ==> r[i] == UpperChar(s[i])
  {
    seq(|s|, i requires 0 <= i < |s| => UpperChar(s[i]))
  }

  /** `hay.includes(needle)`. */
  predicate Includes(hay: string, needle: string) {
    exists i :: 0 <= i <= |hay| && needle <= hay[i..]
  }

  /** The empty string occurs in every string. */
  lemma IncludesEmpty(hay: string)
    ensures Includes(hay, "")
  {
    assert "" <= hay[0..];
  }

  /** The characters `String.prototype.trim` strips (ASCII whitespace). */
  predicate IsSpace(c: char) {
    c == ' ' || c == '\t' || c == '\n' || c == '\r' || c == '\U{B}' || c == '\U{C}'
  }

  /** `trimStart`. */
  function TrimStart(s: string): (r: string)
    ensures |r| <= |s| && r == s[|s| - |r|..]
    ensures |r| > 0 ==> !IsSpace(r[0])
    decreases |s|
  {
    if |s| > 0 && IsSpace(s[0]) then TrimStart(s[1..]) else s
  }

  /** `trimEnd`. */
  function TrimEnd(s: string): (r: string)
    ensures |r| <= |s| && r == s[..|r|]
    ensures |r| > 0 ==> !IsSpace(r[|r| - 1])
    decreases |s|
  {
    if |s| > 0 && IsSpace(s[|s| - 1]) then TrimEnd(s[..|s| - 1]) else s
  }

  /** `trim`. */
  function Trim(s: string): string {
    TrimEnd(TrimStart(s))
  }

  /** A string trims to nothing exactly when every character is whitespace. */
  lemma {:induction false} TrimEmptyIffBlank(s: string)
    ensures Trim(s) == "" <==> forall i :: 0 <= i < |s| ==> IsSpace(s[i])
    decreases |s|
  {
    if |s| > 0 && IsSpace(s[0]) {
      TrimEmptyIffBlank(s[1..]);
      assert Trim(s) == Trim(s[1..]);
      assert forall i :: 1 <= i < |s| ==> s[i] == s[1..][i - 1];
    } else if |s| > 0 {
      assert TrimStart(s) == s;
      var t := TrimEnd(s);
      assert |t| > 0 by {
        if |t| == 0 {
          TrimEndEmpty(s);
        }
      }
    }
  }

  /** `trimEnd` leaves nothing only when every character is whitespace. */
  lemma {:induction false} TrimEndEmpty(s: string)
    requires TrimEnd(s) == ""
    ensures forall i :: 0 <= i < |s| ==> IsSpace(s[i])
    decreases |s|
  {
    if |s| > 0 {
      assert IsSpace(s[|s| - 1]);
      TrimEndEmpty(s[..|s| - 1]);
      assert forall i :: 0 <= i < |s| - 1 ==> s[i] == s[..|s| - 1][i];
    }
  }
}

=== FILE: toggles.dfy ===
/** The language pickers of the registration and profile forms: clicking a
    language removes it when selected and appends it otherwise. */
module Toggles {
  import opened Base
  import opened Seqs
  import opened Models

  /** A click on one of a form's two pickers. */
  datatype Click = NativeClick(lang: string) | LearningClick(lang: string)

  /** Toggle a plain value in a selection list. */
  function ToggleMember(s: seq<string>, x: string): (r: seq<string>)
    ensures x in r <==> x !in s
    ensures forall y :: y != x ==> (y in r <==> y in s)
    ensures x !in s ==> r == s + [x]
    ensures x in s ==> Subseq(r, s)
    ensures NoDup(s) ==> NoDup(r)
  {
    if x in s then
      var r := Filter(s, (y: string) => y != x);
      NoDupSubseq(r, s);
      r
    else
      assert forall i, j :: 0 <= i < j < |s| + 1 ==> (s + [x])[j] != (s + [x])[i] || j < |s|;
      s + [x]
  }

  /** Selecting a language that was not selected and then deselecting it
      gives back the original list. */
  lemma ToggleTwiceRestores(s: seq<string>, x: string)
    requires x !in s
    ensures ToggleMember(ToggleMember(s, x), x) == s
  {
    FilterDropLast(s, x, (y: string) => y != x);
  }

  /** The language codes of the entries a form holds. */
  function DraftCodes(s: seq<LearningDraft>): (r: seq<Option<string>>)
    ensures |r| == |s| && forall i :: 0 <= i < |s| ==> r[i] == s[i].language
  {
    MapSeq(s, (d: LearningDraft) => d.language)
  }

  /** The registration form's learning picker: keyed on the language code;
      a new entry starts at level `beginner`. */
  function ToggleLearning(s: seq<LearningDraft>, lang: string): (r: seq<LearningDraft>)
    ensures Some(lang) in DraftCodes(r) <==> Some(lang) !in DraftCodes(s)
    ensures forall d: LearningDraft :: d.language != Some(lang) ==> (d in r <==> d in s)
    ensures Some(lang) !in DraftCodes(s) ==> r == s + [LearningDraft(Some(lang), Some("beginner"))]
    ensures NoDup(DraftCodes(s)) ==> NoDup(DraftCodes(r))
  {
    if Find(s, (d: LearningDraft) => d.language == Some(lang)).Some? then
      var r := Filter(s, (d: LearningDraft) => d.language != Some(lang));
      assert Some(lang) !in DraftCodes(r) by {
        forall i | 0 <= i < |r| ensures DraftCodes(r)[i] != Some(lang) {
          assert r[i] in r;
        }
      }
      var k :| 0 <= k < |s| && s[k].language == Some(lang);
      assert DraftCodes(s)[k] == Some(lang);
      SubseqMap(r, s, (d: LearningDraft) => d.language);
      NoDupSubseq(DraftCodes(r), DraftCodes(s));
      r
    else
      var r := s + [LearningDraft(Some(lang), Some("beginner"))];
      assert DraftCodes(r)[|s|] == Some(lang);
      assert Some(lang) !in DraftCodes(s) by {
        forall i | 0 <= i < |s| ensures DraftCodes(s)[i] != Some(lang) {
        }
      }
      assert forall i :: 0 <= i < |s| ==> DraftCodes(r)[i] == DraftCodes(s)[i];
      r
  }

  /** Selecting a learning language that was not selected and then
      deselecting it gives back the original entries. */
  lemma ToggleLearningTwiceRestores(s: seq<LearningDraft>, lang: string)
    requires Some(lang) !in DraftCodes(s)
    ensures ToggleLearning(ToggleLearning(s, lang), lang) == s
  {
    var added := LearningDraft(Some(lang), Some("beginner"));
    assert forall i :: 0 <= i < |s| ==> s[i].language == DraftCodes(s)[i];
    FilterDropLast(s, added, (d: LearningDraft) => d.language != Some(lang));
  }
}

=== FILE: translate.dfy ===
/** The translation step of the message relay. The external service is an
    oracle that either returns a translation or fails; a failure never
    propagates and yields a deterministic tagged fallback instead. */
module Translate {
  import opened Base
  import opened Seqs

  /** What the external translation service did with one request. */
  datatype Service = Translated(text: string) | Failed

  /** How a template literal prints the target language (`undefined` when absent). */
  function Tag(target: Option<string>): string {
    if target.Some? then target.value else "undefined"
  }

  /** The fallback text: the target language in brackets, a space, the original. */
  function Fallback(target: Option<string>, text: string): string {
    "[" + Tag(target) + "] " + text
  }

  /** `translateText`: the service's answer, or the fallback when it fails. */
  function TranslateText(text: string, target: Option<string>, service: Service): (r: string)
    ensures service.Translated? ==> r == service.text
    ensures service.Failed? ==> r == Fallback(target, text)
  {
    match service
    case Translated(t) => t
    case Failed => Fallback(target, text)
  }

  /** Step 1 of the relay: only `text` messages go to the service; every
      other type keeps its content as the translated text. */
  function ResolveTranslation(kind: string, content: string, target: Option<string>, service: Service): (r: string)
    ensures kind != "text" ==> r == content
    ensures kind == "text" ==> r == TranslateText(content, target, service)
  {
    if kind == "text" then TranslateText(content, target, service) else content
  }

  /** Splits a fallback string back into the target tag and the original text. */
  function ParseFallback(s: string): Option<(string, string)> {
    if |s| == 0 || s[0] != '[' then None
    else
      match FindIndex(s[1..], (c: char) => c == ']')
      case None => None
      case Some(k) =>
        if k + 2 < |s| && s[k + 2] == ' ' then Some((s[1..k + 1], s[k + 3..])) else None
  }

  /** The fallback is lossless: as long as the target tag has no closing
      bracket, both the tag and the untranslated text can be read back. */
  lemma FallbackRoundTrip(target: Option<string>, text: string)
    requires forall i :: 0 <= i < |Tag(target)| ==> Tag(target)[i] != ']'
    ensures ParseFallback(Fallback(target, text)) == Some((Tag(target), text))
  {
    var tag := Tag(target);
    var s := Fallback(target, text);
    assert s[1..] == tag + "] " + text;
    var k := |tag|;
    assert s[1..][k] == ']';
    assert forall j :: 0 <= j < k ==> s[1..][j] == tag[j];
    assert FindIndex(s[1..], (c: char) => c == ']') == Some(k);
    assert s[k + 2] == ' ';
    assert s[1..k + 1] == tag;
    assert s[k + 3..] == text;
  }
}

=== FILE: views.dfy ===
/** The records the browser client holds: the JSON the endpoints and the
    real-time channel send, with references either populated into
    documents or left as bare ids. */
module Views {
  import opened Base
  import opened Seqs
  import opened Models

  /** A populated user: what the client reads of a participant, a sender or
      the logged-in user. */
  datatype Person = Person(
    id: Id,
    username: Option<string>,
    nativeLanguages: seq<string>,
    learningLanguages: seq<LearningEntry>)

  function PersonOf(u: User): Person {
    Person(u.id, Some(u.username), u.nativeLanguages, u.learningLanguages)
  }

  /** The logged-in user as the client stores it after login or registration. */
  function PersonOfProfile(p: Profile): Person {
    Person(p.id, Some(p.username), p.nativeLanguages, p.learningLanguages)
  }

  /** A message's sender: a bare id, or populated into a user document. */
  datatype SenderRef = SenderId(id: Id) | SenderDoc(person: Person)

  datatype MessageView = MessageView(
    id: Id,
    conversationId: Id,
    sender: SenderRef,
    originalText: string,
    translatedText: Option<string>,
    kind: MessageType,
    createdAt: int)

  /** A conversation's last message: absent, a bare id, or the document. */
  datatype LastMessage = NoLastMessage | LastMessageRef(id: Id) | LastMessageDoc(msg: MessageView)

  datatype ConvView = ConvView(
    id: Id,
    requester: Id,
    recipient: Id,
    participants: seq<Person>,
    languages: seq<string>,
    learningMap: map<Id, string>,
    lastMessage: LastMessage,
    lastInteraction: Option<int>,
    streak: nat)

  /** A stored conversation as the list endpoints send it, with the given
      participant documents and last message. */
  function ViewOf(c: Conversation, people: seq<Person>, last: LastMessage): ConvView {
    ConvView(c.id, c.requester, c.recipient, people, c.languages, c.learningMap, last, c.lastInteraction, c.streak)
  }

  /** A stored message as the channel delivers it, with the sender populated. */
  function MessageViewOf(m: Message, sender: Person): MessageView {
    MessageView(m.id, m.conversationId, SenderDoc(sender), m.originalText, m.translatedText, m.kind, m.createdAt)
  }

  /** The other side of a conversation: the first participant who is not
      the viewer. */
  function OtherUser(participants: seq<Person>, me: Id): (r: Option<Person>)
    ensures r.Some? ==> r.value in participants && r.value.id != me
    ensures r.Some? ==> exists i :: 0 <= i < |participants| && participants[i] == r.value
                          && forall j :: 0 <= j < i ==> participants[j].id == me
    ensures r.None? <==> forall p :: p in participants ==> p.id == me
  {
    match FindIndex(participants, (p: Person) => p.id != me)
    case None => None
    case Some(i) => Some(participants[i])
  }

  /** The green dot: the other user's id is in the last online-users set the
      client heard; with no other user nothing is online. */
  predicate Online(other: Option<Person>, onlineUsers: set<Id>) {
    other.Some? && other.value.id in onlineUsers
  }
}
